=== FILE: README.md ===
# asreview-preprocess deduplication, modelled in Dafny

This project models the deduplication engine of asreview-preprocess, a plug-in for
ASReview that finds and removes duplicate bibliographic records before screening.
The engine has six parts, each a Dafny module:

- **Field normalisers** (`DdUtils`, with the older variants in `PreprocessUtils`).
  They clean the title, abstract, DOI, pages, journal, volume and ISBN fields, and
  build the first-author and short-title keys.
- **Pair, group and selection logic** (`Base`). It covers:
  - combined blocking keys;
  - candidate pairs from blocking, where blank keys never agree;
  - the missing-score overrides and pair ids;
  - the greedy group-building scan and the expansion of groups back into pairs;
  - KEEP/REMOVE tagging, with the optional drop.
- **Filter composition** (`FilterPipeline`). A filter's type moves through a small state
  machine: unset, then "standalone", "and" or "or". The pipeline takes the union of its
  filters' verdicts.
- **Cleaning-stage selection** (`CleanPipeline`). It resolves include/exclude and applies
  the selected cleaners column by column.
- **Method configurations and registry** (`Methods`). ASReview's method and Endnote's
  default method are constant `MethodConfig` records run by one `Run`. `ApplyDedup`
  resolves a method name.
- **Supporting logic**:
  - exact-duplicate flags on PID or text (`Duplicated`);
  - column-specification precedence and the fill rules applied before deduplication
    (`IoUtils`);
  - the output file name of a run (`EpUtils`).

`Tables` holds the record table. A `Cell` is a string, a missing value (`Null`), or the
empty list that a failed DOI match yields. A row's position is its record id, as with
pandas' default 0..n-1 index. `Text` holds the Python `str` operations the cleaners use,
on ASCII case and on Python's whitespace set. `Config` is the fixed list of ten
canonical fields. `Sorting` is `sorted` on record ids. `Wrappers` holds `Option` and
`Result`; a `Result` error is the Python exception the source raises (`KeyError`,
`ValueError`, `IndexError`, `NotImplementedError`, `UnboundLocalError`).

Code outside the model becomes a parameter:
- `unidecode` is a per-character transliteration `translit`, applied to non-ASCII
  characters only, so it is the identity on ASCII by construction;
- `clean_authors` is a function in `CleanPipeline.Env`;
- the journal abbreviation table is a `map`;
- ASReview's `type_from_column` lookups are two functions `dedupType` and `asrType`;
- the order in which recordlinkage's blocking index lists the candidate pairs is a
  permutation `linkOrder`;
- the multi-key sort of `_dedup` is a permutation `order`;
- the clock reading is a `DateTime` value.

Where the code and its documentation disagree, the model follows the code:
- The grouping scan is not union-find. The pairs (1,2), (3,4), (2,3) give the groups
  [1,2,3] and [3,4], and record 3 is in both (`Base.GroupsOverlapExample`).
- `apply_dedup` accepts only "asr"; "endnote", which its docstring lists, raises
  `NotImplementedError`.

The combined title+abstract key, as written, defeats the blank-key rule: two records
with empty title and abstract both get the key " " and blocking pairs them
(`Base.AsWrittenBlankRecordsLinked`). The model's runs use the corrected key, under which
such records are never paired (`Base.CorrectedBlankRecordsNotLinked`); see Findings.

Three calls cannot run as written, so their evident intent is modelled:
- `CleanPipeline.pipe` writes to `self.pipeline`, which does not exist (the base class
  holds `_pipeline`). The methods also call `apply_pipe`, which CleanPipeline never
  defines. `CleanPipeline.Pipe` models `pipe` as written otherwise, and the methods use it.
- The methods call `_get_candidate_pairs` and `_get_pairs_df`, which `BaseDedup` does
  not define. They are modelled as `_get_candidate_links`, followed by one pairs row per
  candidate pair.
- `_get_pair_rids` and `_get_groups_from_pairs` are declared without `self`, yet they
  are called as methods. They are modelled as the functions of their one argument.

## Model

| member | source | states |
|---|---|---|
| DdUtils.StripHtmlPlain | asreviewcontrib/preprocess/deduplication/dd_utils.py:7-22 | removing tags and the listed HTML entities leaves a text without `<` or `&` unchanged |
| DdUtils.UnidecodeAscii | asreviewcontrib/preprocess/deduplication/dd_utils.py:38 | transliteration leaves an all-ASCII text unchanged |
| DdUtils.CollapseSpaces | asreviewcontrib/preprocess/deduplication/dd_utils.py:40 | the result has no two adjacent spaces, holds only characters of the input, and keeps the first character |
| DdUtils.CanonicalizeShape | asreviewcontrib/preprocess/deduplication/dd_utils.py:39-40 | replacing non-alphanumerics, collapsing spaces, stripping and upper-casing always yields canonical text: only A-Z, 0-9 and single inner spaces |
| DdUtils.CanonicalizeFixed | asreviewcontrib/preprocess/deduplication/dd_utils.py:39-40 | canonical text is left unchanged by those steps |
| DdUtils.CleanTitle | asreviewcontrib/preprocess/deduplication/dd_utils.py:35-41 | a cleaned title holds only A-Z, 0-9 and spaces, with no leading, trailing or doubled space |
| DdUtils.CleanAbstract | asreviewcontrib/preprocess/deduplication/dd_utils.py:44-52 | a cleaned abstract has the same canonical shape as a cleaned title |
| DdUtils.CleanTitleIdempotent | asreviewcontrib/preprocess/deduplication/dd_utils.py:35-41 | cleaning a cleaned title changes nothing |
| DdUtils.CleanAbstractIdempotent | asreviewcontrib/preprocess/deduplication/dd_utils.py:44-52 | cleaning a cleaned abstract changes nothing |
| DdUtils.CleanYear | asreviewcontrib/preprocess/deduplication/dd_utils.py:55-58 | the year cleaner returns its input unchanged |
| DdUtils.CleanNumber | asreviewcontrib/preprocess/deduplication/dd_utils.py:123-126 | the issue-number cleaner returns its input unchanged |
| DdUtils.DoiMatch | asreviewcontrib/preprocess/deduplication/dd_utils.py:64 | there is no match exactly when no "10." is followed by a non-newline character; a match starts at the leftmost such "10." and runs to the end of its line |
| DdUtils.DoiMatchLeftmost | asreviewcontrib/preprocess/deduplication/dd_utils.py:64 | whenever k is the leftmost position where "10." and one more non-newline character start, the match is the text from k to the end of that line |
| DdUtils.LeftmostDoiStartUnique | asreviewcontrib/preprocess/deduplication/dd_utils.py:64 | there is only one leftmost starting position of a match |
| DdUtils.CleanDoi | asreviewcontrib/preprocess/deduplication/dd_utils.py:61-67 | "" stays ""; non-empty input without a match gives the empty match list; a match gives the DOI URL prefix plus the stripped, upper-cased match, with no lower-case letter after the prefix |
| DdUtils.CleanDoiLeftmost | asreviewcontrib/preprocess/deduplication/dd_utils.py:61-67 | the cleaned DOI is the URL prefix plus the stripped, upper-cased text from the leftmost "10." to the end of its line |
| DdUtils.PadEnd | asreviewcontrib/preprocess/deduplication/dd_utils.py:81-84 | the padded end is as long as the longer of start and end, ends with the end, and is padded with the start's leading digits |
| DdUtils.FormatRange | asreviewcontrib/preprocess/deduplication/dd_utils.py:79-86 | a range without an end is its start; otherwise it begins with the start and "-", ends with the original end, and the part after the dash is as long as the longer of start and end; only digits and dashes appear |
| DdUtils.FormatRangeEnd | asreviewcontrib/preprocess/deduplication/dd_utils.py:81-85 | the end of a formatted range is never shorter than its start and ends with the original end |
| DdUtils.CleanPages | asreviewcontrib/preprocess/deduplication/dd_utils.py:70-86 | a value holding a dd-dd-dddd date gives ""; the empty value gives no result (None); any other value gives the formatted range of its digits and dashes |
| DdUtils.FormatRangeIdempotent | asreviewcontrib/preprocess/deduplication/dd_utils.py:79-86 | formatting a formatted range changes nothing |
| DdUtils.CleanPagesIdempotent | asreviewcontrib/preprocess/deduplication/dd_utils.py:70-86 | cleaning a non-empty cleaned pages value changes nothing |
| DdUtils.NoDateInRange | asreviewcontrib/preprocess/deduplication/dd_utils.py:75-86 | a formatted range never contains a date, so cleaning cannot create one |
| DdUtils.JournalKey | asreviewcontrib/preprocess/deduplication/dd_utils.py:91-92 | the lookup key holds only ASCII letters, digits and whitespace |
| DdUtils.JournalKeyOfKey | asreviewcontrib/preprocess/deduplication/dd_utils.py:91-92 | a name that already has only those characters is its own key |
| DdUtils.CleanJournal | asreviewcontrib/preprocess/deduplication/dd_utils.py:89-98 | a key found in the table gives its full name; a miss gives the original, unmodified input |
| DdUtils.LoadAbbreviations | asreviewcontrib/preprocess/deduplication/dd_utils.py:25-30 | every row's abbreviation is a key, no other key exists, the last row with a key wins, and every full name is ASCII |
| DdUtils.CleanVolume | asreviewcontrib/preprocess/deduplication/dd_utils.py:117-120 | the cleaned volume has no upper-case letter, and without "(no pagination)" it is the lower-cased input |
| DdUtils.CleanVolumeFacts | asreviewcontrib/preprocess/deduplication/dd_utils.py:119 | removing "(no pagination)" from the lower-cased volume leaves no upper-case letter and touches nothing when it is absent |
| DdUtils.CleanVolumeMarker | asreviewcontrib/preprocess/deduplication/dd_utils.py:117-120 | a "(no pagination)" marker in any letter case, with no marker starting before it, is removed: the result is the lower-cased text before it followed by the cleaned text after it |
| DdUtils.CleanVolumeTrailingMarker | asreviewcontrib/preprocess/deduplication/dd_utils.py:117-120 | a volume that ends in the marker, with no parenthesis before it, becomes the lower-cased text before the marker |
| DdUtils.CleanVolumeExample | asreviewcontrib/preprocess/deduplication/dd_utils.py:117-120 | "12 (No Pagination)" is cleaned to "12 " |
| DdUtils.CleanIsbn | asreviewcontrib/preprocess/deduplication/dd_utils.py:129-133 | the result contains no carriage return; without a "(Print)"/"(Electronic)" annotation it is the input with each carriage return replaced by "; " |
| DdUtils.StripAnnotationsNoneIf | asreviewcontrib/preprocess/deduplication/dd_utils.py:131 | a value without an annotation is left unchanged by the annotation removal |
| DdUtils.StripAnnotationsTail | asreviewcontrib/preprocess/deduplication/dd_utils.py:131 | an annotation on the last line is removed with the rest of that line, whatever comes before it |
| DdUtils.CleanIsbnAnnotation | asreviewcontrib/preprocess/deduplication/dd_utils.py:129-133 | an ISBN followed by " (Print)" or " (Electronic)" and more text on the same line cleans to the same value as the ISBN alone |
| DdUtils.NamesBeforeInitialPrefix | asreviewcontrib/preprocess/deduplication/dd_utils.py:138-141 | the name tokens are exactly those before the first single-character token |
| DdUtils.NamesBeforeInitialAll | asreviewcontrib/preprocess/deduplication/dd_utils.py:138-141 | without a single-character token, every token is kept |
| DdUtils.FirstThree | asreviewcontrib/preprocess/deduplication/dd_utils.py:152-153 | at most three words are kept, a prefix of the long words, and all of them when there are at most three |
| DdUtils.LongWordsSplit | asreviewcontrib/preprocess/deduplication/dd_utils.py:149-151 | the words longer than two characters of a split sequence are those of each part, in order |
| DdUtils.LetterKey | asreviewcontrib/preprocess/deduplication/dd_utils.py:143-144 | a key holds only the upper-case letters A-Z |
| DdUtils.GetFirstAuthor | asreviewcontrib/preprocess/deduplication/dd_utils.py:136-144 | the key is the letters, upper-cased, of the tokens before the first single-character token |
| DdUtils.GetShortTitle | asreviewcontrib/preprocess/deduplication/dd_utils.py:147-156 | the key is the letters, upper-cased, of the first three words longer than two characters |
| Config.CanonicalFieldsComplete | asreviewcontrib/preprocess/config.py:1-12 | the ten canonical fields are distinct, every field is among them, and its name gives it back |
| IoUtils.ColsForDedupeAreFieldNames | asreviewcontrib/preprocess/config.py:1-12 | the column list used for deduplication is the canonical field names, in order |
| Tables.BlankToMissing | asreviewcontrib/preprocess/deduplication/base.py:77 | a cell becomes missing exactly when it is blank; any other cell is unchanged |
| Tables.SelectColumns | asreviewcontrib/preprocess/deduplication/methods/asr.py:20-22 | selecting columns fails exactly when one is absent; otherwise the table has exactly those columns, every row and the same cells |
| Tables.ApplyToColumn | asreviewcontrib/preprocess/deduplication/clean_pipeline.py:68 | applying a function to a column fails exactly when the column is absent, and otherwise changes that column alone |
| Base.MapColumns | asreviewcontrib/preprocess/deduplication/base.py:60 | every field is looked up in the column specification; a field without a column raises `KeyError` on it |
| Base.AddCombinedColumn | asreviewcontrib/preprocess/deduplication/base.py:59-65 | the new column is named by joining the mapped column names with "_"; every row gets its combined value there and keeps all other cells |
| Base.CreateCombinedColumns | asreviewcontrib/preprocess/deduplication/base.py:53-67 | one new column per specification, in order, each named by its joined column names and present in the table |
| Base.CreateSingleCombinedColumn | asreviewcontrib/preprocess/deduplication/base.py:58-67 | one specification adds exactly the column that `AddCombinedColumn` adds |
| Base.CombinedValueAsWrittenNeverBlank | asreviewcontrib/preprocess/deduplication/base.py:62-64 | as written, a key combined from two or more fields is never blank, even when every field is empty |
| Base.AsWrittenBlankRecordsLinked | asreviewcontrib/preprocess/deduplication/base.py:62-86 | as written, two records whose combined fields are all empty share a key that blocking treats as non-blank, so they are a candidate pair |
| Base.CorrectedBlankRecordsNotLinked | asreviewcontrib/preprocess/deduplication/base.py:62-86 | with the corrected key, a record whose combined fields are all empty is never paired with a later record on that column |
| Base.CombinedValueAsWrittenBlankRecordsAgree | asreviewcontrib/preprocess/deduplication/base.py:62-64 | as written, the key of an empty title and an empty abstract is " ", which blocking does not treat as blank |
| Base.CombinedValue | asreviewcontrib/preprocess/deduplication/base.py:62-64 | the corrected combined value is empty exactly when every field is empty |
| Base.CombinedValueAgrees | asreviewcontrib/preprocess/deduplication/base.py:62-64 | whenever some field is non-empty, the corrected value equals the value as written |
| Base.RowKeyBlank | asreviewcontrib/preprocess/deduplication/base.py:62-77 | a row's corrected combined key is blank exactly when all its fields are empty |
| Base.BlanksToMissing | asreviewcontrib/preprocess/deduplication/base.py:71-78 | every empty value in the table becomes missing; nothing else changes |
| Base.BlockKeys | asreviewcontrib/preprocess/deduplication/base.py:80-84 | each row's key is its cells in the blocking columns, in order |
| Base.PairsFrom | asreviewcontrib/preprocess/deduplication/base.py:80-84 | the pairs are exactly the i<j that agree on some non-missing key, in ascending order |
| Base.CandidateLinks | asreviewcontrib/preprocess/deduplication/base.py:69-86 | blocking fails exactly when a blocking column is absent; otherwise it yields, in ascending order, exactly the pairs i<j equal on some blocking column whose value is not blank |
| Base.CandidateLinksMeaning | asreviewcontrib/preprocess/deduplication/base.py:69-86 | blanks-to-missing followed by key agreement is the same as equality on a non-blank blocking value |
| Base.HandleMissingRow | asreviewcontrib/preprocess/deduplication/base.py:123-151 | a score changes only when both sides are missing: abstract, DOI and ISBN become 0, pages, volume and number become 1; title, authors, year and journal never change |
| Base.HandleMissing | asreviewcontrib/preprocess/deduplication/base.py:123-151 | every pairs row gets the override, in order |
| Base.HandleMissingIdempotent | asreviewcontrib/preprocess/deduplication/base.py:123-151 | applying the override twice equals applying it once |
| Base.PairRids | asreviewcontrib/preprocess/deduplication/base.py:153-160 | one ascending id pair per pairs row, in row order, holding the row's two ids |
| Base.Scan | asreviewcontrib/preprocess/deduplication/base.py:168-178 | the scan over the groups only extends groups, by at most one id each; it reports "added" exactly when some group holds either id, and then some group holds both |
| Base.AddPair | asreviewcontrib/preprocess/deduplication/base.py:166-180 | after a pair is processed some group holds both ids; no group loses an id; a new group is exactly the pair |
| Base.ProcessFacts | asreviewcontrib/preprocess/deduplication/base.py:164-181 | after the whole scan, every pair shares a group, groups only grow, new groups hold at least two ids, and every id comes from the pairs |
| Base.GroupsFromPairs | asreviewcontrib/preprocess/deduplication/base.py:162-183 | every pair's ids share a group; every group has at least two ids, is sorted, and holds only ids of the pairs; groups are strictly sorted when no pair repeats an id |
| Base.GroupsSorted | asreviewcontrib/preprocess/deduplication/base.py:182 | sorting each group keeps every property the scan established |
| Base.GroupsOverlapExample | asreviewcontrib/preprocess/deduplication/base.py:162-183 | the pairs (1,2), (3,4), (2,3) give the groups [1,2,3] and [3,4], which overlap |
| Base.GroupsOrderDependent | asreviewcontrib/preprocess/deduplication/base.py:162-183 | the same three pairs give one group [1,2,3,4] in the order (1,2), (2,3), (3,4), and two overlapping groups in the order (1,2), (3,4), (2,3) |
| Base.ProcessExample | asreviewcontrib/preprocess/deduplication/base.py:164-181 | the scan, before sorting, gives [[1,2,3],[3,4]] on those pairs |
| Base.GroupsOfAscendingScan | asreviewcontrib/preprocess/deduplication/base.py:182 | when the scan's groups are already sorted, sorting them changes nothing |
| Sorting.Sort | asreviewcontrib/preprocess/deduplication/base.py:182 | the result is sorted, a permutation of the input, and strictly sorted when the input has no repeat |
| Sorting.SortOfSorted | asreviewcontrib/preprocess/deduplication/base.py:182 | sorting a sorted sequence changes nothing |
| Sorting.SortPair | asreviewcontrib/preprocess/deduplication/base.py:156 | a sorted pair is ascending and holds the same two ids |
| Base.Combinations2 | asreviewcontrib/preprocess/deduplication/base.py:190 | a group of k ids yields k(k-1)/2 ascending pairs: every pair of distinct positions, and nothing else |
| Base.Combinations2Cons | asreviewcontrib/preprocess/deduplication/base.py:190 | the pairs of the first id with each later id come first, in order, then the pairs among the later ids |
| Base.PairsFromGroups | asreviewcontrib/preprocess/deduplication/base.py:185-193 | the pair count is the sum of k(k-1)/2; the pairs are exactly the sorted position pairs of some group |
| Base.PairsFromGroupsAppend | asreviewcontrib/preprocess/deduplication/base.py:185-193 | a group added last contributes its pairs after those of all earlier groups |
| Base.PairsFromGroupsCoverPairs | asreviewcontrib/preprocess/deduplication/base.py:162-193 | expanding the groups of ascending pairs gives back every original pair |
| Base.Flatten | asreviewcontrib/preprocess/deduplication/base.py:197 | the duplicate ids are exactly the members of some group |
| Base.Unmatched | asreviewcontrib/preprocess/deduplication/base.py:198 | the unique ids are exactly the record ids in no group, in ascending order |
| Base.Arrange | asreviewcontrib/preprocess/deduplication/base.py:197-205 | the group members come first, then the unique ids; a member of the i-th group is tagged i+1 and an unmatched record 0 |
| Base.LabelsSpec | asreviewcontrib/preprocess/deduplication/base.py:208-220 | a row is KEEP exactly when its tag is 0 or no earlier row and no already-seen tag shares its tag |
| Base.OneKeepPerTag | asreviewcontrib/preprocess/deduplication/base.py:208-220 | every tag-0 row is KEEP; every non-zero tag that occurs has exactly one KEEP row |
| Base.SelectKeptRows | asreviewcontrib/preprocess/deduplication/base.py:222-225 | selecting the KEEP rows equals the one-pass keep-first-per-tag fold |
| Base.KeptRowsCount | asreviewcontrib/preprocess/deduplication/base.py:208-225 | the kept rows number the tag-0 rows plus one per distinct non-zero tag |
| Base.KeptRowsPerTag | asreviewcontrib/preprocess/deduplication/base.py:208-225 | all tag-0 rows are kept, and exactly one row of each non-zero tag |
| Base.PermutedZeroCount | asreviewcontrib/preprocess/deduplication/base.py:206 | reordering the rows keeps the number of tag-0 rows |
| Base.PermutedTagSet | asreviewcontrib/preprocess/deduplication/base.py:206 | reordering the rows keeps the set of tags |
| Base.ArrangeCounts | asreviewcontrib/preprocess/deduplication/base.py:197-205 | with non-empty groups, the tag-0 rows are the unmatched records and the non-zero tags are exactly 1 to the number of groups |
| Base.ArrangedGroupTag | asreviewcontrib/preprocess/deduplication/base.py:197-206 | in any reordering, a non-empty i-th group's tag i+1 occurs |
| Base.Dedup | asreviewcontrib/preprocess/deduplication/base.py:195-227 | `_dedup` fails exactly when a grouped id is not a record (`loc` fails first) or the table lacks the "abstract" or "year" sort column (`KeyError` for the first missing one); otherwise each row carries its record, its group tag and its KEEP/REMOVE label; with drop, only the kept rows remain, without labels |
| Base.DedupOneKeepPerGroup | asreviewcontrib/preprocess/deduplication/base.py:204-220 | whatever the sort order, unmatched records are KEEP and each group has exactly one KEEP row |
| Base.DedupDropOnePerGroup | asreviewcontrib/preprocess/deduplication/base.py:222-225 | with drop, every unmatched record remains and exactly one record of each group |
| Base.DedupDropCount | asreviewcontrib/preprocess/deduplication/base.py:222-225 | with drop, the output has one row per group plus one per unmatched record |
| FilterPipeline.Add | asreviewcontrib/preprocess/deduplication/filter_pipeline.py:23-26 | adding appends the entry, makes the filter standalone, and never fails |
| FilterPipeline.AddMultiple | asreviewcontrib/preprocess/deduplication/filter_pipeline.py:28-38 | it raises `ValueError` exactly when the filter is standalone or already has another type, with the source's message for each (naming the requested and the current type in the second); otherwise it appends the entries in order and sets the type |
| FilterPipeline.AddThenAddMultiple | asreviewcontrib/preprocess/deduplication/filter_pipeline.py:23-30 | once `add` has been used, `add_multiple` always fails |
| FilterPipeline.AddMultipleAccumulates | asreviewcontrib/preprocess/deduplication/filter_pipeline.py:32-38 | entries added with the same type accumulate in order; another type is refused with the message naming both types |
| FilterPipeline.EmptyFilters | asreviewcontrib/preprocess/deduplication/filter_pipeline.py:72-80 | an empty "and" filter accepts every pair, an empty "or" filter none |
| FilterPipeline.AndValue | asreviewcontrib/preprocess/deduplication/filter_pipeline.py:72-75 | the product of the indicators is 1 exactly when every entry passes, 0 otherwise |
| FilterPipeline.OrValue | asreviewcontrib/preprocess/deduplication/filter_pipeline.py:77-80 | the sum of the indicators is positive exactly when some entry passes |
| FilterPipeline.StageValueMeaning | asreviewcontrib/preprocess/deduplication/filter_pipeline.py:69-80 | a filter's value is positive exactly when it accepts: first entry only for standalone, all entries for "and", some entry for "or" |
| FilterPipeline.StageColumn | asreviewcontrib/preprocess/deduplication/filter_pipeline.py:66-82 | one filter's column fails exactly when it cannot be evaluated (a missing first entry or feature); an unknown type reuses the previous column, or fails when there is none |
| FilterPipeline.AccumulateMeaning | asreviewcontrib/preprocess/deduplication/filter_pipeline.py:65-82 | the summed results are positive exactly for the pairs some known filter accepts |
| FilterPipeline.AccumulateOk | asreviewcontrib/preprocess/deduplication/filter_pipeline.py:65-82 | the evaluation fails exactly when the first filter has an unknown type or a known filter cannot be evaluated |
| FilterPipeline.NonZero | asreviewcontrib/preprocess/deduplication/filter_pipeline.py:84 | the selected positions are exactly those with a non-zero result, ascending |
| FilterPipeline.PipelineAdd | asreviewcontrib/preprocess/deduplication/filter_pipeline.py:47-49 | a filter is appended after the existing ones, which stay in place |
| FilterPipeline.Survivors | asreviewcontrib/preprocess/deduplication/filter_pipeline.py:59-84 | the empty pipeline raises `ValueError`; the survivors are in input order |
| FilterPipeline.ApplyPipe | asreviewcontrib/preprocess/deduplication/filter_pipeline.py:51-84 | the result is the input's rows at the surviving positions, in order, with the same columns |
| FilterPipeline.SurvivorsMeaning | asreviewcontrib/preprocess/deduplication/filter_pipeline.py:59-84 | the pipeline succeeds exactly when it is non-empty, starts with a known type, and every known filter can be evaluated; a pair survives exactly when some filter accepts it |
| FilterPipeline.AddWidensSurvivors | asreviewcontrib/preprocess/deduplication/filter_pipeline.py:47-82 | adding a filter keeps every survivor and adds exactly the pairs the new filter accepts |
| CleanPipeline.CleanFunc | asreviewcontrib/preprocess/deduplication/clean_pipeline.py:7-18 | a cleaner exists exactly for the ten names of the table |
| CleanPipeline.Without | asreviewcontrib/preprocess/deduplication/clean_pipeline.py:56-58 | the result holds exactly the names that are not excluded |
| CleanPipeline.WithoutSubsequence | asreviewcontrib/preprocess/deduplication/clean_pipeline.py:56-58 | the remaining names keep the table's order |
| CleanPipeline.Selection | asreviewcontrib/preprocess/deduplication/clean_pipeline.py:49-60 | include wins when given; exclude alone removes names from the table; neither selects all ten in table order |
| CleanPipeline.IncludeWins | asreviewcontrib/preprocess/deduplication/clean_pipeline.py:49-54 | with include given, exclude makes no difference |
| CleanPipeline.ExcludeOnly | asreviewcontrib/preprocess/deduplication/clean_pipeline.py:55-58 | with exclude only, a name is selected exactly when it is in the table and not excluded, in table order |
| CleanPipeline.LookupCleaners | asreviewcontrib/preprocess/deduplication/clean_pipeline.py:64-65 | a name outside the table raises `KeyError` on it; otherwise each name gets its cleaner, in order |
| CleanPipeline.ColumnEffectUntouched | asreviewcontrib/preprocess/deduplication/clean_pipeline.py:67-68 | a column no stage targets is unchanged |
| CleanPipeline.ColumnEffectSingle | asreviewcontrib/preprocess/deduplication/clean_pipeline.py:67-68 | a column exactly one stage targets gets that stage's cleaner |
| CleanPipeline.RunStagesMeaning | asreviewcontrib/preprocess/deduplication/clean_pipeline.py:67-68 | running the stages fails, with `KeyError`, exactly when a stage's field has no column; otherwise each cell gets the cleaners of its column's stages, in order |
| CleanPipeline.Pipe | asreviewcontrib/preprocess/deduplication/clean_pipeline.py:33-74 | the cleaned table has the same columns and rows, and no missing value |
| CleanPipeline.PipeMeaning | asreviewcontrib/preprocess/deduplication/clean_pipeline.py:46-74 | `pipe` succeeds exactly when every selected name is a cleaner and every stage and the year field resolve to columns; each cell is filled, cleaned by the added stages and then the selected ones, and filled again |
| CleanPipeline.PipeLeavesOthers | asreviewcontrib/preprocess/deduplication/clean_pipeline.py:64-68 | a column no stage targets only has its missing values filled |
| CleanPipeline.SelectedStageOnly | asreviewcontrib/preprocess/deduplication/clean_pipeline.py:62-68 | a column targeted by one selected cleaner and by no added stage gets exactly that cleaner |
| CleanPipeline.PipeCleansSelected | asreviewcontrib/preprocess/deduplication/clean_pipeline.py:64-68 | a selected field's column holds its cleaner applied to the filled value |
| IoUtils.GetColumnSpec | asreviewcontrib/preprocess/io/io_utils.py:79-95 | a field is in the specification exactly when some column resolves to it |
| IoUtils.ColumnSpecLastWins | asreviewcontrib/preprocess/io/io_utils.py:84-93 | when several columns resolve to one field, the last of them wins |
| IoUtils.ColumnSpecDedupFirst | asreviewcontrib/preprocess/io/io_utils.py:86-93 | a column the deduplication definitions resolve is never looked up in ASReview's definitions |
| IoUtils.FillField | asreviewcontrib/preprocess/io/io_utils.py:40-48 | a missing value becomes "" and a string is kept |
| IoUtils.FillColumn | asreviewcontrib/preprocess/io/io_utils.py:40-48 | filling changes one column of every row and nothing else |
| IoUtils.AddEmptyColumn | asreviewcontrib/preprocess/io/io_utils.py:32-34 | the inserted column holds "" in every row |
| IoUtils.FillStep | asreviewcontrib/preprocess/io/io_utils.py:31-48 | a field's step fails exactly when the field has no column and either the caller's specification lacks it (`KeyError`), the column already exists (`ValueError`), or the table has fewer than five columns, so position 5 does not exist (`IndexError`) |
| IoUtils.FillStepMeaning | asreviewcontrib/preprocess/io/io_utils.py:32-48 | a field without a column gets an empty column and its caller-given name; a non-year field's column is filled; all other cells are kept |
| IoUtils.FillFieldsMeaning | asreviewcontrib/preprocess/io/io_utils.py:31-48 | the loop succeeds exactly when each field has a column or can get one, counting the columns the earlier fields inserted toward the five `insert` needs; afterwards every field is specified, earlier entries are kept, and exactly the non-year fields' columns are filled |
| IoUtils.FillFieldsNoMissing | asreviewcontrib/preprocess/io/io_utils.py:40-48 | after the loop, every non-year field's column has no missing value |
| IoUtils.FillFieldsKeepsSpec | asreviewcontrib/preprocess/io/io_utils.py:32-33 | the loop never changes a column already in the specification |
| IoUtils.JournalOrSecondary | asreviewcontrib/preprocess/io/io_utils.py:62-66 | an empty journal is replaced by the secondary title; a non-empty one is kept |
| IoUtils.UseSecondaryTitle | asreviewcontrib/preprocess/io/io_utils.py:51-66 | the fallback fails exactly when the secondary-title or journal columns are absent, and otherwise keeps the table's shape |
| IoUtils.SecondaryKeepsStrings | asreviewcontrib/preprocess/io/io_utils.py:56-66 | the fallback never makes a missing value out of a string column |
| IoUtils.AuthorName | asreviewcontrib/preprocess/io/io_utils.py:69-74 | "" and any case of "anonymous" become "Unknown"; every other value is unchanged |
| IoUtils.FormatAuthors | asreviewcontrib/preprocess/io/io_utils.py:69-74 | the author rule changes the authors column alone, and fails exactly when that column is absent |
| IoUtils.FormatAuthorsKeepsStrings | asreviewcontrib/preprocess/io/io_utils.py:69-74 | the author rule never makes a missing value out of a string column |
| IoUtils.StandardizeForDedup | asreviewcontrib/preprocess/io/io_utils.py:13-76 | after standardisation every canonical field is in the specification and no row is lost |
| IoUtils.StandardizeFillsFields | asreviewcontrib/preprocess/io/io_utils.py:31-76 | after standardisation, every non-year canonical field's column has no missing value |
| Methods.WorkingTable | asreviewcontrib/preprocess/deduplication/methods/asr.py:19-22 | the working table exists exactly when every canonical field has a column, and holds exactly those columns with missing values as "" |
| Methods.CleanedTable | asreviewcontrib/preprocess/deduplication/methods/asr.py:24-25 | cleaning keeps the working table's columns and rows |
| Methods.OnlyConfiguredFieldsCleaned | asreviewcontrib/preprocess/deduplication/methods/asr.py:24-25 | a column of no configured field keeps its filled original value |
| Methods.Prepare | asreviewcontrib/preprocess/deduplication/methods/asr.py:29-31 | the blocking columns are the combined columns, in order, then the extra key columns, all present in the prepared table |
| Methods.AsrBlockKeys | asreviewcontrib/preprocess/deduplication/methods/asr.py:29-31 | ASReview's blocking columns are the combined title_abstract column, then the DOI column |
| Methods.EndnoteBlockKeys | asreviewcontrib/preprocess/deduplication/methods/endnote_default.py:26-28 | Endnote's method has exactly one blocking column, authors_year_title |
| Methods.LinkRids | asreviewcontrib/preprocess/deduplication/methods/asr.py:35-40 | one pair id per candidate pair, holding the same two records |
| Methods.LinkIsBlocked | asreviewcontrib/preprocess/deduplication/methods/asr.py:32 | every candidate pair is ascending and blocked |
| Methods.BlockedIsLink | asreviewcontrib/preprocess/deduplication/methods/asr.py:32 | every blocked ascending pair is a candidate pair |
| Methods.LinkedGroupsCover | asreviewcontrib/preprocess/deduplication/methods/asr.py:40-41 | every candidate pair shares a group |
| Methods.LinkedGroupsMembers | asreviewcontrib/preprocess/deduplication/methods/asr.py:40-41 | every grouped record belongs to a candidate pair |
| Methods.Groups | asreviewcontrib/preprocess/deduplication/methods/asr.py:29-41 | the groups are those of the candidate pairs of the prepared table, in the blocking index's order, with no filter between them |
| Methods.BlockedPairsShareGroup | asreviewcontrib/preprocess/deduplication/methods/asr.py:37-41 | every blocked pair of records ends up in a common group, whatever order the candidate pairs come in |
| Methods.GroupedRecordsBlocked | asreviewcontrib/preprocess/deduplication/methods/asr.py:37-41 | every grouped record is blocked with some other record, whatever order the candidate pairs come in |
| Methods.BlockingIsAcceptance | asreviewcontrib/preprocess/deduplication/methods/endnote_default.py:33-38 | blocking alone decides, for every order of the candidate pairs: blocked pairs share a group and grouped records are blocked |
| Methods.Run | asreviewcontrib/preprocess/deduplication/methods/asr.py:18-44 | for a table whose column names are the ones passed in, a run succeeds only when its groups exist, and every output row carries its record from the input table |
| Methods.RunIsDedup | asreviewcontrib/preprocess/deduplication/methods/asr.py:40-44 | a successful run is `_dedup` of the input table with the run's groups, the reordering, and the caller's drop flag |
| Methods.ApplyDedup | asreviewcontrib/preprocess/deduplication/dedup.py:21-26 | "asr" runs ASReview's method with duplicates dropped; every other name raises `NotImplementedError` |
| Methods.ApplyDedupDrops | asreviewcontrib/preprocess/deduplication/dedup.py:26 | `apply_dedup` output has no labels, keeps every unmatched record and exactly one record per group |
| Duplicated.NormalisePid | asreviewcontrib/preprocess/deduplication.py:49-50 | a PID is present exactly when it strips to something non-empty, and is then its stripped value |
| Duplicated.PidValues | asreviewcontrib/preprocess/deduplication.py:47-52 | a string PID column is stripped per cell; any other column is compared as it is |
| Duplicated.NormaliseText | asreviewcontrib/preprocess/deduplication.py:60-66 | a text is missing exactly when it has no ASCII letter or digit; otherwise it is non-empty lower-case letters and digits |
| Duplicated.NormaliseTextIdempotent | asreviewcontrib/preprocess/deduplication.py:60-66 | normalising a normalised text changes nothing |
| Duplicated.FlagDuplicates | asreviewcontrib/preprocess/deduplication.py:55 | a position is flagged exactly when its value is present and an earlier position holds the same value |
| Duplicated.FlagDefinitionsAgree | asreviewcontrib/preprocess/deduplication.py:69 | the slice-membership definition of a later duplicate equals the earlier-index one |
| Duplicated.OneUnflaggedPerValue | asreviewcontrib/preprocess/deduplication.py:55 | every present value is unflagged at its first position and flagged at every later one |
| Duplicated.DuplicatedRecordsMeaning | asreviewcontrib/preprocess/deduplication.py:45-77 | a record is flagged exactly when it repeats an earlier present text, or, when there is a PID column, an earlier present PID |
| Duplicated.BlankNeverFlagged | asreviewcontrib/preprocess/deduplication.py:55-69 | a record with a missing PID and no letter or digit in its text is never flagged |
| EpUtils.Basename | asreviewcontrib/preprocess/entry_points/ep_utils.py:23 | the base name is the part of the path after its last `/` |
| EpUtils.LastDot | asreviewcontrib/preprocess/entry_points/ep_utils.py:24 | the last `.` of a name, or none when the name has no dot |
| EpUtils.Stem | asreviewcontrib/preprocess/entry_points/ep_utils.py:24 | the stem is everything before the last dot, unless only dots precede it; it is a prefix of the name |
| EpUtils.StemExamples | asreviewcontrib/preprocess/entry_points/ep_utils.py:24 | "records.ris" gives "records", "a.tar.gz" gives "a.tar", ".hidden" stays ".hidden" |
| EpUtils.Digits | asreviewcontrib/preprocess/entry_points/ep_utils.py:24 | a zero-padded field has exactly its width and holds only digits |
| EpUtils.DigitsRoundTrip | asreviewcontrib/preprocess/entry_points/ep_utils.py:24 | a number that fits the width is read back from its padded digits |
| EpUtils.Timestamp | asreviewcontrib/preprocess/entry_points/ep_utils.py:24 | the stamp is 13 characters, digits with a `T` at position 8 |
| EpUtils.TimestampRoundTrip | asreviewcontrib/preprocess/entry_points/ep_utils.py:24 | year, month, day, hour and minute are read back from the stamp |
| EpUtils.DefaultOutputPath | asreviewcontrib/preprocess/entry_points/ep_utils.py:22-24 | the default name starts with the input's stem and "-deduplicated-" and ends in ".csv" |
| EpUtils.GetOutputPath | asreviewcontrib/preprocess/entry_points/ep_utils.py:5-25 | no input raises `IndexError`; an absent or empty path gives the default name; a ".csv" path is kept; another dotted path raises `ValueError`; a dot-free path gets ".csv"; every result ends in ".csv" |
| EpUtils.OnlyFirstInput | asreviewcontrib/preprocess/entry_points/ep_utils.py:12 | input paths after the first make no difference |
| EpUtils.OutputPathStable | asreviewcontrib/preprocess/entry_points/ep_utils.py:13-24 | a derived path, given back as the explicit path, is kept unchanged |
| EpUtils.DefaultIsFileName | asreviewcontrib/preprocess/entry_points/ep_utils.py:23-24 | the default name holds no `/` |
| PreprocessUtils.TypeFromColumnSpec | asreviewcontrib/preprocess/preprocess_utils.py:65-81 | the result is none exactly when no name matches ignoring case; otherwise it is the field of the first match, in order |
| PreprocessUtils.FirstMatchDecides | asreviewcontrib/preprocess/preprocess_utils.py:78-80 | once an entry matches, later entries make no difference |
| PreprocessUtils.CleanDoiLegacy | asreviewcontrib/preprocess/preprocess_utils.py:85-91 | "" is returned as it is; a match gives the DOI URL prefix plus the stripped match, not upper-cased; no match gives the empty list |
| PreprocessUtils.CleanDoiVersionsAgree | asreviewcontrib/preprocess/preprocess_utils.py:85-91 | the two DOI cleaners agree on which inputs give a DOI, and differ only by upper-casing after the prefix |
| PreprocessUtils.CleanPagesLegacy | asreviewcontrib/preprocess/preprocess_utils.py:94-109 | a date or the empty value gives ""; the result holds only digits and dashes |
| PreprocessUtils.CleanPagesVersionsAgree | asreviewcontrib/preprocess/preprocess_utils.py:94-109 | the two pages cleaners agree except on the empty value, where the newer one gives no result and the older one "" |
| PreprocessUtils.CleanPagesLegacyRange | asreviewcontrib/preprocess/preprocess_utils.py:101-108 | the older cleaner pads a shorter end with the start's leading digits and keeps a start without an end alone |
| PreprocessUtils.GetOutputPath | asreviewcontrib/preprocess/preprocess_utils.py:122-136 | the older output path follows the same rules as the entry points' version, with its own wording of the extension error |

## Left out

- `clean_authors` (deduplication/dd_utils.py:101-114) is a parameter. Its backtracking regex and `unidecode` are outside the model. The author cleaner in the table applies that parameter.
- `unidecode` is a per-character parameter; only its identity on ASCII is relied on.
- The comparison scores (`_get_similarity_features`, `_get_pairs_w_features`, deduplication/base.py:88-121) come from the recordlinkage library's Jaro-Winkler measure. The library is not part of this model. A score is an opaque `real`, and only the missing-value override table is modelled.
- Blocking is modelled as "records i<j that agree on some non-blank blocking column", not by recordlinkage's internals.
- The order of the candidate pairs is recordlinkage's and is left open: `Methods.Groups` takes it as the permutation `linkOrder`. The greedy grouping depends on it (`Base.GroupsOrderDependent`), so the model proves only what holds for every order.
- Base.RowKey: the runs use the corrected combined key. Where every combined field of two records is empty, the source pairs them and the model does not (see Findings).
- `Text.Upper` and `Text.Lower` change ASCII letters only. Python's `.upper()` (deduplication/dd_utils.py:66) and `.lower()` (deduplication/dd_utils.py:119, deduplication.py:63, preprocess_utils.py:79) are Unicode, so `clean_volume("Ä")` gives "ä" in the source and "Ä" in the model.
- The regular expressions' `\w` and `\d` (deduplication/dd_utils.py:8-9 and 75) are modelled on ASCII only. Python 3 matches them on Unicode word characters and digits, so `clean_title("<é>x")` drops the tag and gives "X" in the source, while the model keeps the tag's letter.
- A `Cell` is a string, a missing value or the empty list; numeric cells are not modelled. The source deliberately leaves the year column unfilled (io/io_utils.py:40), so a year column read as numbers stays numeric. `pipe` turns it into an object column (deduplication/clean_pipeline.py:71), and `_get_candidate_links` then calls `len(val)` on each of its cells (deduplication/base.py:73-77). That raises `TypeError`, so the source fails on every table with a numeric year in both methods (deduplication/methods/asr.py:20-32, deduplication/methods/endnote_default.py:17-28). `Methods.Run` and `Methods.ApplyDedup` cannot receive such a table and do not model that failure.
- `CleanPipeline.Lift` passes a missing value or an empty list through a string cleaner unchanged. The source's string cleaners raise `TypeError` on a non-string value, e.g. `clean_title([])` at deduplication/dd_utils.py:35-37. The model does not promise that error.
- A floating-point score is a `real`; NaN is modelled as a missing cell.
- The pandas index quirks are not modelled: base.py:112-113 assumes ids 1..n, and base.py:223 and filter_pipeline.py:84 use positions as labels. The model selects rows by position over a default 0..n-1 index.
- The sort of `_dedup` (deduplication/base.py:206) is an arbitrary permutation parameter. The KEEP/REMOVE properties hold for every order, so the sort keys only decide the `KeyError` for a missing "abstract" or "year" column.
- pandas' `replace("", None)` (deduplication.py:50, 66) behaves differently across pandas versions. The model follows the commented intent: empty becomes missing.
- The `self.texts` and `self.df[pid]` inputs of `duplicated` are parameters. Whether the PID column exists, and whether its dtype is string, is part of the `PidColumn` argument.
- The `deduplication()` function of deduplication.py (lines 19-42) reads and writes files and every branch is `pass`. It is not modelled.
- deduplication/asr.py is a superseded copy that cannot run; methods/asr.py is modelled instead.
- ASReview's `type_from_column` and `_standardize_dataframe` are outside this repository. The first is the parameters `dedupType`/`asrType`. The second is the column specification passed to `IoUtils.StandardizeForDedup`.
- The journal abbreviation CSV is read at import time (deduplication/dd_utils.py:25-30). `LoadAbbreviations` builds the map from its rows, and the cleaners take the map as a parameter. The file itself is not read.
- `_standardize_dataframe_for_deduplication` in preprocess_utils.py (lines 139 onward), and its `clean_authors`/`clean_isbn` stubs that return None, are not modelled. The io/io_utils.py version is the one the deduplication code uses.
- Logging, the `datetime.now()` clock and the `args` namespace are left out. The clock is a `DateTime` parameter and the paths are plain arguments.
- EpUtils.Timestamp: only years 1 to 9999 are modelled (`ValidDateTime`), and every year is zero-padded to four digits. glibc's `strftime('%Y')` does not pad years 1 to 999, so for those years the stamp is shorter than the model's 13 characters.
- IoUtils.StandardizeFillsFields: when the table has a secondary-title column, the lemma requires that the specification name it "secondary_title". The source fills the specification's secondary-title column but copies the literal `secondary_title` column into the journal (io/io_utils.py:56-66). With a differently named column, the journal can take a missing value from it.
- Methods.OnlyConfiguredFieldsCleaned: requires a non-empty list of cleaned fields. An empty include list means "all ten cleaners" in `pipe`, which is no method's configuration.
- The `BasePipeline` class (asreviewcontrib/preprocess/base.py) holds only the `_pipeline` list. That list is the `stages` of `FilterPipeline.Pipeline` and the `added` stages of `CleanPipeline.Pipe`.

## Findings

| source | as written | input that shows it | evidently intended | confidence | as-written member | corrected member |
|---|---|---|---|---|---|---|
| asreviewcontrib/preprocess/deduplication/base.py:62-64 | the combined blocking value joins the fields with " ", so records whose title and abstract are both empty get the key " " | two records with empty title and empty abstract: their title_abstract key is " ", which is not empty, so the blank-to-missing step at base.py:71-77 keeps it and blocking pairs them | the blank-key rule at base.py:71-72 says empty values must never form a pair, so a key made only of empty fields should count as empty | not executed | Base.AsWrittenBlankRecordsLinked | Base.CorrectedBlankRecordsNotLinked |

=== FILE: base.dfy ===
/** The pair, group and selection logic shared by the deduplication methods: combined
    blocking keys, candidate pairs from blocking, the missing-score overrides, pair ids,
    the greedy group-building scan, groups back to pairs, and KEEP/REMOVE tagging. */
module Base {
  import opened Wrappers
  import opened Text
  import opened Tables
  import opened Config
  import opened Sorting

  // ---------------------------------------------------------------------------------
  // Combined blocking keys

  /** `[col_specs[col] for col in columns]`: the column behind each canonical name, with
      `KeyError` for the first name the column specification lacks. */
  function MapColumns(colSpecs: map<string, string>, fields: seq<string>): (r: Result<seq<string>>)
    ensures r.Ok? <==> forall k :: 0 <= k < |fields| ==> fields[k] in colSpecs
    ensures r.Ok? ==> |r.value| == |fields|
    ensures r.Ok? ==> forall k :: 0 <= k < |fields| ==> r.value[k] == colSpecs[fields[k]]
    ensures r.Err? ==> exists k :: 0 <= k < |fields| && fields[k] !in colSpecs && r.error == KeyError(fields[k])
  {
    if fields == [] then Ok([])
    else if fields[0] !in colSpecs then Err(KeyError(fields[0]))
    else
      var rest :- MapColumns(colSpecs, fields[1..]);
      Ok([colSpecs[fields[0]]] + rest)
  }

  /** Total length of a list of strings. */
  function TotalLength(parts: seq<string>): nat {
    if parts == [] then 0 else |parts[0]| + TotalLength(parts[1..])
  }

  lemma {:induction false} JoinLength(parts: seq<string>, sep: string)
    requires |parts| >= 1
    ensures |Join(parts, sep)| == TotalLength(parts) + (|parts| - 1) * |sep|
  {
    if |parts| > 1 {
      JoinLength(parts[1..], sep);
    }
  }

  lemma {:induction false} JoinOfEmpty(parts: seq<string>, sep: string)
    requires forall k :: 0 <= k < |parts| ==> parts[k] == ""
    ensures TotalLength(parts) == 0
  {
    if parts != [] {
      JoinOfEmpty(parts[1..], sep);
    }
  }

  /** The key as the source builds it: the parts joined by single spaces. */
  function CombinedValueAsWritten(parts: seq<string>): string {
    Join(parts, " ")
  }

  /** As written, a combined key over two or more fields is never empty, even when every
      field is: `" ".join(["", ""])` is `" "`. */
  lemma CombinedValueAsWrittenNeverBlank(parts: seq<string>)
    requires |parts| >= 2
    ensures |CombinedValueAsWritten(parts)| >= |parts| - 1
    ensures !IsBlank(Str(CombinedValueAsWritten(parts)))
  {
    JoinLength(parts, " ");
  }

  /** Consequence: two records with blank title and blank abstract agree on the
      as-written title+abstract key, so blocking pairs them although the blank-to-missing
      step exists precisely to keep blank keys from matching. */
  lemma CombinedValueAsWrittenBlankRecordsAgree()
    ensures CombinedValueAsWritten(["", ""]) == " "
    ensures !IsBlank(Str(CombinedValueAsWritten(["", ""])))
  {
    assert Join(["", ""], " ") == "" + " " + Join([""], " ");
  }

  /** The key as evidently intended: empty when every part is empty (so it counts as
      blank and never matches), the space-joined parts otherwise. */
  function CombinedValue(parts: seq<string>): (r: string)
    ensures r == "" <==> forall k :: 0 <= k < |parts| ==> parts[k] == ""
  {
    if forall k :: 0 <= k < |parts| ==> parts[k] == "" then ""
    else
      NonEmptyPartJoin(parts);
      Join(parts, " ")
  }

  lemma NonEmptyPartJoin(parts: seq<string>)
    requires exists k :: 0 <= k < |parts| && parts[k] != ""
    ensures Join(parts, " ") != ""
  {
    var k :| 0 <= k < |parts| && parts[k] != "";
    NonEmptyPartLength(parts, k);
    JoinLength(parts, " ");
  }

  lemma {:induction false} NonEmptyPartLength(parts: seq<string>, k: nat)
    requires k < |parts| && parts[k] != ""
    ensures TotalLength(parts) > 0
  {
    if k > 0 {
      NonEmptyPartLength(parts[1..], k - 1);
    }
  }

  /** The corrected key agrees with the source's wherever some part is non-empty. */
  lemma CombinedValueAgrees(parts: seq<string>)
    requires exists k :: 0 <= k < |parts| && parts[k] != ""
    ensures CombinedValue(parts) == CombinedValueAsWritten(parts)
  {
  }

  /** One row's key: `astype(str)` of the listed cells, combined. */
  function RowKey(row: Row, cols: seq<string>): string
    requires forall k :: 0 <= k < |cols| ==> cols[k] in row
  {
    CombinedValue(seq(|cols|, k requires 0 <= k < |cols| => StrOf(row[cols[k]])))
  }

  /** A row's combined key is blank exactly when every one of its cells prints as "". */
  lemma RowKeyBlank(row: Row, cols: seq<string>)
    requires forall k :: 0 <= k < |cols| ==> cols[k] in row
    ensures IsBlank(Str(RowKey(row, cols))) <==> forall k :: 0 <= k < |cols| ==> StrOf(row[cols[k]]) == ""
  {
    var parts := seq(|cols|, k requires 0 <= k < |cols| => StrOf(row[cols[k]]));
    assert forall k :: 0 <= k < |cols| ==> parts[k] == StrOf(row[cols[k]]);
  }

  /** One combined column: its name joins the mapped column names with "_", its value in
      every row is that row's combined key; every other column is kept. */
  function AddCombinedColumn(t: Table, colSpecs: map<string, string>, fields: seq<string>): (r: Result<(Table, string)>)
    requires WellFormed(t)
    ensures MapColumns(colSpecs, fields).Err? ==> r.Err?
    ensures MapColumns(colSpecs, fields).Ok? ==>
      (r.Ok? <==> forall k :: 0 <= k < |fields| ==> MapColumns(colSpecs, fields).value[k] in t.columns)
    ensures r.Ok? ==> MapColumns(colSpecs, fields).Ok? && r.value.1 == Join(MapColumns(colSpecs, fields).value, "_")
    ensures r.Ok? ==> WellFormed(r.value.0) && r.value.0.columns == t.columns + {r.value.1}
    ensures r.Ok? ==> |r.value.0.rows| == |t.rows|
    ensures r.Ok? ==> forall i :: 0 <= i < |t.rows| ==>
      r.value.0.rows[i] == t.rows[i][r.value.1 := Str(RowKey(t.rows[i], MapColumns(colSpecs, fields).value))]
  {
    var cols :- MapColumns(colSpecs, fields);
    var missing := FirstMissing(cols, t.columns);
    if missing.Some? then
      assert cols == MapColumns(colSpecs, fields).value && |cols| == |fields|;
      assert !(forall k :: 0 <= k < |fields| ==> cols[k] in t.columns);
      Err(KeyError(missing.value))
    else
      var name := Join(cols, "_");
      Ok((Table(t.columns + {name},
                seq(|t.rows|, i requires 0 <= i < |t.rows| => t.rows[i][name := Str(RowKey(t.rows[i], cols))])),
          name))
  }

  /** `_create_combined_columns`: one combined column per spec, in order; the names are
      returned in the same order. */
  function CreateCombinedColumns(t: Table, colSpecs: map<string, string>, specs: seq<seq<string>>): (r: Result<(Table, seq<string>)>)
    requires WellFormed(t)
    ensures r.Ok? ==> WellFormed(r.value.0) && |r.value.0.rows| == |t.rows|
    ensures r.Ok? ==> t.columns <= r.value.0.columns
    ensures r.Ok? ==> |r.value.1| == |specs|
    ensures r.Ok? ==> forall k :: 0 <= k < |specs| ==>
      MapColumns(colSpecs, specs[k]).Ok? && r.value.1[k] == Join(MapColumns(colSpecs, specs[k]).value, "_")
    ensures r.Ok? ==> forall k :: 0 <= k < |specs| ==> r.value.1[k] in r.value.0.columns
    decreases |specs|
  {
    if specs == [] then Ok((t, []))
    else
      var (t1, name) :- AddCombinedColumn(t, colSpecs, specs[0]);
      var (t2, names) :- CreateCombinedColumns(t1, colSpecs, specs[1..]);
      CombinedNamesStep(colSpecs, specs, name, names, t2.columns);
      Ok((t2, [name] + names))
  }

  /** The first spec's name followed by the names of the rest are the names of all the
      specs, in order. */
  lemma CombinedNamesStep(colSpecs: map<string, string>, specs: seq<seq<string>>, name: string, names: seq<string>,
                          columns: set<string>)
    requires specs != [] && MapColumns(colSpecs, specs[0]).Ok?
    requires name == Join(MapColumns(colSpecs, specs[0]).value, "_") && name in columns
    requires |names| == |specs| - 1
    requires forall k :: 0 <= k < |specs[1..]| ==>
      MapColumns(colSpecs, specs[1..][k]).Ok? && names[k] == Join(MapColumns(colSpecs, specs[1..][k]).value, "_")
    requires forall k :: 0 <= k < |specs[1..]| ==> names[k] in columns
    ensures forall k :: 0 <= k < |specs| ==>
      MapColumns(colSpecs, specs[k]).Ok? && ([name] + names)[k] == Join(MapColumns(colSpecs, specs[k]).value, "_")
    ensures forall k :: 0 <= k < |specs| ==> ([name] + names)[k] in columns
  {
    forall k | 0 <= k < |specs|
      ensures MapColumns(colSpecs, specs[k]).Ok? && ([name] + names)[k] == Join(MapColumns(colSpecs, specs[k]).value, "_")
      ensures ([name] + names)[k] in columns
    {
      if k > 0 {
        assert specs[1..][k - 1] == specs[k];
      }
    }
  }

  /** With a single spec the result is that one combined column. */
  lemma CreateSingleCombinedColumn(t: Table, colSpecs: map<string, string>, fields: seq<string>)
    requires WellFormed(t)
    ensures CreateCombinedColumns(t, colSpecs, [fields]).Ok? <==> AddCombinedColumn(t, colSpecs, fields).Ok?
    ensures AddCombinedColumn(t, colSpecs, fields).Ok? ==>
      CreateCombinedColumns(t, colSpecs, [fields]).value
        == (AddCombinedColumn(t, colSpecs, fields).value.0, [AddCombinedColumn(t, colSpecs, fields).value.1])
  {
    assert [fields][1..] == [];
    var r := AddCombinedColumn(t, colSpecs, fields);
    if r.Ok? {
      assert CreateCombinedColumns(r.value.0, colSpecs, []) == Ok((r.value.0, []));
      assert [r.value.1] + [] == [r.value.1];
    }
  }

  // ---------------------------------------------------------------------------------
  // Blocking

  /** Every blank cell (missing, "", or the empty list) becomes missing, so that blank
      keys cannot agree. */
  function BlanksToMissing(t: Table): (t': Table)
    ensures t'.columns == t.columns && |t'.rows| == |t.rows|
    ensures forall i, c :: 0 <= i < |t.rows| && c in t.rows[i] ==>
      c in t'.rows[i] && t'.rows[i][c] == BlankToMissing(t.rows[i][c])
    ensures WellFormed(t) ==> WellFormed(t')
  {
    Table(t.columns, seq(|t.rows|, i requires 0 <= i < |t.rows| => MapRow(t.rows[i], BlankToMissing)))
  }

  /** Two rows block together on a key column when both hold the same value there and it
      is not missing. */
  predicate KeysAgree(a: seq<Cell>, b: seq<Cell>) {
    exists k :: 0 <= k < |a| && k < |b| && !a[k].Null? && a[k] == b[k]
  }

  /** The blocking key of every row. */
  function BlockKeys(t: Table, cols: seq<string>): (keys: seq<seq<Cell>>)
    requires WellFormed(t)
    requires forall k :: 0 <= k < |cols| ==> cols[k] in t.columns
    ensures |keys| == |t.rows|
    ensures forall i, k :: 0 <= i < |t.rows| && 0 <= k < |cols| ==> |keys[i]| == |cols| && keys[i][k] == t.rows[i][cols[k]]
  {
    seq(|t.rows|, i requires 0 <= i < |t.rows| => seq(|cols|, k requires 0 <= k < |cols| => t.rows[i][cols[k]]))
  }

  predicate LexLess(p: (nat, nat), q: (nat, nat)) {
    p.0 < q.0 || (p.0 == q.0 && p.1 < q.1)
  }

  /** Strictly increasing, hence free of repeats. */
  predicate AscendingPairs(ps: seq<(nat, nat)>) {
    forall a, b :: 0 <= a < b < |ps| ==> LexLess(ps[a], ps[b])
  }

  function PairsWith(keys: seq<seq<Cell>>, i: nat, j: nat): (r: seq<(nat, nat)>)
    requires i < |keys| && j <= |keys|
    ensures forall p :: p in r <==> p.0 == i && j <= p.1 < |keys| && KeysAgree(keys[i], keys[p.1])
    ensures forall a :: 0 <= a < |r| ==> r[a].0 == i && j <= r[a].1
    ensures forall a, b :: 0 <= a < b < |r| ==> r[a].1 < r[b].1
    decreases |keys| - j
  {
    if j == |keys| then []
    else (if KeysAgree(keys[i], keys[j]) then [(i, j)] else []) + PairsWith(keys, i, j + 1)
  }

  function PairsFrom(keys: seq<seq<Cell>>, i: nat): (r: seq<(nat, nat)>)
    requires i <= |keys|
    ensures forall p :: p in r <==> i <= p.0 < p.1 < |keys| && KeysAgree(keys[p.0], keys[p.1])
    ensures forall a :: 0 <= a < |r| ==> i <= r[a].0
    ensures AscendingPairs(r)
    decreases |keys| - i
  {
    if i == |keys| then []
    else
      var here := PairsWith(keys, i, i + 1);
      var rest := PairsFrom(keys, i + 1);
      assert forall a, b :: 0 <= a < |here| && 0 <= b < |rest| ==> LexLess(here[a], rest[b]);
      here + rest
  }

  /** `_get_candidate_links`: blanks become missing, then every pair of rows i < j that
      agrees on at least one of the blocking columns; a column the table lacks raises
      `KeyError`. The pairs come out in ascending order, each once. */
  function CandidateLinks(t: Table, blockCols: seq<string>): (r: Result<seq<(nat, nat)>>)
    requires WellFormed(t)
    ensures r.Ok? <==> forall k :: 0 <= k < |blockCols| ==> blockCols[k] in t.columns
    ensures r.Ok? ==> forall p :: p in r.value <==>
      p.0 < p.1 < |t.rows| &&
      exists k :: 0 <= k < |blockCols| && !IsBlank(t.rows[p.0][blockCols[k]])
                  && t.rows[p.0][blockCols[k]] == t.rows[p.1][blockCols[k]]
    ensures r.Ok? ==> AscendingPairs(r.value)
  {
    var missing := FirstMissing(blockCols, t.columns);
    if missing.Some? then Err(KeyError(missing.value))
    else
      var t' := BlanksToMissing(t);
      var keys := BlockKeys(t', blockCols);
      var links := PairsFrom(keys, 0);
      CandidateLinksMeaning(t, blockCols, keys, links);
      Ok(links)
  }

  /** Two records that share a non-blank value in one of the blocking columns are a
      candidate pair. */
  lemma SharedKeyIsLink(t: Table, blockCols: seq<string>, a: nat, b: nat, k: nat)
    requires WellFormed(t) && CandidateLinks(t, blockCols).Ok?
    requires a < b < |t.rows| && k < |blockCols|
    requires !IsBlank(t.rows[a][blockCols[k]]) && t.rows[a][blockCols[k]] == t.rows[b][blockCols[k]]
    ensures (a, b) in CandidateLinks(t, blockCols).value
  {
    var p := (a, b);
    assert p.0 < p.1 < |t.rows| && !IsBlank(t.rows[p.0][blockCols[k]]) && t.rows[p.0][blockCols[k]] == t.rows[p.1][blockCols[k]];
  }

  /** As written, two records whose combined fields are all empty share the key made of
      the separators alone, which the blank-to-missing step keeps: blocking on the
      combined column pairs them. */
  lemma AsWrittenBlankRecordsLinked(t: Table, col: string, parts: seq<string>, a: nat, b: nat)
    requires WellFormed(t) && col in t.columns && a < b < |t.rows|
    requires |parts| >= 2 && forall k :: 0 <= k < |parts| ==> parts[k] == ""
    requires t.rows[a][col] == Str(CombinedValueAsWritten(parts)) && t.rows[b][col] == t.rows[a][col]
    ensures CandidateLinks(t, [col]).Ok? && (a, b) in CandidateLinks(t, [col]).value
  {
    CombinedValueAsWrittenNeverBlank(parts);
    SharedKeyIsLink(t, [col], a, b, 0);
  }

  /** With the corrected key the same two records have the empty key, and blocking on
      the combined column never pairs them. */
  lemma CorrectedBlankRecordsNotLinked(t: Table, col: string, parts: seq<string>, a: nat, b: nat)
    requires WellFormed(t) && col in t.columns && a < b < |t.rows|
    requires forall k :: 0 <= k < |parts| ==> parts[k] == ""
    requires t.rows[a][col] == Str(CombinedValue(parts))
    ensures CandidateLinks(t, [col]).Ok? && (a, b) !in CandidateLinks(t, [col]).value
  {
    assert IsBlank(t.rows[a][[col][0]]);
  }

  lemma CandidateLinksMeaning(t: Table, blockCols: seq<string>, keys: seq<seq<Cell>>, links: seq<(nat, nat)>)
    requires WellFormed(t)
    requires forall k :: 0 <= k < |blockCols| ==> blockCols[k] in t.columns
    requires keys == BlockKeys(BlanksToMissing(t), blockCols) && links == PairsFrom(keys, 0)
    ensures forall p :: p in links <==>
      p.0 < p.1 < |t.rows| &&
      exists k :: 0 <= k < |blockCols| && !IsBlank(t.rows[p.0][blockCols[k]])
                  && t.rows[p.0][blockCols[k]] == t.rows[p.1][blockCols[k]]
  {
    var t' := BlanksToMissing(t);
    forall p
      ensures p in links <==>
        p.0 < p.1 < |t.rows| &&
        exists k :: 0 <= k < |blockCols| && !IsBlank(t.rows[p.0][blockCols[k]])
                    && t.rows[p.0][blockCols[k]] == t.rows[p.1][blockCols[k]]
    {
      if p.0 < p.1 < |t.rows| {
        forall k | 0 <= k < |blockCols|
          ensures (!keys[p.0][k].Null? && keys[p.0][k] == keys[p.1][k]) <==>
                  (!IsBlank(t.rows[p.0][blockCols[k]]) && t.rows[p.0][blockCols[k]] == t.rows[p.1][blockCols[k]])
        {
          assert keys[p.0][k] == BlankToMissing(t.rows[p.0][blockCols[k]]);
          assert keys[p.1][k] == BlankToMissing(t.rows[p.1][blockCols[k]]);
        }
      }
    }
  }

  // ---------------------------------------------------------------------------------
  // Missing similarity scores

  /** One row of the pairs table: the two record ids, each record's field values, and one
      similarity score per field. */
  datatype PairRow = PairRow(id1: nat, id2: nat, left: map<Field, Cell>, right: map<Field, Cell>, scores: map<Field, real>)

  /** A pairs row carries every field on both sides and a score for every field. */
  predicate Complete(p: PairRow) {
    forall f: Field :: f in p.left && f in p.right && f in p.scores
  }

  /** The fixed score a field gets when both of its values are missing, if it has one. */
  function MissingOverride(f: Field): Option<real> {
    match f
    case Abstract => Some(0.0)
    case Pages => Some(1.0)
    case Volume => Some(1.0)
    case Number => Some(1.0)
    case Doi => Some(0.0)
    case Isbn => Some(0.0)
    case _ => None
  }

  predicate BothMissing(p: PairRow, f: Field)
    requires Complete(p)
  {
    p.left[f].Null? && p.right[f].Null?
  }

  /** `_handle_missing_feature_values` on one row. */
  function HandleMissingRow(p: PairRow): (r: PairRow)
    requires Complete(p)
    ensures Complete(r)
    ensures r.id1 == p.id1 && r.id2 == p.id2 && r.left == p.left && r.right == p.right
    ensures forall f: Field :: !BothMissing(p, f) ==> r.scores[f] == p.scores[f]
    ensures forall f: Field :: f in {Authors, Title, Year, Journal} ==> r.scores[f] == p.scores[f]
    ensures BothMissing(p, Abstract) ==> r.scores[Abstract] == 0.0
    ensures BothMissing(p, Doi) ==> r.scores[Doi] == 0.0
    ensures BothMissing(p, Isbn) ==> r.scores[Isbn] == 0.0
    ensures BothMissing(p, Pages) ==> r.scores[Pages] == 1.0
    ensures BothMissing(p, Volume) ==> r.scores[Volume] == 1.0
    ensures BothMissing(p, Number) ==> r.scores[Number] == 1.0
  {
    var scores := map f: Field | f in p.scores :: OverriddenScore(p, f);
    assert forall f: Field :: f in scores && scores[f] == OverriddenScore(p, f);
    OverrideKeeps(p, scores);
    OverrideZero(p, scores);
    OverrideOne(p, scores);
    p.(scores := scores)
  }

  lemma OverrideKeeps(p: PairRow, scores: map<Field, real>)
    requires Complete(p) && forall f: Field :: f in scores && scores[f] == OverriddenScore(p, f)
    ensures forall f: Field :: !BothMissing(p, f) ==> scores[f] == p.scores[f]
    ensures forall f: Field :: f in {Authors, Title, Year, Journal} ==> scores[f] == p.scores[f]
  {
  }

  lemma OverrideZero(p: PairRow, scores: map<Field, real>)
    requires Complete(p) && forall f: Field :: f in scores && scores[f] == OverriddenScore(p, f)
    ensures BothMissing(p, Abstract) ==> scores[Abstract] == 0.0
    ensures BothMissing(p, Doi) ==> scores[Doi] == 0.0
    ensures BothMissing(p, Isbn) ==> scores[Isbn] == 0.0
  {
  }

  lemma OverrideOne(p: PairRow, scores: map<Field, real>)
    requires Complete(p) && forall f: Field :: f in scores && scores[f] == OverriddenScore(p, f)
    ensures BothMissing(p, Pages) ==> scores[Pages] == 1.0
    ensures BothMissing(p, Volume) ==> scores[Volume] == 1.0
    ensures BothMissing(p, Number) ==> scores[Number] == 1.0
  {
  }

  /** The score of field `f` after the override. */
  function OverriddenScore(p: PairRow, f: Field): real
    requires Complete(p)
  {
    if BothMissing(p, f) && MissingOverride(f).Some? then MissingOverride(f).value else p.scores[f]
  }

  /** `_handle_missing_feature_values` on the whole pairs table, row by row. */
  function HandleMissing(pairs: seq<PairRow>): (r: seq<PairRow>)
    requires forall k :: 0 <= k < |pairs| ==> Complete(pairs[k])
    ensures |r| == |pairs|
    ensures forall k :: 0 <= k < |pairs| ==> r[k] == HandleMissingRow(pairs[k])
  {
    seq(|pairs|, k requires 0 <= k < |pairs| => HandleMissingRow(pairs[k]))
  }

  /** The override never touches a field that is present on either side, and applying it
      twice is the same as once. */
  lemma HandleMissingIdempotent(p: PairRow)
    requires Complete(p)
    ensures HandleMissingRow(HandleMissingRow(p)) == HandleMissingRow(p)
  {
    var q := HandleMissingRow(p);
    var qq := HandleMissingRow(q);
    assert qq.scores.Keys == q.scores.Keys;
    forall f: Field ensures qq.scores[f] == q.scores[f] {
    }
    assert qq.scores == q.scores;
  }

  // ---------------------------------------------------------------------------------
  // Pair ids

  /** `_get_pair_rids`: one ascending id pair per pairs row, in row order. */
  function PairRids(pairs: seq<PairRow>): (r: seq<(nat, nat)>)
    ensures |r| == |pairs|
    ensures forall k :: 0 <= k < |pairs| ==> r[k].0 <= r[k].1
    ensures forall k :: 0 <= k < |pairs| ==>
      multiset{r[k].0, r[k].1} == multiset{pairs[k].id1, pairs[k].id2}
  {
    seq(|pairs|, k requires 0 <= k < |pairs| => SortPair(pairs[k].id1, pairs[k].id2))
  }

  // ---------------------------------------------------------------------------------
  // Groups from pairs: the greedy scan, exactly as the source performs it

  /** `x` is one of the ids of some pair. */
  predicate InPairs(x: nat, pairs: seq<(nat, nat)>) {
    exists k :: 0 <= k < |pairs| && (pairs[k].0 == x || pairs[k].1 == x)
  }

  /** Groups only ever grow: every earlier group is a prefix of its later self, and new
      groups are appended at the end. */
  predicate Extends(before: seq<seq<nat>>, after: seq<seq<nat>>) {
    |before| <= |after| && forall k :: 0 <= k < |before| ==> before[k] <= after[k]
  }

  predicate CoGrouped(gs: seq<seq<nat>>, a: nat, b: nat) {
    exists k :: 0 <= k < |gs| && a in gs[k] && b in gs[k]
  }

  lemma PrefixMember(s: seq<nat>, t: seq<nat>, x: nat)
    requires s <= t && x in s
    ensures x in t
  {
    var i :| 0 <= i < |s| && s[i] == x;
    assert t[i] == x;
  }

  lemma ExtendsCoGrouped(before: seq<seq<nat>>, after: seq<seq<nat>>, a: nat, b: nat)
    requires Extends(before, after) && CoGrouped(before, a, b)
    ensures CoGrouped(after, a, b)
  {
    var k :| 0 <= k < |before| && a in before[k] && b in before[k];
    PrefixMember(before[k], after[k], a);
    PrefixMember(before[k], after[k], b);
  }

  lemma ExtendsTransitive(a: seq<seq<nat>>, b: seq<seq<nat>>, c: seq<seq<nat>>)
    requires Extends(a, b) && Extends(b, c)
    ensures Extends(a, c)
  {
  }

  /** The inner loop over the groups for the pair (a, b): the first group holding exactly
      one of the two ids gets the other appended and the loop stops; a group holding both
      only marks the pair as placed and the loop goes on. The flag says whether the pair
      was placed. */
  function Scan(gs: seq<seq<nat>>, a: nat, b: nat): (r: (seq<seq<nat>>, bool))
    ensures |r.0| == |gs|
    ensures forall k :: 0 <= k < |gs| ==> gs[k] <= r.0[k] && |r.0[k]| <= |gs[k]| + 1
    ensures forall k, x :: 0 <= k < |gs| && x in r.0[k] ==> x in gs[k] || x == a || x == b
    ensures r.1 <==> exists k :: 0 <= k < |gs| && (a in gs[k] || b in gs[k])
    ensures r.1 ==> CoGrouped(r.0, a, b)
    ensures !r.1 ==> r.0 == gs
    ensures forall k :: 0 <= k < |gs| && NoDup(gs[k]) ==> NoDup(r.0[k])
  {
    if gs == [] then ([], false)
    else
      var g := gs[0];
      if a in g && b !in g then
        ScanHit(gs, a, b, b);
        ([g + [b]] + gs[1..], true)
      else if b in g && a !in g then
        ScanHit(gs, a, b, a);
        ([g + [a]] + gs[1..], true)
      else
        var rest := Scan(gs[1..], a, b);
        ScanTail(gs, a, b, rest);
        ScanSkipShape(gs, a, b, rest.0);
        ([g] + rest.0, (a in g && b in g) || rest.1)
  }

  /** The scan stops at the first group holding exactly one of the two ids, `x` being
      the other one. */
  lemma ScanHit(gs: seq<seq<nat>>, a: nat, b: nat, x: nat)
    requires gs != [] && ((a in gs[0] && x == b) || (b in gs[0] && x == a)) && x !in gs[0]
    ensures var r := [gs[0] + [x]] + gs[1..];
      && |r| == |gs|
      && (forall k :: 0 <= k < |gs| ==> gs[k] <= r[k] && |r[k]| <= |gs[k]| + 1)
      && (forall k, y :: 0 <= k < |gs| && y in r[k] ==> y in gs[k] || y == a || y == b)
      && CoGrouped(r, a, b)
      && (forall k :: 0 <= k < |gs| && NoDup(gs[k]) ==> NoDup(r[k]))
  {
    var g := gs[0];
    var r := [g + [x]] + gs[1..];
    assert r[0] == g + [x];
    assert forall k :: 0 < k < |gs| ==> r[k] == gs[k];
    if NoDup(g) {
      assert forall i :: 0 <= i < |g| ==> g[i] != x;
    }
  }

  /** Keeping the first group as it is and scanning the others keeps the shape facts. */
  lemma ScanSkipShape(gs: seq<seq<nat>>, a: nat, b: nat, rest: seq<seq<nat>>)
    requires gs != [] && |rest| == |gs| - 1
    requires forall k :: 0 <= k < |gs| - 1 ==> gs[1..][k] <= rest[k] && |rest[k]| <= |gs[1..][k]| + 1
    requires forall k, x :: 0 <= k < |gs| - 1 && x in rest[k] ==> x in gs[1..][k] || x == a || x == b
    requires forall k :: 0 <= k < |gs| - 1 && NoDup(gs[1..][k]) ==> NoDup(rest[k])
    ensures var r := [gs[0]] + rest;
      && (forall k :: 0 <= k < |gs| ==> gs[k] <= r[k] && |r[k]| <= |gs[k]| + 1)
      && (forall k, x :: 0 <= k < |gs| && x in r[k] ==> x in gs[k] || x == a || x == b)
      && (forall k :: 0 <= k < |gs| && NoDup(gs[k]) ==> NoDup(r[k]))
  {
    var r := [gs[0]] + rest;
    assert r[0] == gs[0];
    assert forall k :: 0 < k < |gs| ==> r[k] == rest[k - 1] && gs[k] == gs[1..][k - 1];
  }

  lemma ScanTail(gs: seq<seq<nat>>, a: nat, b: nat, rest: (seq<seq<nat>>, bool))
    requires gs != [] && !(a in gs[0] && b !in gs[0]) && !(b in gs[0] && a !in gs[0])
    requires |rest.0| == |gs| - 1
    requires rest.1 <==> exists k :: 0 <= k < |gs| - 1 && (a in gs[1..][k] || b in gs[1..][k])
    requires rest.1 ==> CoGrouped(rest.0, a, b)
    ensures ((a in gs[0] && b in gs[0]) || rest.1) <==> exists k :: 0 <= k < |gs| && (a in gs[k] || b in gs[k])
    ensures ((a in gs[0] && b in gs[0]) || rest.1) ==> CoGrouped([gs[0]] + rest.0, a, b)
  {
    var r := [gs[0]] + rest.0;
    if a in gs[0] && b in gs[0] {
      assert r[0] == gs[0];
    } else if rest.1 {
      var k :| 0 <= k < |rest.0| && a in rest.0[k] && b in rest.0[k];
      assert r[k + 1] == rest.0[k];
    }
    if exists k :: 0 <= k < |gs| && (a in gs[k] || b in gs[k]) {
      var k :| 0 <= k < |gs| && (a in gs[k] || b in gs[k]);
      if k > 0 {
        assert gs[1..][k - 1] == gs[k];
      }
    }
  }

  /** One step of the outer loop: the scan, then a fresh group [a, b] if the pair was not
      placed. */
  function AddPair(gs: seq<seq<nat>>, a: nat, b: nat): (r: seq<seq<nat>>)
    ensures Extends(gs, r) && |r| <= |gs| + 1
    ensures CoGrouped(r, a, b)
    ensures forall k, x :: 0 <= k < |r| && x in r[k] ==> (k < |gs| && x in gs[k]) || x == a || x == b
    ensures forall k :: 0 <= k < |gs| ==> |gs[k]| <= |r[k]|
    ensures forall k :: |gs| <= k < |r| ==> r[k] == [a, b]
    ensures a != b && (forall k :: 0 <= k < |gs| ==> NoDup(gs[k])) ==> forall k :: 0 <= k < |r| ==> NoDup(r[k])
  {
    var (scanned, added) := Scan(gs, a, b);
    if added then scanned
    else
      var r := scanned + [[a, b]];
      assert r[|gs|] == [a, b];
      r
  }

  /** The outer loop over the pairs, from the groups built so far. */
  function Process(gs: seq<seq<nat>>, pairs: seq<(nat, nat)>): seq<seq<nat>>
    decreases |pairs|
  {
    if pairs == [] then gs
    else Process(AddPair(gs, pairs[0].0, pairs[0].1), pairs[1..])
  }

  /** What the outer loop guarantees: groups only grow, the ids of every processed pair
      share a group, every id comes from an earlier group or a pair, every new group has
      at least two ids, and no group repeats an id as long as no pair joins an id to
      itself. */
  lemma {:induction false} ProcessFacts(gs: seq<seq<nat>>, pairs: seq<(nat, nat)>)
    ensures Extends(gs, Process(gs, pairs))
    ensures forall k :: 0 <= k < |pairs| ==> CoGrouped(Process(gs, pairs), pairs[k].0, pairs[k].1)
    ensures forall k, x :: 0 <= k < |Process(gs, pairs)| && x in Process(gs, pairs)[k] ==> (k < |gs| && x in gs[k]) || InPairs(x, pairs)
    ensures forall k :: 0 <= k < |gs| ==> |gs[k]| <= |Process(gs, pairs)[k]|
    ensures forall k :: |gs| <= k < |Process(gs, pairs)| ==> |Process(gs, pairs)[k]| >= 2
    ensures (forall k :: 0 <= k < |pairs| ==> pairs[k].0 != pairs[k].1) && (forall k :: 0 <= k < |gs| ==> NoDup(gs[k]))
      ==> forall k :: 0 <= k < |Process(gs, pairs)| ==> NoDup(Process(gs, pairs)[k])
  {
    ProcessExtends(gs, pairs);
    ProcessCoGroups(gs, pairs);
    forall k, x | 0 <= k < |Process(gs, pairs)| && x in Process(gs, pairs)[k]
      ensures (k < |gs| && x in gs[k]) || InPairs(x, pairs)
    {
      ProcessMember(gs, pairs, k, x);
    }
    ProcessNewGroupsLarge(gs, pairs);
    if (forall k :: 0 <= k < |pairs| ==> pairs[k].0 != pairs[k].1) && (forall k :: 0 <= k < |gs| ==> NoDup(gs[k])) {
      ProcessNoDup(gs, pairs);
    }
  }

  lemma {:induction false} ProcessExtends(gs: seq<seq<nat>>, pairs: seq<(nat, nat)>)
    ensures Extends(gs, Process(gs, pairs))
    decreases |pairs|
  {
    if pairs != [] {
      var gs1 := AddPair(gs, pairs[0].0, pairs[0].1);
      ProcessExtends(gs1, pairs[1..]);
      ExtendsTransitive(gs, gs1, Process(gs1, pairs[1..]));
    }
  }

  lemma {:induction false} ProcessCoGroups(gs: seq<seq<nat>>, pairs: seq<(nat, nat)>)
    ensures forall k :: 0 <= k < |pairs| ==> CoGrouped(Process(gs, pairs), pairs[k].0, pairs[k].1)
    decreases |pairs|
  {
    if pairs != [] {
      var gs1 := AddPair(gs, pairs[0].0, pairs[0].1);
      var r := Process(gs1, pairs[1..]);
      assert Process(gs, pairs) == r;
      ProcessCoGroups(gs1, pairs[1..]);
      ProcessExtends(gs1, pairs[1..]);
      ExtendsCoGrouped(gs1, r, pairs[0].0, pairs[0].1);
      forall k | 0 < k < |pairs| ensures CoGrouped(r, pairs[k].0, pairs[k].1) {
        assert pairs[1..][k - 1] == pairs[k];
      }
    }
  }

  /** Every id in a group after the scan was in that group before it or comes from a
      pair. */
  lemma {:induction false} ProcessMember(gs: seq<seq<nat>>, pairs: seq<(nat, nat)>, k: nat, x: nat)
    requires k < |Process(gs, pairs)| && x in Process(gs, pairs)[k]
    ensures (k < |gs| && x in gs[k]) || InPairs(x, pairs)
    decreases |pairs|
  {
    if pairs != [] {
      var gs1 := AddPair(gs, pairs[0].0, pairs[0].1);
      assert Process(gs, pairs) == Process(gs1, pairs[1..]);
      ProcessMember(gs1, pairs[1..], k, x);
      MemberOrigin(gs, pairs, gs1, k, x);
    }
  }

  /** An id the later pairs or the first step account for is accounted for by the
      groups before the step or by the pairs. */
  lemma MemberOrigin(gs: seq<seq<nat>>, pairs: seq<(nat, nat)>, gs1: seq<seq<nat>>, k: nat, x: nat)
    requires pairs != [] && gs1 == AddPair(gs, pairs[0].0, pairs[0].1)
    requires (k < |gs1| && x in gs1[k]) || InPairs(x, pairs[1..])
    ensures (k < |gs| && x in gs[k]) || InPairs(x, pairs)
  {
    if InPairs(x, pairs[1..]) {
      var j :| 0 <= j < |pairs| - 1 && (pairs[1..][j].0 == x || pairs[1..][j].1 == x);
      assert pairs[j + 1] == pairs[1..][j];
    } else if x == pairs[0].0 || x == pairs[0].1 {
      assert pairs[0].0 == x || pairs[0].1 == x;
    }
  }

  lemma {:induction false} ProcessNewGroupsLarge(gs: seq<seq<nat>>, pairs: seq<(nat, nat)>)
    ensures forall k :: |gs| <= k < |Process(gs, pairs)| ==> |Process(gs, pairs)[k]| >= 2
    decreases |pairs|
  {
    if pairs != [] {
      var gs1 := AddPair(gs, pairs[0].0, pairs[0].1);
      var r := Process(gs1, pairs[1..]);
      assert Process(gs, pairs) == r;
      ProcessNewGroupsLarge(gs1, pairs[1..]);
      ProcessExtends(gs1, pairs[1..]);
      forall k | |gs| <= k < |gs1| ensures |r[k]| >= 2 {
        assert gs1[k] == [pairs[0].0, pairs[0].1];
        assert gs1[k] <= r[k];
      }
    }
  }

  lemma {:induction false} ProcessNoDup(gs: seq<seq<nat>>, pairs: seq<(nat, nat)>)
    requires forall k :: 0 <= k < |pairs| ==> pairs[k].0 != pairs[k].1
    requires forall k :: 0 <= k < |gs| ==> NoDup(gs[k])
    ensures forall k :: 0 <= k < |Process(gs, pairs)| ==> NoDup(Process(gs, pairs)[k])
    decreases |pairs|
  {
    if pairs != [] {
      var gs1 := AddPair(gs, pairs[0].0, pairs[0].1);
      assert pairs[0].0 != pairs[0].1;
      forall k | 0 <= k < |pairs| - 1 ensures pairs[1..][k].0 != pairs[1..][k].1 {
        assert pairs[1..][k] == pairs[k + 1];
      }
      ProcessNoDup(gs1, pairs[1..]);
    }
  }

  /** `_get_groups_from_pairs`: the scan over all pairs from no groups, then every group
      sorted. The ids of every pair end up together in some group; each group has at
      least two ids, all taken from the pairs, in ascending order, and no id twice when
      no pair joins an id to itself. A group may share ids with another: the scan is not
      a union of overlapping groups. */
  function GroupsFromPairs(pairs: seq<(nat, nat)>): (r: seq<seq<nat>>)
    ensures forall k :: 0 <= k < |pairs| ==> CoGrouped(r, pairs[k].0, pairs[k].1)
    ensures forall k :: 0 <= k < |r| ==> |r[k]| >= 2 && Sorted(r[k])
    ensures forall k, x :: 0 <= k < |r| && x in r[k] ==> InPairs(x, pairs)
    ensures (forall k :: 0 <= k < |pairs| ==> pairs[k].0 != pairs[k].1) ==>
      forall k :: 0 <= k < |r| ==> StrictlySorted(r[k])
  {
    var r := SortEach(ScanAll(pairs));
    GroupsSorted(pairs, ScanAll(pairs), r);
    r
  }

  /** The outer loop over all pairs, from no groups. */
  function ScanAll(pairs: seq<(nat, nat)>): seq<seq<nat>> {
    Process([], pairs)
  }

  /** `[tuple(sorted(group)) for group in groups]`. */
  function SortEach(gs: seq<seq<nat>>): (r: seq<seq<nat>>)
    ensures |r| == |gs| && forall k :: 0 <= k < |gs| ==> r[k] == Sort(gs[k])
  {
    seq(|gs|, k requires 0 <= k < |gs| => Sort(gs[k]))
  }

  lemma GroupsSorted(pairs: seq<(nat, nat)>, gs: seq<seq<nat>>, r: seq<seq<nat>>)
    requires gs == ScanAll(pairs)
    requires |r| == |gs| && forall k :: 0 <= k < |gs| ==> r[k] == Sort(gs[k])
    ensures forall k :: 0 <= k < |pairs| ==> CoGrouped(r, pairs[k].0, pairs[k].1)
    ensures forall k :: 0 <= k < |r| ==> |r[k]| >= 2 && Sorted(r[k])
    ensures forall k, x :: 0 <= k < |r| && x in r[k] ==> InPairs(x, pairs)
    ensures (forall k :: 0 <= k < |pairs| ==> pairs[k].0 != pairs[k].1) ==>
      forall k :: 0 <= k < |r| ==> StrictlySorted(r[k])
  {
    SortedGroupsCoGrouped(pairs, gs, r);
    SortedGroupsMembers(pairs, gs, r);
    SortedGroupsShape(pairs, gs, r);
  }

  lemma SortedGroupsShape(pairs: seq<(nat, nat)>, gs: seq<seq<nat>>, r: seq<seq<nat>>)
    requires gs == Process([], pairs)
    requires |r| == |gs| && forall k :: 0 <= k < |gs| ==> r[k] == Sort(gs[k])
    ensures forall k :: 0 <= k < |r| ==> |r[k]| >= 2 && Sorted(r[k])
    ensures (forall k :: 0 <= k < |pairs| ==> pairs[k].0 != pairs[k].1) ==>
      forall k :: 0 <= k < |r| ==> StrictlySorted(r[k])
  {
    ProcessNewGroupsLarge([], pairs);
    forall k | 0 <= k < |r| ensures |r[k]| >= 2 && Sorted(r[k]) {
      assert |gs[k]| >= 2;
    }
    if forall k :: 0 <= k < |pairs| ==> pairs[k].0 != pairs[k].1 {
      ProcessNoDup([], pairs);
      forall k | 0 <= k < |r| ensures StrictlySorted(r[k]) {
        assert NoDup(gs[k]);
      }
    }
  }

  lemma SortedGroupsCoGrouped(pairs: seq<(nat, nat)>, gs: seq<seq<nat>>, r: seq<seq<nat>>)
    requires gs == Process([], pairs)
    requires |r| == |gs| && forall k :: 0 <= k < |gs| ==> r[k] == Sort(gs[k])
    ensures forall k :: 0 <= k < |pairs| ==> CoGrouped(r, pairs[k].0, pairs[k].1)
  {
    ProcessCoGroups([], pairs);
    forall k | 0 <= k < |pairs| ensures CoGrouped(r, pairs[k].0, pairs[k].1) {
      var a, b := pairs[k].0, pairs[k].1;
      var i :| 0 <= i < |gs| && a in gs[i] && b in gs[i];
      SortMembers(gs[i], a);
      SortMembers(gs[i], b);
      assert a in r[i] && b in r[i];
    }
  }

  lemma SortedGroupsMembers(pairs: seq<(nat, nat)>, gs: seq<seq<nat>>, r: seq<seq<nat>>)
    requires gs == Process([], pairs)
    requires |r| == |gs| && forall k :: 0 <= k < |gs| ==> r[k] == Sort(gs[k])
    ensures forall k, x :: 0 <= k < |r| && x in r[k] ==> InPairs(x, pairs)
  {
    forall k, x | 0 <= k < |r| && x in r[k] ensures InPairs(x, pairs) {
      SortMembers(gs[k], x);
      ProcessMember([], pairs, k, x);
    }
  }

  lemma ScanExampleStep1()
    ensures AddPair([], 1, 2) == [[1, 2]]
  {
    assert Scan([], 1, 2) == ([], false);
  }

  lemma ScanExampleStep2()
    ensures AddPair([[1, 2]], 3, 4) == [[1, 2], [3, 4]]
  {
    assert 3 !in [1, 2] && 4 !in [1, 2];
    assert Scan([[1, 2]], 3, 4) == ([[1, 2]] + Scan([], 3, 4).0, false);
  }

  lemma ScanExampleStep3()
    ensures AddPair([[1, 2], [3, 4]], 2, 3) == [[1, 2, 3], [3, 4]]
  {
    var gs: seq<seq<nat>> := [[1, 2], [3, 4]];
    assert 2 in gs[0] && 3 !in gs[0];
    assert Scan(gs, 2, 3) == ([gs[0] + [3]] + gs[1..], true);
    assert gs[0] + [3] == [1, 2, 3];
    assert gs[1..] == [[3, 4]];
    assert [gs[0] + [3]] + gs[1..] == [[1, 2, 3], [3, 4]];
  }

  /** The scan on (1, 2), (3, 4), (2, 3): 3 joins the first group and stays in the second,
      so the groups overlap. */
  lemma GroupsOverlapExample()
    ensures GroupsFromPairs([(1, 2), (3, 4), (2, 3)]) == [[1, 2, 3], [3, 4]]
  {
    ProcessExample();
    ExampleGroupsSorted();
    GroupsOfAscendingScan([(1, 2), (3, 4), (2, 3)]);
  }

  lemma ExampleGroupsSorted()
    ensures forall k :: 0 <= k < 2 ==> Sorted([[1, 2, 3], [3, 4]][k])
  {
  }

  /** When the scan already yields ascending groups, the final sort changes nothing. */
  lemma GroupsOfAscendingScan(pairs: seq<(nat, nat)>)
    requires forall k :: 0 <= k < |Process([], pairs)| ==> Sorted(Process([], pairs)[k])
    ensures GroupsFromPairs(pairs) == Process([], pairs)
  {
    SortEachSorted(Process([], pairs));
  }

  lemma ProcessExample()
    ensures Process([], [(1, 2), (3, 4), (2, 3)]) == [[1, 2, 3], [3, 4]]
  {
    ScanExampleStep1();
    ProcessExampleTail2();
    var pairs: seq<(nat, nat)> := [(1, 2), (3, 4), (2, 3)];
    assert pairs[1..] == [(3, 4), (2, 3)];
  }

  lemma ProcessExampleTail2()
    ensures Process([[1, 2]], [(3, 4), (2, 3)]) == [[1, 2, 3], [3, 4]]
  {
    ScanExampleStep2();
    ProcessExampleTail1();
    var pairs: seq<(nat, nat)> := [(3, 4), (2, 3)];
    assert pairs[1..] == [(2, 3)];
  }

  lemma ProcessExampleTail1()
    ensures Process([[1, 2], [3, 4]], [(2, 3)]) == [[1, 2, 3], [3, 4]]
  {
    ScanExampleStep3();
    var pairs: seq<(nat, nat)> := [(2, 3)];
    assert pairs[1..] == [];
  }

  /** The same three pairs in another order, (1, 2), (2, 3), (3, 4), chain into one
      group: the grouping depends on the order the pairs come in. */
  lemma GroupsOrderDependent()
    ensures GroupsFromPairs([(1, 2), (2, 3), (3, 4)]) == [[1, 2, 3, 4]]
    ensures GroupsFromPairs([(1, 2), (3, 4), (2, 3)]) == [[1, 2, 3], [3, 4]]
  {
    GroupsChainExample();
    GroupsOverlapExample();
  }

  lemma GroupsChainExample()
    ensures GroupsFromPairs([(1, 2), (2, 3), (3, 4)]) == [[1, 2, 3, 4]]
  {
    ChainExample();
    ChainGroupSorted();
    GroupsOfAscendingScan([(1, 2), (2, 3), (3, 4)]);
  }

  lemma ChainGroupSorted()
    ensures forall k :: 0 <= k < 1 ==> Sorted([[1, 2, 3, 4]][k])
  {
  }

  lemma ChainExample()
    ensures Process([], [(1, 2), (2, 3), (3, 4)]) == [[1, 2, 3, 4]]
  {
    ScanExampleStep1();
    ChainExampleTail2();
    var pairs: seq<(nat, nat)> := [(1, 2), (2, 3), (3, 4)];
    assert pairs[1..] == [(2, 3), (3, 4)];
  }

  lemma ChainExampleTail2()
    ensures Process([[1, 2]], [(2, 3), (3, 4)]) == [[1, 2, 3, 4]]
  {
    ChainStep(1, 2, 3);
    ChainExampleTail1();
    var pairs: seq<(nat, nat)> := [(2, 3), (3, 4)];
    assert pairs[1..] == [(3, 4)];
  }

  lemma ChainExampleTail1()
    ensures Process([[1, 2, 3]], [(3, 4)]) == [[1, 2, 3, 4]]
  {
    ChainStep3();
    var pairs: seq<(nat, nat)> := [(3, 4)];
    assert pairs[1..] == [];
  }

  /** A pair whose first id ends the only group, and whose second id is new, extends it. */
  lemma ChainStep(x: nat, a: nat, b: nat)
    requires x != b && a != b
    ensures AddPair([[x, a]], a, b) == [[x, a, b]]
  {
    var gs: seq<seq<nat>> := [[x, a]];
    assert a in gs[0] && b !in gs[0];
    assert Scan(gs, a, b) == ([gs[0] + [b]] + gs[1..], true);
    assert gs[0] + [b] == [x, a, b] && gs[1..] == [];
    assert [gs[0] + [b]] + gs[1..] == [[x, a, b]];
  }

  lemma ChainStep3()
    ensures AddPair([[1, 2, 3]], 3, 4) == [[1, 2, 3, 4]]
  {
    var gs: seq<seq<nat>> := [[1, 2, 3]];
    assert 3 in gs[0] && 4 !in gs[0];
    assert Scan(gs, 3, 4) == ([gs[0] + [4]] + gs[1..], true);
    assert gs[0] + [4] == [1, 2, 3, 4] && gs[1..] == [];
    assert [gs[0] + [4]] + gs[1..] == [[1, 2, 3, 4]];
  }

  /** Sorting groups that are already ascending changes nothing. */
  lemma SortEachSorted(gs: seq<seq<nat>>)
    requires forall k :: 0 <= k < |gs| ==> Sorted(gs[k])
    ensures SortEach(gs) == gs
  {
    forall k | 0 <= k < |gs| ensures SortEach(gs)[k] == gs[k] {
      SortOfSorted(gs[k]);
    }
  }

  // ---------------------------------------------------------------------------------
  // Groups back to pairs

  lemma PairCountStep(n: nat)
    requires n >= 1
    ensures (n - 1) + (n - 1) * (n - 2) / 2 == n * (n - 1) / 2
  {
    if n >= 2 {
      assert n * (n - 1) == (n - 1) * (n - 2) + 2 * (n - 1);
      assert (n - 1) * (n - 2) % 2 == 0 by {
        EvenProduct(n - 2);
      }
    }
  }

  lemma {:induction false} EvenProduct(m: nat)
    ensures (m + 1) * m % 2 == 0
  {
    if m > 0 {
      EvenProduct(m - 1);
      assert (m + 1) * m == m * (m - 1) + 2 * m;
    }
  }

  /** The sorted pairs with `x` first, one per later id. */
  function PairsWithHead(x: nat, rest: seq<nat>): (r: seq<(nat, nat)>)
    ensures |r| == |rest| && forall j :: 0 <= j < |rest| ==> r[j] == SortPair(x, rest[j])
  {
    seq(|rest|, j requires 0 <= j < |rest| => SortPair(x, rest[j]))
  }

  /** `[tuple(sorted(pair)) for pair in combinations(group, 2)]`: for a group of k ids,
      exactly k(k-1)/2 ascending pairs, one for every two positions i < j. */
  function Combinations2(g: seq<nat>): (r: seq<(nat, nat)>)
    ensures |r| == |g| * (|g| - 1) / 2
    ensures forall k :: 0 <= k < |r| ==> r[k].0 <= r[k].1
    ensures forall i, j :: 0 <= i < j < |g| ==> SortPair(g[i], g[j]) in r
    ensures forall p :: p in r ==> exists i, j :: 0 <= i < j < |g| && p == SortPair(g[i], g[j])
  {
    if g == [] then []
    else
      var head := PairsWithHead(g[0], g[1..]);
      var rest := Combinations2(g[1..]);
      assert |head| == |g| - 1 && |rest| == (|g| - 1) * (|g| - 2) / 2;
      PairCountStep(|g|);
      CombinationsStep(g, head, rest);
      head + rest
  }

  lemma CombinationsStep(g: seq<nat>, head: seq<(nat, nat)>, rest: seq<(nat, nat)>)
    requires g != [] && head == PairsWithHead(g[0], g[1..])
    requires forall i, j :: 0 <= i < j < |g| - 1 ==> SortPair(g[1..][i], g[1..][j]) in rest
    requires forall p :: p in rest ==> exists i, j :: 0 <= i < j < |g| - 1 && p == SortPair(g[1..][i], g[1..][j])
    ensures forall i, j :: 0 <= i < j < |g| ==> SortPair(g[i], g[j]) in head + rest
    ensures forall p :: p in head + rest ==> exists i, j :: 0 <= i < j < |g| && p == SortPair(g[i], g[j])
  {
    CombinationsComplete(g, head, rest);
    CombinationsSound(g, head, rest);
  }

  lemma CombinationsComplete(g: seq<nat>, head: seq<(nat, nat)>, rest: seq<(nat, nat)>)
    requires g != [] && head == PairsWithHead(g[0], g[1..])
    requires forall i, j :: 0 <= i < j < |g| - 1 ==> SortPair(g[1..][i], g[1..][j]) in rest
    ensures forall i, j :: 0 <= i < j < |g| ==> SortPair(g[i], g[j]) in head + rest
  {
    forall i, j | 0 <= i < j < |g| ensures SortPair(g[i], g[j]) in head + rest {
      if i == 0 {
        assert head[j - 1] == SortPair(g[0], g[j]);
      } else {
        assert g[1..][i - 1] == g[i] && g[1..][j - 1] == g[j];
        assert SortPair(g[1..][i - 1], g[1..][j - 1]) in rest;
      }
    }
  }

  lemma CombinationsSound(g: seq<nat>, head: seq<(nat, nat)>, rest: seq<(nat, nat)>)
    requires g != [] && head == PairsWithHead(g[0], g[1..])
    requires forall p :: p in rest ==> exists i, j :: 0 <= i < j < |g| - 1 && p == SortPair(g[1..][i], g[1..][j])
    ensures forall p :: p in head + rest ==> exists i, j :: 0 <= i < j < |g| && p == SortPair(g[i], g[j])
  {
    forall p | p in head + rest ensures exists i, j :: 0 <= i < j < |g| && p == SortPair(g[i], g[j]) {
      if p in head {
        var j :| 0 <= j < |head| && head[j] == p;
        assert p == SortPair(g[0], g[j + 1]);
      } else {
        assert p in rest;
        var i, j :| 0 <= i < j < |g| - 1 && p == SortPair(g[1..][i], g[1..][j]);
        assert g[1..][i] == g[i + 1] && g[1..][j] == g[j + 1];
        assert p == SortPair(g[i + 1], g[j + 1]);
      }
    }
  }

  /** `combinations` pairs the first id with every later one, in order, before it pairs
      the later ids among themselves. */
  lemma Combinations2Cons(x: nat, g: seq<nat>)
    ensures Combinations2([x] + g) == seq(|g|, i requires 0 <= i < |g| => SortPair(x, g[i])) + Combinations2(g)
  {
    assert ([x] + g)[0] == x && ([x] + g)[1..] == g;
  }

  /** A group added after the others contributes its pairs after all of theirs: the
      `extend` in the loop keeps the groups' order. */
  lemma {:induction false} PairsFromGroupsAppend(gs: seq<seq<nat>>, g: seq<nat>)
    ensures PairsFromGroups(gs + [g]) == PairsFromGroups(gs) + Combinations2(g)
    decreases |gs|
  {
    if gs == [] {
      assert gs + [g] == [g] && [g][1..] == [];
    } else {
      assert (gs + [g])[0] == gs[0] && (gs + [g])[1..] == gs[1..] + [g];
      PairsFromGroupsAppend(gs[1..], g);
      assert Combinations2(gs[0]) + (PairsFromGroups(gs[1..]) + Combinations2(g))
          == (Combinations2(gs[0]) + PairsFromGroups(gs[1..])) + Combinations2(g);
    }
  }

  /** Total number of pairs the groups expand to. */
  function PairCount(gs: seq<seq<nat>>): nat {
    if gs == [] then 0 else |gs[0]| * (|gs[0]| - 1) / 2 + PairCount(gs[1..])
  }

  /** `_get_pairs_from_groups`: the pairs of every group, group after group. A pair is
      produced exactly when some group holds its two ids at two different positions. */
  function PairsFromGroups(gs: seq<seq<nat>>): (r: seq<(nat, nat)>)
    ensures |r| == PairCount(gs)
    ensures forall k :: 0 <= k < |r| ==> r[k].0 <= r[k].1
    ensures forall p :: p in r <==> exists g, i, j :: g in gs && 0 <= i < j < |g| && p == SortPair(g[i], g[j])
  {
    if gs == [] then []
    else
      var here := Combinations2(gs[0]);
      var rest := PairsFromGroups(gs[1..]);
      assert |here| + |rest| == PairCount(gs);
      PairsFromGroupsStep(gs, here, rest);
      here + rest
  }

  lemma PairsFromGroupsStep(gs: seq<seq<nat>>, here: seq<(nat, nat)>, rest: seq<(nat, nat)>)
    requires gs != [] && here == Combinations2(gs[0])
    requires forall p :: p in rest <==> exists g, i, j :: g in gs[1..] && 0 <= i < j < |g| && p == SortPair(g[i], g[j])
    ensures forall p :: p in here + rest <==> exists g, i, j :: g in gs && 0 <= i < j < |g| && p == SortPair(g[i], g[j])
  {
    forall p ensures p in here + rest <==> exists g, i, j :: g in gs && 0 <= i < j < |g| && p == SortPair(g[i], g[j]) {
      if p in here + rest {
        ExpandedPairFromGroup(gs, here, rest, p);
      }
      if exists g, i, j :: g in gs && 0 <= i < j < |g| && p == SortPair(g[i], g[j]) {
        var g, i, j :| g in gs && 0 <= i < j < |g| && p == SortPair(g[i], g[j]);
        GroupPairExpanded(gs, here, rest, g, i, j);
      }
    }
  }

  lemma ExpandedPairFromGroup(gs: seq<seq<nat>>, here: seq<(nat, nat)>, rest: seq<(nat, nat)>, p: (nat, nat))
    requires gs != [] && here == Combinations2(gs[0])
    requires p in rest ==> exists g, i, j :: g in gs[1..] && 0 <= i < j < |g| && p == SortPair(g[i], g[j])
    requires p in here + rest
    ensures exists g, i, j :: g in gs && 0 <= i < j < |g| && p == SortPair(g[i], g[j])
  {
    if p in here {
      var i, j :| 0 <= i < j < |gs[0]| && p == SortPair(gs[0][i], gs[0][j]);
      assert gs[0] in gs;
    } else {
      var g, i, j :| g in gs[1..] && 0 <= i < j < |g| && p == SortPair(g[i], g[j]);
      assert g in gs;
    }
  }

  lemma GroupPairExpanded(gs: seq<seq<nat>>, here: seq<(nat, nat)>, rest: seq<(nat, nat)>, g: seq<nat>, i: nat, j: nat)
    requires gs != [] && here == Combinations2(gs[0])
    requires g in gs && i < j < |g|
    requires (exists h, i', j' :: h in gs[1..] && 0 <= i' < j' < |h| && SortPair(g[i], g[j]) == SortPair(h[i'], h[j'])) ==> SortPair(g[i], g[j]) in rest
    ensures SortPair(g[i], g[j]) in here + rest
  {
    if g == gs[0] {
      assert SortPair(g[i], g[j]) in here;
    } else {
      assert g in gs[1..];
    }
  }

  /** Groups built from pairs of two different ids give back every one of those pairs
      (in ascending form) when expanded. */
  lemma PairsFromGroupsCoverPairs(pairs: seq<(nat, nat)>)
    requires forall k :: 0 <= k < |pairs| ==> pairs[k].0 < pairs[k].1
    ensures forall k :: 0 <= k < |pairs| ==> pairs[k] in PairsFromGroups(GroupsFromPairs(pairs))
  {
    var gs := GroupsFromPairs(pairs);
    forall k | 0 <= k < |pairs| ensures pairs[k] in PairsFromGroups(gs) {
      CoGroupedPairExpands(gs, pairs[k].0, pairs[k].1);
    }
  }

  lemma StrictlySortedOrder(g: seq<nat>, i: nat, j: nat)
    requires StrictlySorted(g) && i < |g| && j < |g| && g[i] < g[j]
    ensures i < j
  {
  }

  /** Two ids that share an ascending group, the smaller first, are one of the pairs
      the groups expand to. */
  lemma CoGroupedPairExpands(gs: seq<seq<nat>>, a: nat, b: nat)
    requires a < b && CoGrouped(gs, a, b)
    requires forall k :: 0 <= k < |gs| ==> StrictlySorted(gs[k])
    ensures (a, b) in PairsFromGroups(gs)
  {
    var m :| 0 <= m < |gs| && a in gs[m] && b in gs[m];
    var g := gs[m];
    assert StrictlySorted(g);
    var i :| 0 <= i < |g| && g[i] == a;
    var j :| 0 <= j < |g| && g[j] == b;
    StrictlySortedOrder(g, i, j);
    assert i < j && SortPair(g[i], g[j]) == (a, b);
    assert g in gs;
    assert exists h, i', j' :: h in gs && 0 <= i' < j' < |h| && (a, b) == SortPair(h[i'], h[j']);
  }

  // ---------------------------------------------------------------------------------
  // Selection: KEEP/REMOVE tagging

  /** `[rid for group in groups for rid in group]`. */
  function Flatten(gs: seq<seq<nat>>): (r: seq<nat>)
    ensures forall x :: x in r <==> exists i :: 0 <= i < |gs| && x in gs[i]
  {
    if gs == [] then []
    else
      var rest := Flatten(gs[1..]);
      FlattenStep(gs, rest);
      gs[0] + rest
  }

  lemma FlattenStep(gs: seq<seq<nat>>, rest: seq<nat>)
    requires gs != []
    requires forall x :: x in rest <==> exists i :: 0 <= i < |gs| - 1 && x in gs[1..][i]
    ensures forall x :: x in gs[0] + rest <==> exists i :: 0 <= i < |gs| && x in gs[i]
  {
    forall x ensures x in gs[0] + rest <==> exists i :: 0 <= i < |gs| && x in gs[i] {
      if exists i :: 1 <= i < |gs| && x in gs[i] {
        var i :| 1 <= i < |gs| && x in gs[i];
        assert gs[1..][i - 1] == gs[i];
      }
      if x in rest {
        var i :| 0 <= i < |gs| - 1 && x in gs[1..][i];
        assert gs[1..][i] == gs[i + 1];
      }
    }
  }

  /** The ids i..n-1 of the default index that occur in no group, in index order. */
  function UnmatchedFrom(i: nat, n: nat, dup: seq<nat>): (r: seq<nat>)
    requires i <= n
    ensures forall x: nat :: x in r <==> i <= x < n && x !in dup
    ensures forall k :: 0 <= k < |r| ==> i <= r[k]
    ensures StrictlySorted(r)
    decreases n - i
  {
    if i == n then []
    else (if i in dup then [] else [i]) + UnmatchedFrom(i + 1, n, dup)
  }

  /** `unique_rids`: the record ids of a table of n rows that are in no group. */
  function Unmatched(n: nat, dup: seq<nat>): (r: seq<nat>)
    ensures forall x: nat :: x in r <==> x < n && x !in dup
    ensures StrictlySorted(r)
  {
    UnmatchedFrom(0, n, dup)
  }

  /** A record id with its duplicate group tag (0 for a record in no group). */
  datatype Tagged = Tagged(id: nat, tag: nat)

  function TagAll(g: seq<nat>, tag: nat): (r: seq<Tagged>)
    ensures |r| == |g| && forall k :: 0 <= k < |g| ==> r[k] == Tagged(g[k], tag)
  {
    seq(|g|, k requires 0 <= k < |g| => Tagged(g[k], tag))
  }

  /** Group members with their tags, the group at position i tagged `tag + i`. */
  /** The row carries the tag of a group that holds its id, groups tagged from `tag`. */
  predicate TaggedFrom(gs: seq<seq<nat>>, tag: nat, x: Tagged) {
    tag <= x.tag < tag + |gs| && x.id in gs[x.tag - tag]
  }

  function TagGroups(gs: seq<seq<nat>>, tag: nat): seq<Tagged>
    decreases |gs|
  {
    if gs == [] then [] else TagAll(gs[0], tag) + TagGroups(gs[1..], tag + 1)
  }

  /** The tagged members list the flattened groups in order, each with the tag of a group
      that holds it, and every member of the i-th group appears with tag `tag + i`. */
  lemma {:induction false} TagGroupsFacts(gs: seq<seq<nat>>, tag: nat)
    ensures |TagGroups(gs, tag)| == |Flatten(gs)|
    ensures forall k :: 0 <= k < |TagGroups(gs, tag)| ==> TagGroups(gs, tag)[k].id == Flatten(gs)[k]
    ensures forall k :: 0 <= k < |TagGroups(gs, tag)| ==> TaggedFrom(gs, tag, TagGroups(gs, tag)[k])
    ensures forall i, x :: 0 <= i < |gs| && x in gs[i] ==> Tagged(x, tag + i) in TagGroups(gs, tag)
    decreases |gs|
  {
    if gs != [] {
      var r := TagGroups(gs, tag);
      assert r == TagAll(gs[0], tag) + TagGroups(gs[1..], tag + 1);
      TagGroupsFacts(gs[1..], tag + 1);
      TagGroupsStep(gs, tag, TagAll(gs[0], tag), TagGroups(gs[1..], tag + 1));
    }
  }

  lemma TagGroupsStep(gs: seq<seq<nat>>, tag: nat, here: seq<Tagged>, rest: seq<Tagged>)
    requires gs != [] && here == TagAll(gs[0], tag)
    requires |rest| == |Flatten(gs[1..])|
    requires forall k :: 0 <= k < |rest| ==> rest[k].id == Flatten(gs[1..])[k]
    requires forall k :: 0 <= k < |rest| ==> TaggedFrom(gs[1..], tag + 1, rest[k])
    requires forall i, x :: 0 <= i < |gs[1..]| && x in gs[1..][i] ==> Tagged(x, tag + 1 + i) in rest
    ensures |here + rest| == |Flatten(gs)|
    ensures forall k :: 0 <= k < |here + rest| ==> (here + rest)[k].id == Flatten(gs)[k]
    ensures forall k :: 0 <= k < |here + rest| ==> TaggedFrom(gs, tag, (here + rest)[k])
    ensures forall i, x :: 0 <= i < |gs| && x in gs[i] ==> Tagged(x, tag + i) in here + rest
  {
    var r := here + rest;
    assert Flatten(gs) == gs[0] + Flatten(gs[1..]);
    forall k | 0 <= k < |r|
      ensures r[k].id == Flatten(gs)[k]
      ensures TaggedFrom(gs, tag, r[k])
    {
      if k >= |here| {
        assert r[k] == rest[k - |here|];
        assert TaggedFrom(gs[1..], tag + 1, r[k]);
        assert gs[1..][r[k].tag - (tag + 1)] == gs[r[k].tag - tag];
      }
    }
    forall i, x | 0 <= i < |gs| && x in gs[i] ensures Tagged(x, tag + i) in r {
      if i == 0 {
        var k :| 0 <= k < |gs[0]| && gs[0][k] == x;
        assert here[k] == Tagged(x, tag);
      } else {
        assert gs[1..][i - 1] == gs[i];
        assert Tagged(x, tag + 1 + (i - 1)) in rest;
      }
    }
  }

  /** `arrange_rids` with `group_tags`: every group's members in group order, the i-th
      group (from 0) tagged i + 1, then the ids in no group, in index order, tagged 0. */
  function Arrange(n: nat, gs: seq<seq<nat>>): (r: seq<Tagged>)
    ensures |r| == |Flatten(gs)| + |Unmatched(n, Flatten(gs))|
    ensures forall k :: 0 <= k < |r| ==> r[k].id == (Flatten(gs) + Unmatched(n, Flatten(gs)))[k]
    ensures forall k :: 0 <= k < |Flatten(gs)| ==> 1 <= r[k].tag <= |gs| && r[k].id in gs[r[k].tag - 1]
    ensures forall k :: |Flatten(gs)| <= k < |r| ==> r[k].tag == 0
    ensures forall i, x :: 0 <= i < |gs| && x in gs[i] ==> Tagged(x, i + 1) in r
    ensures forall x: nat :: x < n && x !in Flatten(gs) ==> Tagged(x, 0) in r
  {
    var u := Unmatched(n, Flatten(gs));
    var grouped := TagGroups(gs, 1);
    TagGroupsFacts(gs, 1);
    var single := TagAll(u, 0);
    ArrangeFacts(n, gs, u, grouped, single);
    assert forall k :: 0 <= k < |Flatten(gs)| ==> TaggedFrom(gs, 1, (grouped + single)[k]);
    grouped + single
  }

  lemma ArrangeFacts(n: nat, gs: seq<seq<nat>>, u: seq<nat>, grouped: seq<Tagged>, single: seq<Tagged>)
    requires u == Unmatched(n, Flatten(gs)) && grouped == TagGroups(gs, 1) && |grouped| == |Flatten(gs)|
    requires single == TagAll(u, 0)
    ensures forall k :: 0 <= k < |grouped + single| ==> (grouped + single)[k].id == (Flatten(gs) + u)[k]
    ensures forall x: nat :: x < n && x !in Flatten(gs) ==> Tagged(x, 0) in grouped + single
  {
    var r := grouped + single;
    TagGroupsFacts(gs, 1);
    forall k | 0 <= k < |r| ensures r[k].id == (Flatten(gs) + u)[k] {
      if k >= |grouped| {
        assert r[k] == single[k - |grouped|];
      }
    }
    forall x: nat | x < n && x !in Flatten(gs) ensures Tagged(x, 0) in r {
      var k :| 0 <= k < |u| && u[k] == x;
      assert single[k] == Tagged(x, 0);
    }
  }

  datatype Label = Keep | Remove

  /** The `keep_remove` loop over the tags in table order: tag 0 is kept, the first row of
      every other tag is kept and the tag remembered, later rows of a remembered tag are
      removed. */
  function Labels(rows: seq<Tagged>, seen: set<nat>): (r: seq<Label>)
    ensures |r| == |rows|
  {
    if rows == [] then []
    else if rows[0].tag == 0 then [Keep] + Labels(rows[1..], seen)
    else if rows[0].tag in seen then [Remove] + Labels(rows[1..], seen)
    else [Keep] + Labels(rows[1..], seen + {rows[0].tag})
  }

  /** Some earlier row has the same tag as row k. */
  predicate SeenBefore(rows: seq<Tagged>, k: nat)
    requires k < |rows|
  {
    exists j :: 0 <= j < k && rows[j].tag == rows[k].tag
  }

  /** A row is kept exactly when its tag is 0, or its tag was neither remembered before
      the loop nor carried by an earlier row. */
  lemma {:induction false} LabelsSpec(rows: seq<Tagged>, seen: set<nat>)
    ensures forall k :: 0 <= k < |rows| ==>
      (Labels(rows, seen)[k] == Keep <==> rows[k].tag == 0 || (rows[k].tag !in seen && !SeenBefore(rows, k)))
  {
    if rows != [] {
      var t0 := rows[0].tag;
      var seen' := if t0 == 0 || t0 in seen then seen else seen + {t0};
      LabelsSpec(rows[1..], seen');
      assert Labels(rows, seen)[1..] == Labels(rows[1..], seen');
      forall k | 0 <= k < |rows|
        ensures Labels(rows, seen)[k] == Keep <==> rows[k].tag == 0 || (rows[k].tag !in seen && !SeenBefore(rows, k))
      {
        if k > 0 {
          assert Labels(rows, seen)[k] == Labels(rows[1..], seen')[k - 1];
          assert rows[1..][k - 1] == rows[k];
          SeenBeforeStep(rows, k);
        }
      }
    }
  }

  lemma SeenBeforeStep(rows: seq<Tagged>, k: nat)
    requires 0 < k < |rows|
    ensures SeenBefore(rows, k) <==> rows[0].tag == rows[k].tag || SeenBefore(rows[1..], k - 1)
  {
    assert rows[1..][k - 1] == rows[k];
    if SeenBefore(rows, k) && rows[0].tag != rows[k].tag {
      var j :| 0 <= j < k && rows[j].tag == rows[k].tag;
      assert rows[1..][j - 1] == rows[j];
    }
    if SeenBefore(rows[1..], k - 1) {
      var j :| 0 <= j < k - 1 && rows[1..][j].tag == rows[1..][k - 1].tag;
      assert rows[j + 1] == rows[1..][j];
    }
  }

  predicate HasTag(rows: seq<Tagged>, t: nat) {
    exists j :: 0 <= j < |rows| && rows[j].tag == t
  }

  /** The first row carrying a tag. */
  function FirstWithTag(rows: seq<Tagged>, t: nat): (k: nat)
    requires HasTag(rows, t)
    ensures k < |rows| && rows[k].tag == t
    ensures forall j :: 0 <= j < k ==> rows[j].tag != t
  {
    if rows[0].tag == t then 0
    else
      var j :| 0 <= j < |rows| && rows[j].tag == t;
      assert rows[1..][j - 1] == rows[j];
      1 + FirstWithTag(rows[1..], t)
  }

  /** Whatever order the rows are in, every non-zero tag that occurs is kept on exactly
      one row, every tag-0 row is kept, and every other row is removed. */
  lemma OneKeepPerTag(rows: seq<Tagged>)
    ensures forall k :: 0 <= k < |rows| && rows[k].tag == 0 ==> Labels(rows, {})[k] == Keep
    ensures forall t :: t != 0 && HasTag(rows, t) ==>
      exists k :: 0 <= k < |rows| && rows[k].tag == t && Labels(rows, {})[k] == Keep
    ensures forall k1, k2 ::
      (0 <= k1 < |rows| && 0 <= k2 < |rows| && rows[k1].tag != 0 && rows[k1].tag == rows[k2].tag
       && Labels(rows, {})[k1] == Keep && Labels(rows, {})[k2] == Keep) ==> k1 == k2
  {
    LabelsSpec(rows, {});
    forall t | t != 0 && HasTag(rows, t)
      ensures exists k :: 0 <= k < |rows| && rows[k].tag == t && Labels(rows, {})[k] == Keep
    {
      var k := FirstWithTag(rows, t);
      assert !SeenBefore(rows, k);
    }
    forall k1, k2 | 0 <= k1 < |rows| && 0 <= k2 < |rows| && rows[k1].tag != 0 && rows[k1].tag == rows[k2].tag
      && Labels(rows, {})[k1] == Keep && Labels(rows, {})[k2] == Keep
      ensures k1 == k2
    {
      assert !SeenBefore(rows, k1) && !SeenBefore(rows, k2);
      assert !(k1 < k2) && !(k2 < k1);
    }
  }

  /** `df.loc[keep_remove == "KEEP"]`: the rows labelled KEEP, in order. */
  function SelectKept(rows: seq<Tagged>, labels: seq<Label>): (r: seq<Tagged>)
    requires |labels| == |rows|
    ensures forall x :: x in r ==> x in rows
  {
    if rows == [] then []
    else (if labels[0] == Keep then [rows[0]] else []) + SelectKept(rows[1..], labels[1..])
  }

  /** The kept rows directly from the loop's own recursion. */
  function KeptRows(rows: seq<Tagged>, seen: set<nat>): seq<Tagged> {
    if rows == [] then []
    else if rows[0].tag == 0 then [rows[0]] + KeptRows(rows[1..], seen)
    else if rows[0].tag in seen then KeptRows(rows[1..], seen)
    else [rows[0]] + KeptRows(rows[1..], seen + {rows[0].tag})
  }

  lemma {:induction false} SelectKeptRows(rows: seq<Tagged>, seen: set<nat>)
    ensures SelectKept(rows, Labels(rows, seen)) == KeptRows(rows, seen)
  {
    if rows != [] {
      var t0 := rows[0].tag;
      var seen' := if t0 == 0 || t0 in seen then seen else seen + {t0};
      SelectKeptRows(rows[1..], seen');
      assert Labels(rows, seen)[1..] == Labels(rows[1..], seen');
    }
  }

  /** Number of rows with tag 0. */
  function ZeroCount(rows: seq<Tagged>): nat {
    if rows == [] then 0 else (if rows[0].tag == 0 then 1 else 0) + ZeroCount(rows[1..])
  }

  /** Number of rows with a given tag. */
  function TagCount(rows: seq<Tagged>, t: nat): nat {
    if rows == [] then 0 else (if rows[0].tag == t then 1 else 0) + TagCount(rows[1..], t)
  }

  /** The tags that occur. */
  function TagSet(rows: seq<Tagged>): (r: set<nat>)
    ensures forall t :: t in r <==> HasTag(rows, t)
  {
    if rows == [] then {}
    else
      var rest := TagSet(rows[1..]);
      HasTagStep(rows);
      {rows[0].tag} + rest
  }

  lemma HasTagStep(rows: seq<Tagged>)
    requires rows != []
    ensures forall t :: HasTag(rows, t) <==> rows[0].tag == t || HasTag(rows[1..], t)
  {
    forall t ensures HasTag(rows, t) <==> rows[0].tag == t || HasTag(rows[1..], t) {
      if HasTag(rows, t) && rows[0].tag != t {
        var j :| 0 <= j < |rows| && rows[j].tag == t;
        assert rows[1..][j - 1] == rows[j];
      }
      if HasTag(rows[1..], t) {
        var j :| 0 <= j < |rows| - 1 && rows[1..][j].tag == t;
        assert rows[j + 1] == rows[1..][j];
      }
    }
  }

  /** How many rows survive the drop: every tag-0 row, plus one row for every other tag
      that occurs and was not already remembered. */
  lemma {:induction false} KeptRowsCount(rows: seq<Tagged>, seen: set<nat>)
    ensures |KeptRows(rows, seen)| == ZeroCount(rows) + |TagSet(rows) - {0} - seen|
  {
    if rows != [] {
      var t0 := rows[0].tag;
      var rest := rows[1..];
      assert TagSet(rows) == {t0} + TagSet(rest);
      if t0 == 0 || t0 in seen {
        KeptRowsCount(rest, seen);
        RememberedTagsSame(t0, TagSet(rest), seen);
      } else {
        KeptRowsCount(rest, seen + {t0});
        NewTagCounted(t0, TagSet(rest), seen);
      }
    }
  }

  lemma RememberedTagsSame(t0: nat, tags: set<nat>, seen: set<nat>)
    requires t0 == 0 || t0 in seen
    ensures ({t0} + tags) - {0} - seen == tags - {0} - seen
  {
  }

  lemma NewTagCounted(t0: nat, tags: set<nat>, seen: set<nat>)
    requires t0 != 0 && t0 !in seen
    ensures |({t0} + tags) - {0} - seen| == 1 + |tags - {0} - (seen + {t0})|
  {
    var a := tags - {0} - (seen + {t0});
    assert ({t0} + tags) - {0} - seen == {t0} + a;
    assert t0 !in a;
  }

  /** Per tag: a tag-0 row always survives, and of any other tag exactly one row
      survives if the tag occurs and was not already remembered, none otherwise. */
  lemma {:induction false} KeptRowsPerTag(rows: seq<Tagged>, seen: set<nat>, t: nat)
    ensures t == 0 ==> TagCount(KeptRows(rows, seen), 0) == ZeroCount(rows)
    ensures t != 0 ==> TagCount(KeptRows(rows, seen), t) == (if t !in seen && HasTag(rows, t) then 1 else 0)
  {
    if rows != [] {
      var t0 := rows[0].tag;
      var rest := rows[1..];
      HasTagStep(rows);
      if t0 == 0 || t0 in seen {
        KeptRowsPerTag(rest, seen, t);
      } else {
        KeptRowsPerTag(rest, seen + {t0}, t);
      }
      if t0 == 0 || t0 !in seen {
        var rest' := if t0 == 0 then seen else seen + {t0};
        assert KeptRows(rows, seen) == [rows[0]] + KeptRows(rest, rest');
        assert TagCount(KeptRows(rows, seen), t) == (if t0 == t then 1 else 0) + TagCount(KeptRows(rest, rest'), t);
      }
    }
  }

  lemma {:induction false} ZeroCountConcat(a: seq<Tagged>, b: seq<Tagged>)
    ensures ZeroCount(a + b) == ZeroCount(a) + ZeroCount(b)
  {
    if a != [] {
      assert (a + b)[0] == a[0];
      assert (a + b)[1..] == a[1..] + b;
      ZeroCountConcat(a[1..], b);
    } else {
      assert a + b == b;
    }
  }

  /** Taking out the row at position `j`. */
  function RemoveAt(b: seq<Tagged>, j: nat): seq<Tagged>
    requires j < |b|
  {
    b[..j] + b[j + 1..]
  }

  lemma RemoveAtMultiset(b: seq<Tagged>, j: nat)
    requires j < |b|
    ensures multiset(RemoveAt(b, j)) == multiset(b) - multiset{b[j]}
  {
    assert b == b[..j] + [b[j]] + b[j + 1..];
  }

  lemma {:induction false} RemoveAtZeroCount(b: seq<Tagged>, j: nat)
    requires j < |b|
    ensures ZeroCount(b) == (if b[j].tag == 0 then 1 else 0) + ZeroCount(RemoveAt(b, j))
  {
    if j == 0 {
      assert RemoveAt(b, j) == b[1..];
    } else {
      RemoveAtZeroCount(b[1..], j - 1);
      var r := RemoveAt(b, j);
      assert r == [b[0]] + RemoveAt(b[1..], j - 1);
      assert r[0] == b[0] && r[1..] == RemoveAt(b[1..], j - 1);
    }
  }

  /** Reordering rows does not change how many have tag 0. */
  lemma {:induction false} PermutedZeroCount(a: seq<Tagged>, b: seq<Tagged>)
    requires multiset(a) == multiset(b)
    ensures ZeroCount(a) == ZeroCount(b)
    decreases |a|
  {
    if a == [] {
      assert |multiset(b)| == 0;
    } else {
      var x := a[0];
      assert x in multiset(b);
      var j :| 0 <= j < |b| && b[j] == x;
      assert a == [x] + a[1..];
      assert multiset(a[1..]) == multiset(a) - multiset{x};
      RemoveAtMultiset(b, j);
      PermutedZeroCount(a[1..], RemoveAt(b, j));
      RemoveAtZeroCount(b, j);
    }
  }

  /** Reordering rows does not change which tags occur. */
  lemma PermutedTagSet(a: seq<Tagged>, b: seq<Tagged>)
    requires multiset(a) == multiset(b)
    ensures TagSet(a) == TagSet(b)
  {
    forall t ensures HasTag(a, t) ==> HasTag(b, t) {
      if HasTag(a, t) {
        var j :| 0 <= j < |a| && a[j].tag == t;
        assert a[j] in multiset(b);
      }
    }
    forall t ensures HasTag(b, t) ==> HasTag(a, t) {
      if HasTag(b, t) {
        var j :| 0 <= j < |b| && b[j].tag == t;
        assert b[j] in multiset(a);
      }
    }
  }

  /** The tags 1..m. */
  function TagsUpTo(m: nat): (r: set<nat>)
    ensures |r| == m
    ensures forall t :: t in r <==> 1 <= t <= m
  {
    if m == 0 then {}
    else
      var rest := TagsUpTo(m - 1);
      assert m !in rest;
      rest + {m}
  }

  /** In the arrangement, the tag-0 rows are the ids in no group. */
  lemma ArrangeZeros(n: nat, gs: seq<seq<nat>>)
    ensures ZeroCount(Arrange(n, gs)) == |Unmatched(n, Flatten(gs))|
  {
    var r := Arrange(n, gs);
    var f := |Flatten(gs)|;
    assert r == r[..f] + r[f..];
    ZeroCountConcat(r[..f], r[f..]);
    AllTagged(r[..f]);
    AllZero(r[f..]);
  }

  /** In the arrangement, the non-zero tags are exactly 1..|groups| when no group is
      empty. */
  lemma ArrangeCounts(n: nat, gs: seq<seq<nat>>)
    requires forall i :: 0 <= i < |gs| ==> gs[i] != []
    ensures ZeroCount(Arrange(n, gs)) == |Unmatched(n, Flatten(gs))|
    ensures TagSet(Arrange(n, gs)) - {0} == TagsUpTo(|gs|)
  {
    ArrangeZeros(n, gs);
    forall t ensures t in TagSet(Arrange(n, gs)) - {0} <==> t in TagsUpTo(|gs|) {
      ArrangeTag(n, gs, t);
    }
  }

  /** A non-zero tag occurs after the arrangement exactly when it numbers a group. */
  lemma ArrangeTag(n: nat, gs: seq<seq<nat>>, t: nat)
    requires forall i :: 0 <= i < |gs| ==> gs[i] != []
    ensures t in TagSet(Arrange(n, gs)) - {0} <==> t in TagsUpTo(|gs|)
  {
    var r := Arrange(n, gs);
    if 1 <= t <= |gs| {
      assert gs[t - 1][0] in gs[t - 1];
      assert Tagged(gs[t - 1][0], t) in r;
      var j :| 0 <= j < |r| && r[j] == Tagged(gs[t - 1][0], t);
      assert HasTag(r, t);
    }
    if t in TagSet(r) - {0} {
      var j :| 0 <= j < |r| && r[j].tag == t;
      assert j < |Flatten(gs)|;
    }
  }

  lemma {:induction false} AllTagged(rows: seq<Tagged>)
    requires forall k :: 0 <= k < |rows| ==> rows[k].tag != 0
    ensures ZeroCount(rows) == 0
  {
    if rows != [] {
      AllTagged(rows[1..]);
    }
  }

  lemma {:induction false} AllZero(rows: seq<Tagged>)
    requires forall k :: 0 <= k < |rows| ==> rows[k].tag == 0
    ensures ZeroCount(rows) == |rows|
  {
    if rows != [] {
      AllZero(rows[1..]);
    }
  }

  /** One row of the deduplicated table: the record, its `duplicate_group_id` and,
      unless the REMOVE rows were dropped, its `keep_remove` label. */
  datatype DedupRow = DedupRow(id: nat, record: Row, groupId: nat, keepRemove: Option<Label>)

  /** The first id that is not a row position, if any. */
  function FirstOutOfRange(ids: seq<nat>, n: nat): (r: Option<nat>)
    ensures r.None? <==> forall k :: 0 <= k < |ids| ==> ids[k] < n
    ensures r.Some? ==> r.value in ids && r.value >= n
  {
    if ids == [] then None
    else if ids[0] >= n then Some(ids[0])
    else FirstOutOfRange(ids[1..], n)
  }

  /** When every grouped id is a row, so is every id of the arrangement. */
  lemma ArrangeIdsInRange(n: nat, gs: seq<seq<nat>>)
    requires forall k :: 0 <= k < |Flatten(gs)| ==> Flatten(gs)[k] < n
    ensures forall x :: x in Arrange(n, gs) ==> x.id < n
  {
    var a := Arrange(n, gs);
    var f := Flatten(gs);
    var u := Unmatched(n, f);
    forall k | 0 <= k < |a| ensures a[k].id < n {
      ConcatBelow(f, u, n, k);
    }
  }

  lemma ConcatBelow(f: seq<nat>, u: seq<nat>, n: nat, k: nat)
    requires forall i :: 0 <= i < |f| ==> f[i] < n
    requires forall x: nat :: x in u ==> x < n
    requires k < |f + u|
    ensures (f + u)[k] < n
  {
    if k >= |f| {
      assert (f + u)[k] == u[k - |f|];
      assert u[k - |f|] in u;
    }
  }

  /** ... and so is every id of any reordering of it. */
  lemma ArrangedIdsInRange(n: nat, gs: seq<seq<nat>>, sorted: seq<Tagged>)
    requires multiset(sorted) == multiset(Arrange(n, gs))
    requires forall k :: 0 <= k < |Flatten(gs)| ==> Flatten(gs)[k] < n
    ensures forall x :: x in sorted ==> x.id < n
  {
    ArrangeIdsInRange(n, gs);
    forall x | x in sorted ensures x.id < n {
      assert x in multiset(Arrange(n, gs));
    }
  }

  /** A non-empty group's tag occurs in any reordering of the arrangement. */
  lemma ArrangedGroupTag(n: nat, gs: seq<seq<nat>>, sorted: seq<Tagged>, i: nat)
    requires multiset(sorted) == multiset(Arrange(n, gs))
    requires i < |gs| && gs[i] != []
    ensures HasTag(sorted, i + 1)
  {
    var a := Arrange(n, gs);
    assert gs[i][0] in gs[i];
    assert Tagged(gs[i][0], i + 1) in a;
    PermutedTagSet(a, sorted);
    var j :| 0 <= j < |a| && a[j] == Tagged(gs[i][0], i + 1);
    assert HasTag(a, i + 1);
  }

  /** The labelled rows, in the sorted order. */
  function Annotate(t: Table, rows: seq<Tagged>, labels: seq<Label>): seq<DedupRow>
    requires |labels| == |rows|
    requires forall x :: x in rows ==> x.id < |t.rows|
  {
    seq(|rows|, k requires 0 <= k < |rows| =>
      DedupRow(rows[k].id, t.rows[rows[k].id], rows[k].tag, Some(labels[k])))
  }

  /** The rows without their label column. */
  function Unlabelled(t: Table, rows: seq<Tagged>): seq<DedupRow>
    requires forall x :: x in rows ==> x.id < |t.rows|
  {
    seq(|rows|, k requires 0 <= k < |rows| => DedupRow(rows[k].id, t.rows[rows[k].id], rows[k].tag, None))
  }

  /** The columns the output is sorted by after the group id; sorting by a column the
      table lacks raises a `KeyError`. */
  const SortKey: string := "abstract"
  const SortTieKey: string := "year"

  /** `_dedup`: `sorted` is the arrangement after the table's multi-key sort, which
      the model takes as any reordering of it. A grouped id that is not a row fails the
      `loc` lookup; the sort then fails on a missing `abstract` or `year` column. */
  function Dedup(t: Table, groups: seq<seq<nat>>, sorted: seq<Tagged>, drop: bool): (r: Result<seq<DedupRow>>)
    requires multiset(sorted) == multiset(Arrange(|t.rows|, groups))
    ensures r.Err? <==> (exists k :: 0 <= k < |Flatten(groups)| && Flatten(groups)[k] >= |t.rows|)
                        || SortKey !in t.columns || SortTieKey !in t.columns
    ensures (exists k :: 0 <= k < |Flatten(groups)| && Flatten(groups)[k] >= |t.rows|) ==> r.Err? && r.error.MissingRecord?
    ensures r.Err? && r.error.MissingRecord? ==> r.error.id in Flatten(groups) && r.error.id >= |t.rows|
    ensures r.Err? && !r.error.MissingRecord? ==>
      (SortKey !in t.columns && r.error == KeyError(SortKey))
      || (SortKey in t.columns && SortTieKey !in t.columns && r.error == KeyError(SortTieKey))
    ensures r.Ok? ==> forall k :: 0 <= k < |r.value| ==> r.value[k].id < |t.rows| && r.value[k].record == t.rows[r.value[k].id]
    ensures r.Ok? && !drop ==> |r.value| == |sorted| && forall k :: 0 <= k < |sorted| ==>
      r.value[k].id == sorted[k].id && r.value[k].groupId == sorted[k].tag && r.value[k].keepRemove == Some(Labels(sorted, {})[k])
    ensures r.Ok? && drop ==> |r.value| == |KeptRows(sorted, {})| && forall k :: 0 <= k < |r.value| ==>
      r.value[k].id == KeptRows(sorted, {})[k].id && r.value[k].groupId == KeptRows(sorted, {})[k].tag && r.value[k].keepRemove.None?
  {
    var bad := FirstOutOfRange(Flatten(groups), |t.rows|);
    if bad.Some? then Err(MissingRecord(bad.value))
    else if SortKey !in t.columns then Err(KeyError(SortKey))
    else if SortTieKey !in t.columns then Err(KeyError(SortTieKey))
    else
      ArrangedIdsInRange(|t.rows|, groups, sorted);
      var labels := Labels(sorted, {});
      if drop then
        var kept := SelectKept(sorted, labels);
        SelectKeptRows(sorted, {});
        Ok(Unlabelled(t, kept))
      else
        Ok(Annotate(t, sorted, labels))
  }

  /** Number of output rows carrying a group id. */
  function GroupCount(rows: seq<DedupRow>, g: nat): nat {
    if rows == [] then 0 else (if rows[0].groupId == g then 1 else 0) + GroupCount(rows[1..], g)
  }

  lemma {:induction false} GroupCountOfTags(rows: seq<DedupRow>, tagged: seq<Tagged>, g: nat)
    requires |rows| == |tagged|
    requires forall k :: 0 <= k < |rows| ==> rows[k].groupId == tagged[k].tag
    ensures GroupCount(rows, g) == TagCount(tagged, g)
  {
    if rows != [] {
      GroupCountOfTags(rows[1..], tagged[1..], g);
    }
  }

  /** Whatever the sort order, without the drop: every unmatched row is KEEP, and each
      group has exactly one KEEP row, all its others being REMOVE. */
  lemma DedupOneKeepPerGroup(t: Table, groups: seq<seq<nat>>, sorted: seq<Tagged>)
    requires multiset(sorted) == multiset(Arrange(|t.rows|, groups))
    requires Dedup(t, groups, sorted, false).Ok?
    ensures var out := Dedup(t, groups, sorted, false).value;
      forall k :: 0 <= k < |out| && out[k].groupId == 0 ==> out[k].keepRemove == Some(Keep)
    ensures var out := Dedup(t, groups, sorted, false).value;
      forall i :: 0 <= i < |groups| && groups[i] != [] ==>
        exists k :: 0 <= k < |out| && out[k].groupId == i + 1 && out[k].keepRemove == Some(Keep)
    ensures var out := Dedup(t, groups, sorted, false).value;
      forall k1, k2 ::
        (0 <= k1 < |out| && 0 <= k2 < |out| && out[k1].groupId != 0 && out[k1].groupId == out[k2].groupId
         && out[k1].keepRemove == Some(Keep) && out[k2].keepRemove == Some(Keep)) ==> k1 == k2
  {
    var out := Dedup(t, groups, sorted, false).value;
    OneKeepPerTag(sorted);
    forall i | 0 <= i < |groups| && groups[i] != []
      ensures exists k :: 0 <= k < |out| && out[k].groupId == i + 1 && out[k].keepRemove == Some(Keep)
    {
      ArrangedGroupTag(|t.rows|, groups, sorted, i);
    }
  }

  /** With the drop, whatever the sort order: every unmatched record is kept, and each
      non-empty group leaves exactly one row. */
  lemma DedupDropOnePerGroup(t: Table, groups: seq<seq<nat>>, sorted: seq<Tagged>)
    requires multiset(sorted) == multiset(Arrange(|t.rows|, groups))
    requires Dedup(t, groups, sorted, true).Ok?
    ensures GroupCount(Dedup(t, groups, sorted, true).value, 0) == |Unmatched(|t.rows|, Flatten(groups))|
    ensures forall i :: 0 <= i < |groups| && groups[i] != [] ==> GroupCount(Dedup(t, groups, sorted, true).value, i + 1) == 1
  {
    var n := |t.rows|;
    var out := Dedup(t, groups, sorted, true).value;
    var kept := KeptRows(sorted, {});
    GroupCountOfTags(out, kept, 0);
    KeptRowsPerTag(sorted, {}, 0);
    PermutedZeroCount(sorted, Arrange(n, groups));
    ArrangeZeros(n, groups);
    forall i | 0 <= i < |groups| && groups[i] != []
      ensures GroupCount(out, i + 1) == 1
    {
      GroupCountOfTags(out, kept, i + 1);
      KeptRowsPerTag(sorted, {}, i + 1);
      ArrangedGroupTag(n, groups, sorted, i);
    }
  }

  /** With the drop and no empty group, the result has one row per group plus one per
      unmatched record. */
  lemma DedupDropCount(t: Table, groups: seq<seq<nat>>, sorted: seq<Tagged>)
    requires multiset(sorted) == multiset(Arrange(|t.rows|, groups))
    requires forall i :: 0 <= i < |groups| ==> groups[i] != []
    requires Dedup(t, groups, sorted, true).Ok?
    ensures |Dedup(t, groups, sorted, true).value| == |groups| + |Unmatched(|t.rows|, Flatten(groups))|
  {
    var n := |t.rows|;
    KeptRowsCount(sorted, {});
    PermutedZeroCount(sorted, Arrange(n, groups));
    PermutedTagSet(sorted, Arrange(n, groups));
    ArrangeCounts(n, groups);
    assert TagSet(sorted) - {0} - {} == TagsUpTo(|groups|);
  }
}

=== FILE: clean_pipeline.dfy ===
/** The cleaning stage: a fixed table of field cleaners, the include/exclude choice of
    which of them to run, and their column-by-column application. */
module CleanPipeline {
  import opened Wrappers
  import opened Text
  import opened Tables
  import opened DdUtils

  /** What the cleaners need from outside: the transliteration table behind
      `unidecode`, the journal abbreviation table, and `clean_authors`, which is not
      part of this model. */
  datatype Env = Env(translit: char -> string, abbreviations: map<string, string>, cleanAuthors: string -> string)

  /** The names of `clean_funcs`, in the table's order. */
  const CleanFuncNames: seq<string> :=
    ["title", "abstract", "authors", "year", "doi", "journal", "pages", "volume", "number", "isbn"]

  /** A string cleaner run element-wise on a column; values that are not strings (the
      empty match list) are passed on. */
  function Lift(f: string -> Cell): Cell -> Cell {
    (c: Cell) => if c.Str? then f(c.s) else c
  }

  /** `clean_funcs[name]`. */
  function CleanFunc(env: Env, name: string): (r: Option<Cell -> Cell>)
    ensures r.Some? <==> name in CleanFuncNames
  {
    if name == "title" then Some(Lift(s => Str(CleanTitle(env.translit, s))))
    else if name == "abstract" then Some(Lift(s => Str(CleanAbstract(env.translit, s))))
    else if name == "authors" then Some(Lift(s => Str(env.cleanAuthors(s))))
    else if name == "year" then Some(Lift(s => Str(CleanYear(s))))
    else if name == "doi" then Some(Lift(s => CleanDoi(s)))
    else if name == "journal" then Some(Lift(s => Str(CleanJournal(env.abbreviations, s))))
    else if name == "pages" then Some(Lift(s => CleanPages(s)))
    else if name == "volume" then Some(Lift(s => Str(CleanVolume(s))))
    else if name == "number" then Some(Lift(s => Str(CleanNumber(s))))
    else if name == "isbn" then Some(Lift(s => Str(CleanIsbn(s))))
    else None
  }

  /** The names of `names` that are not excluded, in their order. */
  function Without(names: seq<string>, excluded: seq<string>): (r: seq<string>)
    ensures forall x :: x in r <==> x in names && x !in excluded
    ensures |r| <= |names|
  {
    if names == [] then []
    else (if names[0] in excluded then [] else [names[0]]) + Without(names[1..], excluded)
  }

  /** `a` is `b` with some elements left out, the rest in their order. */
  predicate Subsequence(a: seq<string>, b: seq<string>)
    decreases |b|
  {
    a == [] || (b != [] && ((a[0] == b[0] && Subsequence(a[1..], b[1..])) || Subsequence(a, b[1..])))
  }

  lemma {:induction false} WithoutSubsequence(names: seq<string>, excluded: seq<string>)
    ensures Subsequence(Without(names, excluded), names)
  {
    if names != [] {
      WithoutSubsequence(names[1..], excluded);
      if names[0] !in excluded {
        var rest := Without(names[1..], excluded);
        var r := [names[0]] + rest;
        assert Without(names, excluded) == r;
        assert r[0] == names[0] && r[1..] == rest;
      } else {
        assert Without(names, excluded) == Without(names[1..], excluded);
      }
    }
  }

  /** The cleaners `pipe` selects: `include` when it is non-empty (an empty or absent list
      is false in Python), else the table minus `exclude` when that is non-empty, else the
      whole table. */
  function Selection(includes: seq<string>, excludes: seq<string>): (r: seq<string>)
    ensures includes != [] ==> r == includes
    ensures includes == [] && excludes != [] ==> r == Without(CleanFuncNames, excludes)
    ensures includes == [] && excludes == [] ==> r == CleanFuncNames
  {
    if includes != [] then includes
    else if excludes != [] then Without(CleanFuncNames, excludes)
    else CleanFuncNames
  }

  /** With `include` given, `exclude` is ignored. */
  lemma IncludeWins(includes: seq<string>, excludes: seq<string>, other: seq<string>)
    requires includes != []
    ensures Selection(includes, excludes) == Selection(includes, other)
  {
  }

  /** With only `exclude`, exactly the table's other cleaners run, in table order. */
  lemma ExcludeOnly(excludes: seq<string>, x: string)
    requires excludes != []
    ensures x in Selection([], excludes) <==> x in CleanFuncNames && x !in excludes
    ensures Subsequence(Selection([], excludes), CleanFuncNames)
  {
    WithoutSubsequence(CleanFuncNames, excludes);
  }

  /** The named cleaners, failing with `KeyError` on the first name not in the table. */
  function LookupCleaners(env: Env, names: seq<string>): (r: Result<seq<(string, Cell -> Cell)>>)
    ensures r.Ok? <==> forall k :: 0 <= k < |names| ==> names[k] in CleanFuncNames
    ensures r.Err? ==> exists k :: 0 <= k < |names| && names[k] !in CleanFuncNames && r.error == KeyError(names[k])
    ensures r.Ok? ==> |r.value| == |names| && forall k :: 0 <= k < |names| ==>
      r.value[k].0 == names[k] && CleanFunc(env, names[k]).Some? && r.value[k].1 == CleanFunc(env, names[k]).value
  {
    if names == [] then Ok([])
    else
      var f := CleanFunc(env, names[0]);
      if f.None? then Err(KeyError(names[0]))
      else
        var rest :- LookupCleaners(env, names[1..]);
        Ok([(names[0], f.value)] + rest)
  }

  /** Every stage can find its column: its name is in the column specification and the
      column it names is in the table. */
  predicate StagesResolve(stages: seq<(string, Cell -> Cell)>, colSpecs: map<string, string>, columns: set<string>) {
    forall k :: 0 <= k < |stages| ==> stages[k].0 in colSpecs && colSpecs[stages[k].0] in columns
  }

  /** What the stages do to one cell of column `c`: the stages aimed at `c`, in order,
      and nothing else. */
  function ColumnEffect(stages: seq<(string, Cell -> Cell)>, colSpecs: map<string, string>, c: string, x: Cell): Cell
    requires forall k :: 0 <= k < |stages| ==> stages[k].0 in colSpecs
  {
    if stages == [] then x
    else ColumnEffect(stages[1..], colSpecs, c, if colSpecs[stages[0].0] == c then stages[0].1(x) else x)
  }

  /** A column no stage aims at is left as it is. */
  lemma {:induction false} ColumnEffectUntouched(stages: seq<(string, Cell -> Cell)>, colSpecs: map<string, string>, c: string, x: Cell)
    requires forall k :: 0 <= k < |stages| ==> stages[k].0 in colSpecs
    requires forall k :: 0 <= k < |stages| ==> colSpecs[stages[k].0] != c
    ensures ColumnEffect(stages, colSpecs, c, x) == x
  {
    if stages != [] {
      ColumnEffectUntouched(stages[1..], colSpecs, c, x);
    }
  }

  /** A column exactly one stage aims at gets that stage's cleaner, once. */
  lemma {:induction false} ColumnEffectSingle(stages: seq<(string, Cell -> Cell)>, colSpecs: map<string, string>, c: string, x: Cell, j: nat)
    requires forall k :: 0 <= k < |stages| ==> stages[k].0 in colSpecs
    requires j < |stages| && colSpecs[stages[j].0] == c
    requires forall k :: 0 <= k < |stages| && k != j ==> colSpecs[stages[k].0] != c
    ensures ColumnEffect(stages, colSpecs, c, x) == stages[j].1(x)
  {
    if j == 0 {
      ColumnEffectUntouched(stages[1..], colSpecs, c, stages[0].1(x));
    } else {
      ColumnEffectSingle(stages[1..], colSpecs, c, x, j - 1);
    }
  }

  /** Each stage in turn replaces the column its name maps to by its cleaner applied to
      every cell; a name without a column specification, or a column the table lacks,
      raises `KeyError`. */
  function RunStages(t: Table, colSpecs: map<string, string>, stages: seq<(string, Cell -> Cell)>): (r: Result<Table>)
    requires WellFormed(t)
    ensures r.Ok? ==> WellFormed(r.value) && r.value.columns == t.columns && |r.value.rows| == |t.rows|
    decreases |stages|
  {
    if stages == [] then Ok(t)
    else if stages[0].0 !in colSpecs then Err(KeyError(stages[0].0))
    else
      var t1 :- ApplyToColumn(t, colSpecs[stages[0].0], stages[0].1);
      RunStages(t1, colSpecs, stages[1..])
  }

  /** The stages run without error exactly when they all resolve, and each cell ends up
      as its column's effect applied to it. */
  lemma {:induction false} RunStagesMeaning(t: Table, colSpecs: map<string, string>, stages: seq<(string, Cell -> Cell)>)
    requires WellFormed(t)
    ensures RunStages(t, colSpecs, stages).Ok? <==> StagesResolve(stages, colSpecs, t.columns)
    ensures RunStages(t, colSpecs, stages).Err? ==> RunStages(t, colSpecs, stages).error.KeyError?
    ensures RunStages(t, colSpecs, stages).Ok? ==> forall i, c :: 0 <= i < |t.rows| && c in t.columns ==>
      RunStages(t, colSpecs, stages).value.rows[i][c] == ColumnEffect(stages, colSpecs, c, t.rows[i][c])
    decreases |stages|
  {
    if stages != [] && stages[0].0 in colSpecs {
      var t1 := ApplyToColumn(t, colSpecs[stages[0].0], stages[0].1);
      assert forall k :: 1 <= k < |stages| ==> stages[1..][k - 1] == stages[k];
      if t1.Ok? {
        RunStagesMeaning(t1.value, colSpecs, stages[1..]);
        var target := colSpecs[stages[0].0];
        forall i, c | 0 <= i < |t.rows| && c in t.columns
          ensures t1.value.rows[i][c] == (if target == c then stages[0].1(t.rows[i][c]) else t.rows[i][c])
        {
        }
      }
    }
  }

  /** `CleanPipeline.pipe`: missing values become "", the selected cleaners are looked
      up and queued after the stages already added, every stage runs on its column, the
      year column is looked up, and missing values become "" again. */
  function Pipe(env: Env, t: Table, colSpecs: map<string, string>, added: seq<(string, Cell -> Cell)>,
                includes: seq<string>, excludes: seq<string>): (r: Result<Table>)
    requires WellFormed(t)
    ensures r.Ok? ==> WellFormed(r.value) && r.value.columns == t.columns && |r.value.rows| == |t.rows|
    ensures r.Ok? ==> forall i, c :: 0 <= i < |r.value.rows| && c in r.value.columns ==> !r.value.rows[i][c].Null?
  {
    var t1 := FillNaTable(t);
    var selected :- LookupCleaners(env, Selection(includes, excludes));
    var t2 :- RunStages(t1, colSpecs, added + selected);
    if "year" !in colSpecs then Err(KeyError("year"))
    else if colSpecs["year"] !in t2.columns then Err(KeyError(colSpecs["year"]))
    else
      var t3 := FillNaTable(t2);
      assert forall i, c :: 0 <= i < |t3.rows| && c in t3.columns ==> c in t2.rows[i] && t3.rows[i][c] == FillNa(t2.rows[i][c]);
      Ok(t3)
  }

  /** `pipe` fails exactly when a selected name is not a cleaner, a stage cannot find its
      column, or there is no year column; otherwise every cell is its column's stages
      applied to the filled-in value, filled in again. */
  lemma PipeMeaning(env: Env, t: Table, colSpecs: map<string, string>, added: seq<(string, Cell -> Cell)>,
                    includes: seq<string>, excludes: seq<string>)
    requires WellFormed(t)
    ensures var names := Selection(includes, excludes);
      Pipe(env, t, colSpecs, added, includes, excludes).Ok? <==>
        (forall k :: 0 <= k < |names| ==> names[k] in CleanFuncNames) &&
        StagesResolve(added + LookupCleaners(env, names).value, colSpecs, t.columns) &&
        "year" in colSpecs && colSpecs["year"] in t.columns
    ensures Pipe(env, t, colSpecs, added, includes, excludes).Err? ==> Pipe(env, t, colSpecs, added, includes, excludes).error.KeyError?
    ensures Pipe(env, t, colSpecs, added, includes, excludes).Ok? ==>
      var stages := added + LookupCleaners(env, Selection(includes, excludes)).value;
      forall i, c :: 0 <= i < |t.rows| && c in t.columns ==>
        Pipe(env, t, colSpecs, added, includes, excludes).value.rows[i][c] == FillNa(ColumnEffect(stages, colSpecs, c, FillNa(t.rows[i][c])))
  {
    var t1 := FillNaTable(t);
    var selected := LookupCleaners(env, Selection(includes, excludes));
    if selected.Ok? {
      RunStagesMeaning(t1, colSpecs, added + selected.value);
    }
  }

  /** A column that no stage aims at comes out with only its missing values filled in. */
  lemma PipeLeavesOthers(env: Env, t: Table, colSpecs: map<string, string>, added: seq<(string, Cell -> Cell)>,
                         includes: seq<string>, excludes: seq<string>, i: nat, c: string)
    requires WellFormed(t)
    requires Pipe(env, t, colSpecs, added, includes, excludes).Ok?
    requires i < |t.rows| && c in t.columns
    requires forall k :: 0 <= k < |added| ==> added[k].0 in colSpecs && colSpecs[added[k].0] != c
    requires forall k :: 0 <= k < |Selection(includes, excludes)| ==>
      Selection(includes, excludes)[k] in colSpecs && colSpecs[Selection(includes, excludes)[k]] != c
    ensures Pipe(env, t, colSpecs, added, includes, excludes).value.rows[i][c] == FillNa(t.rows[i][c])
  {
    PipeMeaning(env, t, colSpecs, added, includes, excludes);
    var names := Selection(includes, excludes);
    var stages := added + LookupCleaners(env, names).value;
    forall k | 0 <= k < |stages| ensures stages[k].0 in colSpecs && colSpecs[stages[k].0] != c {
      if k >= |added| {
        assert stages[k].0 == names[k - |added|];
      }
    }
    ColumnEffectUntouched(stages, colSpecs, c, FillNa(t.rows[i][c]));
    assert FillNa(FillNa(t.rows[i][c])) == FillNa(t.rows[i][c]);
  }

  /** The effect on a column that exactly one queued cleaner aims at. */
  lemma SelectedStageOnly(added: seq<(string, Cell -> Cell)>, selected: seq<(string, Cell -> Cell)>,
                          colSpecs: map<string, string>, c: string, x: Cell, j: nat)
    requires j < |selected|
    requires forall k :: 0 <= k < |added| ==> added[k].0 in colSpecs && colSpecs[added[k].0] != c
    requires forall k :: 0 <= k < |selected| ==> selected[k].0 in colSpecs
    requires colSpecs[selected[j].0] == c
    requires forall k :: 0 <= k < |selected| && k != j ==> colSpecs[selected[k].0] != c
    ensures ColumnEffect(added + selected, colSpecs, c, x) == selected[j].1(x)
  {
    var stages := added + selected;
    assert forall k :: |added| <= k < |stages| ==> stages[k] == selected[k - |added|];
    assert forall k :: 0 <= k < |added| ==> stages[k] == added[k];
    ColumnEffectSingle(stages, colSpecs, c, x, |added| + j);
  }

  /** A column whose canonical name is selected once, with no other stage aimed at it,
      comes out as that name's cleaner applied to the filled-in value. */
  lemma PipeCleansSelected(env: Env, t: Table, colSpecs: map<string, string>, added: seq<(string, Cell -> Cell)>,
                           includes: seq<string>, excludes: seq<string>, i: nat, j: nat)
    requires WellFormed(t)
    requires Pipe(env, t, colSpecs, added, includes, excludes).Ok?
    requires i < |t.rows| && j < |Selection(includes, excludes)| && Selection(includes, excludes)[j] in colSpecs
    requires var c := colSpecs[Selection(includes, excludes)[j]];
      forall k :: 0 <= k < |added| ==> added[k].0 in colSpecs && colSpecs[added[k].0] != c
    requires var names := Selection(includes, excludes); var c := colSpecs[names[j]];
      forall k :: 0 <= k < |names| && k != j ==> names[k] in colSpecs && colSpecs[names[k]] != c
    ensures var name := Selection(includes, excludes)[j];
      name in CleanFuncNames && colSpecs[name] in t.columns &&
      Pipe(env, t, colSpecs, added, includes, excludes).value.rows[i][colSpecs[name]]
        == FillNa(CleanFunc(env, name).value(FillNa(t.rows[i][colSpecs[name]])))
  {
    PipeMeaning(env, t, colSpecs, added, includes, excludes);
    var names := Selection(includes, excludes);
    var selected := LookupCleaners(env, names).value;
    var stages := added + selected;
    assert stages[|added| + j] == selected[j];
    var c := colSpecs[names[j]];
    SelectedStageOnly(added, selected, colSpecs, c, FillNa(t.rows[i][c]), j);
  }
}

=== FILE: config.dfy ===
/** The fixed set of bibliographic fields the deduplication compares. */
module Config {
  import opened Wrappers

  datatype Field = Authors | Title | Abstract | Year | Journal | Doi | Volume | Pages | Number | Isbn

  /** The canonical fields, in the order of the configuration list. */
  const CanonicalFields: seq<Field> :=
    [Authors, Title, Abstract, Year, Journal, Doi, Volume, Pages, Number, Isbn]

  /** The column name under which a field is known. */
  function FieldName(f: Field): string {
    match f
    case Authors => "authors"
    case Title => "title"
    case Abstract => "abstract"
    case Year => "year"
    case Journal => "journal"
    case Doi => "doi"
    case Volume => "volume"
    case Pages => "pages"
    case Number => "number"
    case Isbn => "isbn"
  }

  /** The field a canonical name stands for, if any. */
  function FieldNamed(name: string): (r: Option<Field>)
    ensures r.Some? ==> FieldName(r.value) == name
  {
    if name == "authors" then Some(Authors)
    else if name == "title" then Some(Title)
    else if name == "abstract" then Some(Abstract)
    else if name == "year" then Some(Year)
    else if name == "journal" then Some(Journal)
    else if name == "doi" then Some(Doi)
    else if name == "volume" then Some(Volume)
    else if name == "pages" then Some(Pages)
    else if name == "number" then Some(Number)
    else if name == "isbn" then Some(Isbn)
    else None
  }

  /** The canonical list names every field exactly once, and names and fields are
      interchangeable. */
  lemma CanonicalFieldsComplete(f: Field)
    ensures f in CanonicalFields
    ensures FieldNamed(FieldName(f)) == Some(f)
    ensures forall i, j :: 0 <= i < j < |CanonicalFields| ==> CanonicalFields[i] != CanonicalFields[j]
  {
  }
}

=== FILE: dd_utils.dfy ===
/** The field cleaners and key builders of the deduplication engine
    (deduplication/dd_utils.py), each a pure function on one field value. */
module DdUtils {
  import opened Wrappers
  import opened Text
  import opened Tables

  // ---------------------------------------------------------------------------
  // Title and abstract
  // ---------------------------------------------------------------------------

  /** The literal HTML entities replaced by a space, after the two tag patterns. */
  const HtmlEntities: seq<string> :=
    ["&nbsp;", "&lt;", "&gt;", "&amp;", "&quot;", "&apos;", "&cent;", "&pound;", "&yen;",
     "&euro;", "&copy;", "&reg;"]

  lemma HtmlEntitiesStartWithAmpersand()
    ensures forall k :: 0 <= k < |HtmlEntities| ==> |HtmlEntities[k]| > 0 && HtmlEntities[k][0] == '&'
  {
  }

  /** Length of the leading run of `\w` characters. */
  function WordRun(s: string): (n: nat)
    ensures n <= |s|
    ensures forall i :: 0 <= i < n ==> IsWordChar(s[i])
    ensures n < |s| ==> !IsWordChar(s[n])
  {
    if s == [] || !IsWordChar(s[0]) then 0 else 1 + WordRun(s[1..])
  }

  /** Length of the match of `</\w+>` (when `closing`) or `<\w+>` at the start of `s`;
      0 when the pattern does not match there. The greedy `\w+` can only be followed by
      `>` when it has taken the whole run of word characters. */
  function TagAt(s: string, closing: bool): (n: nat)
    ensures n <= |s|
    ensures n > 0 ==> s[0] == '<'
  {
    var head := if closing then 2 else 1;
    if |s| < head || s[0] != '<' || (closing && s[1] != '/') then 0
    else
      var w := WordRun(s[head..]);
      if w > 0 && head + w < |s| && s[head + w] == '>' then head + w + 1 else 0
  }

  /** `re.sub(tag, " ", s)` for one of the two tag patterns. */
  function SubTags(s: string, closing: bool): string
    decreases |s|
  {
    if s == [] then []
    else
      var n := TagAt(s, closing);
      if n > 0 then " " + SubTags(s[n..], closing) else [s[0]] + SubTags(s[1..], closing)
  }

  /** Each entity of `entities` in turn replaced by a space. */
  function SubEntities(s: string, entities: seq<string>): string
    requires forall k :: 0 <= k < |entities| ==> |entities[k]| > 0
    decreases |entities|
  {
    if entities == [] then s else SubEntities(ReplaceAll(s, entities[0], " "), entities[1..])
  }

  /** The loop over `HTML_ENTITIES`: closing tags, opening tags, then the literal entities. */
  function StripHtml(s: string): string {
    HtmlEntitiesStartWithAmpersand();
    SubEntities(SubTags(SubTags(s, true), false), HtmlEntities)
  }

  lemma {:induction false} SubTagsNoTag(s: string, closing: bool)
    requires '<' !in s
    ensures SubTags(s, closing) == s
    decreases |s|
  {
    if s != [] {
      assert s[0] != '<';
      SubTagsNoTag(s[1..], closing);
    }
  }

  lemma {:induction false} SubEntitiesAbsent(s: string, entities: seq<string>)
    requires '&' !in s
    requires forall k :: 0 <= k < |entities| ==> |entities[k]| > 0 && entities[k][0] == '&'
    ensures SubEntities(s, entities) == s
  {
    if entities != [] {
      forall i | 0 <= i < |s|
        ensures !OccursAt(s, i, entities[0])
      {
        assert s[i] != '&';
        if i + |entities[0]| <= |s| {
          assert s[i..i + |entities[0]|][0] == s[i];
        }
      }
      ReplaceAllAbsent(s, entities[0], " ");
      SubEntitiesAbsent(s, entities[1..]);
    }
  }

  /** Text without `<` and `&` has no markup to strip. */
  lemma StripHtmlPlain(s: string)
    requires '<' !in s && '&' !in s
    ensures StripHtml(s) == s
  {
    SubTagsNoTag(s, true);
    SubTagsNoTag(s, false);
    HtmlEntitiesStartWithAmpersand();
    SubEntitiesAbsent(s, HtmlEntities);
  }

  /** `unidecode`: ASCII characters are kept, every other character is replaced by its
      entry in the transliteration table `translit`. */
  function Unidecode(translit: char -> string, s: string): string {
    if s == [] then [] else (if IsAscii(s[0]) then [s[0]] else translit(s[0])) + Unidecode(translit, s[1..])
  }

  lemma {:induction false} UnidecodeAscii(translit: char -> string, s: string)
    requires forall i :: 0 <= i < |s| ==> IsAscii(s[i])
    ensures Unidecode(translit, s) == s
  {
    if s != [] {
      UnidecodeAscii(translit, s[1..]);
    }
  }

  /** `re.sub(r"[^A-Za-z0-9]", " ", s)`. */
  function ReplaceNonAlnum(s: string): string {
    seq(|s|, i requires 0 <= i < |s| => if IsAlnum(s[i]) then s[i] else ' ')
  }

  /** No two adjacent spaces. */
  predicate NoDoubleSpace(s: string) {
    forall i :: 0 <= i < |s| - 1 ==> !(s[i] == ' ' && s[i + 1] == ' ')
  }

  function DropSpaces(s: string): (r: string)
    ensures |r| <= |s| && r == s[|s| - |r|..]
    ensures r == [] || r[0] != ' '
    ensures |s| > 0 && s[0] == ' ' ==> |r| < |s|
  {
    if |s| > 0 && s[0] == ' ' then DropSpaces(s[1..]) else s
  }

  /** `re.sub(r" +", " ", s)`: every run of spaces becomes one space. */
  function CollapseSpaces(s: string): (r: string)
    ensures NoDoubleSpace(r)
    ensures forall i :: 0 <= i < |r| ==> r[i] in s
    ensures |s| > 0 ==> |r| > 0 && r[0] == s[0]
    decreases |s|
  {
    if s == [] then []
    else if s[0] == ' ' then
      var rest := DropSpaces(s);
      assert forall i :: 0 <= i < |rest| ==> rest[i] in s;
      var t := CollapseSpaces(rest);
      ConsCollapsed(' ', t, s);
      [' '] + t
    else
      assert forall i :: 0 <= i < |s[1..]| ==> s[1..][i] in s;
      var t := CollapseSpaces(s[1..]);
      ConsCollapsed(s[0], t, s);
      [s[0]] + t
  }

  /** A character put in front of collapsed text keeps it collapsed unless it doubles
      a space. */
  lemma ConsCollapsed(c: char, t: string, s: string)
    requires NoDoubleSpace(t) && c in s && forall i :: 0 <= i < |t| ==> t[i] in s
    requires c == ' ' ==> t == [] || t[0] != ' '
    ensures NoDoubleSpace([c] + t)
    ensures forall i :: 0 <= i < |[c] + t| ==> ([c] + t)[i] in s
  {
    var r := [c] + t;
    assert forall i :: 0 < i < |r| ==> r[i] == t[i - 1];
  }

  lemma {:induction false} CollapseSpacesNoDouble(s: string)
    requires NoDoubleSpace(s)
    ensures CollapseSpaces(s) == s
    decreases |s|
  {
    if s != [] {
      assert NoDoubleSpace(s[1..]);
      if s[0] == ' ' {
        assert |s| == 1 || s[1] != ' ';
        assert DropSpaces(s) == s[1..];
      }
      CollapseSpacesNoDouble(s[1..]);
    }
  }

  predicate IsCanonicalChar(c: char) { IsUpper(c) || IsDigit(c) || c == ' ' }

  /** The shape of a cleaned title or abstract: only `A-Z`, `0-9` and space, no space at
      either end and no two spaces in a row. */
  predicate CanonicalText(s: string) {
    && (forall i :: 0 <= i < |s| ==> IsCanonicalChar(s[i]))
    && NoDoubleSpace(s)
    && (s == [] || (s[0] != ' ' && s[|s| - 1] != ' '))
  }

  /** The tail of both cleaners: non-alphanumerics to spaces, runs of spaces collapsed,
      stripped, upper-cased. */
  function Canonicalize(s: string): string {
    Upper(Strip(CollapseSpaces(ReplaceNonAlnum(s))))
  }

  /** Only ASCII letters, digits and spaces. */
  predicate SpacedAlnum(s: string) {
    forall i :: 0 <= i < |s| ==> IsAlnum(s[i]) || s[i] == ' '
  }

  lemma StripKeepsShape(b: string)
    requires SpacedAlnum(b) && NoDoubleSpace(b)
    ensures SpacedAlnum(Strip(b)) && NoDoubleSpace(Strip(b)) && Trimmed(Strip(b))
  {
    var c := Strip(b);
    StripSpec(b);
    var k := |b| - |StripLeft(b)|;
    assert c == b[k..][..|c|];
    assert forall i :: 0 <= i < |c| ==> c[i] == b[k + i];
  }

  lemma UpperKeepsShape(c: string)
    requires SpacedAlnum(c) && NoDoubleSpace(c) && Trimmed(c)
    ensures CanonicalText(Upper(c))
  {
    var d := Upper(c);
    assert forall i :: 0 <= i < |d| ==> (d[i] == ' ' <==> c[i] == ' ');
    assert forall i :: 0 <= i < |d| ==> IsCanonicalChar(d[i]);
  }

  lemma CanonicalizeShape(s: string)
    ensures CanonicalText(Canonicalize(s))
  {
    var a := ReplaceNonAlnum(s);
    assert SpacedAlnum(a);
    var b := CollapseSpaces(a);
    assert SpacedAlnum(b);
    StripKeepsShape(b);
    UpperKeepsShape(Strip(b));
  }

  lemma ReplaceNonAlnumCanonical(s: string)
    requires forall i :: 0 <= i < |s| ==> IsCanonicalChar(s[i])
    ensures ReplaceNonAlnum(s) == s
  {
    var a := ReplaceNonAlnum(s);
    forall i | 0 <= i < |s| ensures a[i] == s[i] {
      assert IsCanonicalChar(s[i]);
    }
  }

  lemma UpperCanonical(s: string)
    requires forall i :: 0 <= i < |s| ==> IsCanonicalChar(s[i])
    ensures Upper(s) == s
  {
    var u := Upper(s);
    forall i | 0 <= i < |s| ensures u[i] == s[i] {
      UpperOfUpperLetter(s[i]);
    }
  }

  lemma CanonicalTrimmed(s: string)
    requires CanonicalText(s)
    ensures Trimmed(s)
  {
    if s != [] {
      assert IsCanonicalChar(s[0]) && IsCanonicalChar(s[|s| - 1]);
    }
  }

  /** Canonical text is a fixed point of the tail of the cleaners. */
  lemma CanonicalizeFixed(s: string)
    requires CanonicalText(s)
    ensures Canonicalize(s) == s
  {
    ReplaceNonAlnumCanonical(s);
    assert ReplaceNonAlnum(s) == s;
    CollapseSpacesNoDouble(s);
    assert CollapseSpaces(s) == s;
    CanonicalTrimmed(s);
    StripTrimmed(s);
    assert Strip(s) == s;
    UpperCanonical(s);
  }

  /** The shared body of `clean_title` and `clean_abstract`. */
  function CleanText(translit: char -> string, s: string): (r: string)
    ensures CanonicalText(r)
  {
    var r := Canonicalize(Unidecode(translit, StripHtml(s)));
    CanonicalizeShape(Unidecode(translit, StripHtml(s)));
    r
  }

  /** `clean_title`. */
  function CleanTitle(translit: char -> string, title: string): (r: string)
    ensures CanonicalText(r)
  {
    CleanText(translit, title)
  }

  /** `clean_abstract`: the same pipeline as `clean_title`. */
  function CleanAbstract(translit: char -> string, abstractText: string): (r: string)
    ensures CanonicalText(r)
  {
    CleanText(translit, abstractText)
  }

  /** Cleaning a cleaned title or abstract changes nothing, whatever the
      transliteration table. */
  lemma CleanTextIdempotent(translit: char -> string, s: string)
    ensures CleanText(translit, CleanText(translit, s)) == CleanText(translit, s)
  {
    var c := CleanText(translit, s);
    CanonicalPlain(c);
    StripHtmlPlain(c);
    UnidecodeAscii(translit, c);
    CanonicalizeFixed(c);
  }

  /** Canonical text is plain ASCII without markup. */
  lemma CanonicalPlain(c: string)
    requires CanonicalText(c)
    ensures '<' !in c && '&' !in c && forall i :: 0 <= i < |c| ==> IsAscii(c[i])
  {
    forall i | 0 <= i < |c| ensures c[i] != '<' && c[i] != '&' && IsAscii(c[i]) {
      assert IsCanonicalChar(c[i]);
    }
  }

  lemma CleanTitleIdempotent(translit: char -> string, title: string)
    ensures CleanTitle(translit, CleanTitle(translit, title)) == CleanTitle(translit, title)
  {
    CleanTextIdempotent(translit, title);
  }

  lemma CleanAbstractIdempotent(translit: char -> string, abstractText: string)
    ensures CleanAbstract(translit, CleanAbstract(translit, abstractText)) == CleanAbstract(translit, abstractText)
  {
    CleanTextIdempotent(translit, abstractText);
  }

  // ---------------------------------------------------------------------------
  // Year and number: passed through
  // ---------------------------------------------------------------------------

  /** `clean_year`: the value is kept as it is, partial or irregular years included. */
  function CleanYear(year: string): (r: string)
    ensures r == year
  {
    year
  }

  /** `clean_number`: the value is kept as it is. */
  function CleanNumber(number: string): (r: string)
    ensures r == number
  {
    number
  }

  // ---------------------------------------------------------------------------
  // DOI
  // ---------------------------------------------------------------------------

  const DoiPrefix: string := "https://doi.org/"

  /** `10\..` matches at `i`: the literal `10.` and one more character that is not a
      line break (`.` does not match `\n`). */
  predicate DoiStartsAt(s: string, i: nat) {
    i + 3 < |s| && s[i..i + 3] == "10." && s[i + 3] != '\n'
  }

  /** The first index at or after `j` that holds a line break, or `|s|`: where a greedy
      `.*` or `.+` stops. */
  function LineEnd(s: string, j: nat): (e: nat)
    requires j <= |s|
    ensures j <= e <= |s|
    ensures forall k :: j <= k < e ==> s[k] != '\n'
    ensures e < |s| ==> s[e] == '\n'
    decreases |s| - j
  {
    if j == |s| || s[j] == '\n' then j else LineEnd(s, j + 1)
  }

  /** The leftmost index at or after `i` where a DOI match starts. */
  function FirstDoiStart(s: string, i: nat): (r: Option<nat>)
    requires i <= |s|
    ensures r.Some? ==> i <= r.value < |s| && DoiStartsAt(s, r.value)
    ensures r.Some? ==> forall k :: i <= k < r.value ==> !DoiStartsAt(s, k)
    ensures r.None? <==> forall k :: i <= k <= |s| ==> !DoiStartsAt(s, k)
    decreases |s| - i
  {
    if i == |s| then None else if DoiStartsAt(s, i) then Some(i) else FirstDoiStart(s, i + 1)
  }

  /** The first element of `re.findall(r"(10\..+)", s)`, if there is one: from the
      leftmost `10.` that has a character after it on the same line, to the end of that
      line. */
  function DoiMatch(s: string): (r: Option<string>)
    ensures r.None? <==> forall k :: 0 <= k <= |s| ==> !DoiStartsAt(s, k)
    ensures r.Some? ==> StartsWith(r.value, "10.") && |r.value| >= 4 && '\n' !in r.value
    ensures r.Some? ==> exists k :: 0 <= k < |s| && DoiStartsAt(s, k) && k + |r.value| <= |s| && r.value == s[k..k + |r.value|]
    ensures r.Some? ==> exists k: nat :: LeftmostDoiStart(s, k) && r.value == s[k..LineEnd(s, k + 3)]
  {
    match FirstDoiStart(s, 0)
    case None => None
    case Some(k) =>
      var e := LineEnd(s, k + 3);
      assert s[k..e][..3] == s[k..k + 3];
      assert LeftmostDoiStart(s, k);
      Some(s[k..e])
  }

  /** A match of `10\..` starts at `k` and at no earlier index. */
  predicate LeftmostDoiStart(s: string, k: nat) {
    DoiStartsAt(s, k) && forall j :: 0 <= j < k ==> !DoiStartsAt(s, j)
  }

  /** Only one index can be the leftmost start. */
  lemma LeftmostDoiStartUnique(s: string, k: nat, k': nat)
    requires LeftmostDoiStart(s, k) && LeftmostDoiStart(s, k')
    ensures k == k'
  {
  }

  /** The match `re.findall` returns first: from the leftmost start to the end of its
      line. */
  lemma DoiMatchLeftmost(s: string, k: nat)
    requires LeftmostDoiStart(s, k)
    ensures DoiMatch(s) == Some(s[k..LineEnd(s, k + 3)])
  {
    var f := FirstDoiStart(s, 0);
    assert f.Some? by {
      assert DoiStartsAt(s, k);
    }
    assert LeftmostDoiStart(s, f.value);
    LeftmostDoiStartUnique(s, k, f.value);
  }

  lemma {:induction false} StripRightKeepsPrefix(s: string, p: string)
    requires StartsWith(s, p) && p != [] && !IsSpace(p[|p| - 1])
    ensures StartsWith(StripRight(s), p)
  {
    StripRightBack(s);
    assert !IsSpace(s[|p| - 1]);
    assert |StripRight(s)| >= |p|;
    assert StripRight(s)[..|p|] == s[..|p|];
  }

  lemma UpperKeepsDoiHead(m: string)
    requires StartsWith(m, "10.")
    ensures StartsWith(Upper(m), "10.")
  {
    assert Upper(m)[..3] == m[..3];
  }

  /** The DOI part of a cleaned value: the match, stripped. */
  lemma StrippedDoi(m: string)
    requires StartsWith(m, "10.") && '\n' !in m
    ensures StartsWith(Strip(m), "10.") && Trimmed(Strip(m)) && '\n' !in Strip(m)
  {
    assert m[0] == '1' && !IsSpace(m[0]);
    assert StripLeft(m) == m;
    var t := StripRight(m);
    assert Strip(m) == t;
    StripRightKeepsPrefix(m, "10.");
    StripRightBack(m);
    assert t[0] == '1';
    assert forall i :: 0 <= i < |t| ==> t[i] == m[i];
  }

  lemma ToUpperSpace(c: char)
    ensures IsSpace(ToUpper(c)) <==> IsSpace(c)
    ensures !IsLower(ToUpper(c))
    ensures ToUpper(c) == '\n' <==> c == '\n'
  {
  }

  /** The URL built from a DOI match: the prefix, then `10.`, no line break, no
      whitespace at the end, no lower-case letter after the prefix. */
  lemma DoiUrlShape(m: string)
    requires StartsWith(m, "10.") && '\n' !in m
    ensures var r := DoiPrefix + Upper(Strip(m));
            && StartsWith(r, DoiPrefix + "10.") && '\n' !in r && Trimmed(r)
            && forall i :: |DoiPrefix| <= i < |r| ==> !IsLower(r[i])
  {
    StrippedDoi(m);
    UpperDoiShape(Strip(m));
    PrefixedDoiShape(Upper(Strip(m)));
  }

  /** Upper-casing keeps the shape of a stripped DOI and leaves no lower-case letter. */
  lemma UpperDoiShape(t: string)
    requires StartsWith(t, "10.") && '\n' !in t && Trimmed(t)
    ensures var u := Upper(t);
            && StartsWith(u, "10.") && '\n' !in u && Trimmed(u)
            && forall i :: 0 <= i < |u| ==> !IsLower(u[i])
  {
    UpperKeepsDoiHead(t);
    var u := Upper(t);
    forall i | 0 <= i < |u|
      ensures u[i] != '\n' && !IsLower(u[i]) && (IsSpace(u[i]) <==> IsSpace(t[i]))
    {
      ToUpperSpace(t[i]);
    }
  }

  lemma PrefixedDoiShape(u: string)
    requires StartsWith(u, "10.") && '\n' !in u && Trimmed(u)
    requires forall i :: 0 <= i < |u| ==> !IsLower(u[i])
    ensures var r := DoiPrefix + u;
            && StartsWith(r, DoiPrefix + "10.") && '\n' !in r && Trimmed(r)
            && forall i :: |DoiPrefix| <= i < |r| ==> !IsLower(r[i])
  {
    var r := DoiPrefix + u;
    assert r[..|DoiPrefix| + 3] == DoiPrefix + u[..3];
    assert forall i :: |DoiPrefix| <= i < |r| ==> r[i] == u[i - |DoiPrefix|];
    assert r[|r| - 1] == u[|u| - 1];
  }

  /** The cleaned DOI is built from the text that runs from the leftmost `10.` with a
      character after it to the end of that line. */
  lemma CleanDoiLeftmost(doi: string, k: nat)
    requires LeftmostDoiStart(doi, k)
    ensures CleanDoi(doi) == Str(DoiPrefix + Upper(Strip(doi[k..LineEnd(doi, k + 3)])))
  {
    DoiMatchLeftmost(doi, k);
  }

  /** `clean_doi`: an empty value is returned as it is; a value with a DOI becomes the
      `https://doi.org/` URL of the upper-cased, stripped match; a non-empty value without
      one becomes the empty match list. */
  function CleanDoi(doi: string): (r: Cell)
    ensures doi == "" ==> r == Str("")
    ensures doi != "" && DoiMatch(doi).None? ==> r == EmptyList
    ensures DoiMatch(doi).Some? ==> r == Str(DoiPrefix + Upper(Strip(DoiMatch(doi).value)))
    ensures r.Str? && doi != "" ==> StartsWith(r.s, DoiPrefix + "10.") && '\n' !in r.s && Trimmed(r.s)
    ensures r.Str? && doi != "" ==> forall i :: |DoiPrefix| <= i < |r.s| ==> !IsLower(r.s[i])
  {
    if |doi| > 0 then
      match DoiMatch(doi)
      case Some(m) =>
        DoiUrlShape(m);
        Str(DoiPrefix + Upper(Strip(m)))
      case None => EmptyList
    else Str(doi)
  }

  // ---------------------------------------------------------------------------
  // Pages
  // ---------------------------------------------------------------------------

  /** `\d{2}-\d{2}-\d{4}` matches at `i`. */
  predicate DateAt(s: string, i: nat) {
    && i + 10 <= |s|
    && IsDigit(s[i]) && IsDigit(s[i + 1]) && s[i + 2] == '-'
    && IsDigit(s[i + 3]) && IsDigit(s[i + 4]) && s[i + 5] == '-'
    && IsDigit(s[i + 6]) && IsDigit(s[i + 7]) && IsDigit(s[i + 8]) && IsDigit(s[i + 9])
  }

  /** A date misfiled as pages occurs somewhere in `s`. */
  predicate HasDate(s: string) {
    exists i :: 0 <= i < |s| && DateAt(s, i)
  }

  predicate IsPageChar(c: char) { IsDigit(c) || c == '-' }

  /** Length of the leading run of digits. */
  function DigitRun(s: string): (n: nat)
    ensures n <= |s|
    ensures forall i :: 0 <= i < n ==> IsDigit(s[i])
    ensures n < |s| ==> !IsDigit(s[n])
  {
    if s == [] || !IsDigit(s[0]) then 0 else 1 + DigitRun(s[1..])
  }

  /** The first match of `([0-9]*)-?([0-9]*)`, which always matches at index 0: the
      leading digits, an optional `-`, then the digits after it. */
  function SplitRange(p: string): (r: (string, string))
    ensures forall i :: 0 <= i < |r.0| ==> IsDigit(r.0[i])
    ensures forall i :: 0 <= i < |r.1| ==> IsDigit(r.1[i])
    ensures StartsWith(p, r.0)
    ensures r.1 != "" ==> StartsWith(p, r.0 + "-" + r.1) || StartsWith(p, r.0 + r.1)
  {
    var d := DigitRun(p);
    var rest := if d < |p| && p[d] == '-' then p[d + 1..] else p[d..];
    var e := DigitRun(rest);
    assert d == |p| || !IsDigit(p[d]);
    if d < |p| && p[d] == '-' then
      assert p[..d + 1 + e] == p[..d] + "-" + rest[..e];
      (p[..d], rest[..e])
    else
      assert e == 0;
      (p[..d], rest[..e])
  }

  /** The end of a range left-padded with the leading digits of its start when it is
      shorter: `start[:len_diff] + end`. */
  function PadEnd(start: string, end: string): (r: string)
    ensures |r| == if |start| > |end| then |start| else |end|
    ensures EndsWith(r, end)
    ensures StartsWith(start, r[..|r| - |end|])
  {
    if |start| > |end| then start[..|start| - |end|] + end else end
  }

  /** The range formatting of `clean_pages` applied to a value that holds only digits
      and `-`. */
  function FormatRange(p: string): (r: string)
    ensures forall i :: 0 <= i < |r| ==> IsPageChar(r[i])
    ensures SplitRange(p).1 == "" ==> r == SplitRange(p).0
    ensures var (start, end) := SplitRange(p);
            end != "" ==> && StartsWith(r, start + "-") && EndsWith(r, end)
                          && |r| == |start| + 1 + (if |start| > |end| then |start| else |end|)
  {
    var (start, end) := SplitRange(p);
    if end != "" then
      var e := PadEnd(start, end);
      JoinedAffixes(start + "-", e, end);
      start + "-" + e
    else start
  }

  /** A text followed by one that ends with `end` starts with the first and ends with
      `end`. */
  lemma JoinedAffixes(x: string, e: string, end: string)
    requires EndsWith(e, end)
    ensures StartsWith(x + e, x) && EndsWith(x + e, end)
  {
    assert (x + e)[..|x|] == x;
    assert (x + e)[|x + e| - |end|..] == e[|e| - |end|..];
  }

  /** `clean_pages`: a value with a date in it is cleared, an empty value has no result
      (`None`), anything else loses every character but digits and `-` and is formatted
      as a range whose end is never shorter than its start. */
  function CleanPages(pages: string): (r: Cell)
    ensures HasDate(pages) ==> r == Str("")
    ensures !HasDate(pages) && pages == "" ==> r == Null
    ensures !HasDate(pages) && pages != "" ==> r == Str(FormatRange(Keep(pages, IsPageChar)))
    ensures r.Str? ==> forall i :: 0 <= i < |r.s| ==> IsPageChar(r.s[i])
  {
    if HasDate(pages) then Str("")
    else if pages != "" then Str(FormatRange(Keep(pages, IsPageChar)))
    else Null
  }

  /** The formatted end of a range is never shorter than its start, ends with the
      digits given for the end, and borrows its first digits from the start. */
  lemma FormatRangeEnd(p: string)
    requires SplitRange(p).1 != ""
    ensures var (start, end) := SplitRange(p);
            var r := FormatRange(p);
            && StartsWith(r, start + "-")
            && var e := r[|start| + 1..];
               |e| >= |start| && EndsWith(e, end) && StartsWith(start, e[..|e| - |end|])
  {
    var (start, end) := SplitRange(p);
    var r := FormatRange(p);
    assert r[|start| + 1..] == PadEnd(start, end);
  }

  lemma DigitRunAll(s: string)
    requires forall i :: 0 <= i < |s| ==> IsDigit(s[i])
    ensures DigitRun(s) == |s|
  {
  }

  lemma {:induction false} DigitRunPrefix(a: string, b: string)
    requires forall i :: 0 <= i < |a| ==> IsDigit(a[i])
    requires b == [] || !IsDigit(b[0])
    ensures DigitRun(a + b) == |a|
  {
    if a != [] {
      assert (a + b)[1..] == a[1..] + b;
      DigitRunPrefix(a[1..], b);
    }
  }

  /** A run of digits alone is a range with no end. */
  lemma SplitDigits(s: string)
    requires forall i :: 0 <= i < |s| ==> IsDigit(s[i])
    ensures SplitRange(s) == (s, "")
  {
    DigitRunAll(s);
    assert s[..|s|] == s;
    assert s[|s|..] == [];
  }

  /** Two runs of digits joined by `-` split back into the two runs. */
  lemma SplitJoinedRange(start: string, e: string)
    requires forall i :: 0 <= i < |start| ==> IsDigit(start[i])
    requires forall i :: 0 <= i < |e| ==> IsDigit(e[i])
    ensures SplitRange(start + "-" + e) == (start, e)
  {
    var r := start + "-" + e;
    DigitRunPrefix(start, "-" + e);
    assert r == start + ("-" + e);
    assert r[|start|] == '-';
    assert r[|start| + 1..] == e;
    DigitRunAll(e);
    assert r[..|start|] == start;
    assert e[..|e|] == e;
  }

  /** A formatted range is formatted again to itself. */
  lemma FormatRangeIdempotent(p: string)
    requires forall i :: 0 <= i < |p| ==> IsPageChar(p[i])
    ensures FormatRange(FormatRange(p)) == FormatRange(p)
  {
    var (start, end) := SplitRange(p);
    if end == "" {
      SplitDigits(start);
    } else {
      var e := PadEnd(start, end);
      assert forall i :: 0 <= i < |e| ==> IsDigit(e[i]);
      SplitJoinedRange(start, e);
    }
  }

  /** Cleaning the non-empty result of `clean_pages` changes nothing. */
  lemma CleanPagesIdempotent(pages: string)
    requires CleanPages(pages).Str? && CleanPages(pages).s != ""
    ensures CleanPages(CleanPages(pages).s) == CleanPages(pages)
  {
    var out := CleanPages(pages).s;
    assert !HasDate(pages);
    var p := Keep(pages, IsPageChar);
    KeepOnly(pages, IsPageChar);
    FormatRangeIdempotent(p);
    NoDateInRange(p);
    KeepAll(out, IsPageChar);
  }

  /** A date needs two dashes. */
  lemma NoDateWithOneDash(r: string)
    requires forall i, j :: 0 <= i < j < |r| && r[i] == '-' ==> r[j] != '-'
    ensures !HasDate(r)
  {
    forall i | 0 <= i < |r|
      ensures !DateAt(r, i)
    {
      if i + 10 <= |r| && r[i + 2] == '-' {
        assert r[i + 5] != '-';
      }
    }
  }

  /** A formatted range has at most one `-`, so no date pattern fits in it. */
  lemma NoDateInRange(p: string)
    requires forall i :: 0 <= i < |p| ==> IsPageChar(p[i])
    ensures !HasDate(FormatRange(p))
  {
    var r := FormatRange(p);
    var (start, end) := SplitRange(p);
    if end != "" {
      var e := PadEnd(start, end);
      assert r == start + "-" + e;
      assert forall i :: 0 <= i < |e| ==> IsDigit(e[i]);
      assert forall j :: 0 <= j < |r| && j != |start| ==> IsDigit(r[j]);
    }
    NoDateWithOneDash(r);
  }

  // ---------------------------------------------------------------------------
  // Journal
  // ---------------------------------------------------------------------------

  predicate IsJournalKeyChar(c: char) { IsAlnum(c) || IsSpace(c) }

  /** The lookup key of `clean_journal`: non-ASCII characters dropped, then everything
      but ASCII letters, digits and whitespace. */
  function JournalKey(journal: string): (k: string)
    ensures forall i :: 0 <= i < |k| ==> IsAscii(k[i]) && IsJournalKeyChar(k[i])
  {
    var ascii := Keep(journal, IsAscii);
    KeepOnly(journal, IsAscii);
    var k := Keep(ascii, IsJournalKeyChar);
    KeepOnly(ascii, IsJournalKeyChar);
    forall i | 0 <= i < |k|
      ensures IsAscii(k[i])
    {
      KeepMembership(ascii, IsJournalKeyChar, k[i]);
    }
    k
  }

  /** A value that is already a key is its own key. */
  lemma JournalKeyOfKey(journal: string)
    requires forall i :: 0 <= i < |journal| ==> IsAscii(journal[i]) && IsJournalKeyChar(journal[i])
    ensures JournalKey(journal) == journal
  {
    KeepAll(journal, IsAscii);
    KeepAll(journal, IsJournalKeyChar);
  }

  /** `clean_journal`: the full name from the abbreviation table when the key is in
      it, the original value untouched otherwise. */
  function CleanJournal(abbreviations: map<string, string>, journal: string): (r: string)
    ensures JournalKey(journal) in abbreviations ==> r == abbreviations[JournalKey(journal)]
    ensures JournalKey(journal) !in abbreviations ==> r == journal
  {
    var key := JournalKey(journal);
    if key in abbreviations then abbreviations[key] else journal
  }

  /** The abbreviation table read from its CSV rows: later rows win, and the full name
      loses its non-ASCII characters. */
  function LoadAbbreviations(rows: seq<(string, string)>): (m: map<string, string>)
    ensures forall k :: 0 <= k < |rows| ==> rows[k].0 in m
    ensures forall key :: key in m ==> exists k :: 0 <= k < |rows| && rows[k].0 == key
    ensures |rows| > 0 ==> m[rows[|rows| - 1].0] == Keep(rows[|rows| - 1].1, IsAscii)
    ensures forall key :: key in m ==> forall i :: 0 <= i < |m[key]| ==> IsAscii(m[key][i])
  {
    if rows == [] then map[]
    else
      var last := rows[|rows| - 1];
      var m := LoadAbbreviations(rows[..|rows| - 1]);
      KeepOnly(last.1, IsAscii);
      assert forall k :: 0 <= k < |rows| - 1 ==> rows[..|rows| - 1][k] == rows[k];
      m[last.0 := Keep(last.1, IsAscii)]
  }

  // ---------------------------------------------------------------------------
  // Volume and ISBN
  // ---------------------------------------------------------------------------

  const NoPagination: string := "(no pagination)"

  /** `clean_volume`: lower-cased, every `(no pagination)` removed. */
  function CleanVolume(volume: string): (r: string)
    ensures forall i :: 0 <= i < |r| ==> !IsUpper(r[i])
    ensures (forall i :: 0 <= i < |volume| ==> !OccursAt(Lower(volume), i, NoPagination)) ==> r == Lower(volume)
  {
    CleanVolumeFacts(volume);
    ReplaceAll(Lower(volume), NoPagination, "")
  }

  lemma CleanVolumeFacts(volume: string)
    ensures var r := ReplaceAll(Lower(volume), NoPagination, "");
            && (forall i :: 0 <= i < |r| ==> !IsUpper(r[i]))
            && ((forall i :: 0 <= i < |volume| ==> !OccursAt(Lower(volume), i, NoPagination)) ==> r == Lower(volume))
  {
    var r := ReplaceAll(Lower(volume), NoPagination, "");
    forall i | 0 <= i < |r|
      ensures !IsUpper(r[i])
    {
      ReplaceAllChars(Lower(volume), NoPagination, "", r[i]);
    }
    if forall i :: 0 <= i < |volume| ==> !OccursAt(Lower(volume), i, NoPagination) {
      ReplaceAllAbsent(Lower(volume), NoPagination, "");
    }
  }

  /** A marker in any letter case, with no marker starting before it, is removed and the
      text after it is cleaned in turn: together with the marker-free case this is
      `lower()` followed by the left-to-right removal of every marker. */
  lemma CleanVolumeMarker(a: string, m: string, b: string)
    requires Lower(m) == NoPagination
    requires forall i :: 0 <= i < |a| ==> !OccursAt(Lower(a) + NoPagination + Lower(b), i, NoPagination)
    ensures CleanVolume(a + m + b) == Lower(a) + CleanVolume(b)
  {
    LowerMarker(a, m, b);
    DeleteFirstMarker(Lower(a), Lower(b), Lower(a + m + b), NoPagination);
  }

  lemma DeleteFirstMarker(x: string, z: string, v: string, p: string)
    requires |p| > 0 && v == x + p + z
    requires forall i :: 0 <= i < |x| ==> !OccursAt(v, i, p)
    ensures ReplaceAll(v, p, "") == x + ReplaceAll(z, p, "")
  {
    ReplaceAllStep(x, p, z, "");
    assert x + "" + ReplaceAll(z, p, "") == x + ReplaceAll(z, p, "");
  }

  lemma LowerMarker(a: string, m: string, b: string)
    requires Lower(m) == NoPagination
    ensures Lower(a + m + b) == Lower(a) + NoPagination + Lower(b)
  {
    LowerConcat(a, m);
    LowerConcat(a + m, b);
  }

  /** A text without `(` holds no start of a marker. */
  lemma NoMarkerStart(a: string, rest: string)
    requires '(' !in a
    ensures forall i :: 0 <= i < |a| ==> !OccursAt(Lower(a) + rest, i, NoPagination)
  {
    forall i | 0 <= i < |a| ensures !OccursAt(Lower(a) + rest, i, NoPagination) {
      assert (Lower(a) + rest)[i] == ToLower(a[i]) != '(';
      assert NoPagination[0] == '(';
    }
  }

  /** `clean_volume("12 (No Pagination)")` is `"12 "`. */
  lemma CleanVolumeExample()
    ensures CleanVolume("12 (No Pagination)") == "12 "
  {
    ExampleLowerFacts();
    CleanVolumeTrailingMarker("12 ", "(No Pagination)");
    assert "12 " + "(No Pagination)" == "12 (No Pagination)";
  }

  lemma ExampleLowerFacts()
    ensures Lower("(No Pagination)") == NoPagination && Lower("12 ") == "12 "
  {
  }

  /** A volume ending in the marker, with no parenthesis before it, keeps only its
      lower-cased text before the marker. */
  lemma CleanVolumeTrailingMarker(a: string, m: string)
    requires '(' !in a && Lower(m) == NoPagination
    ensures CleanVolume(a + m) == Lower(a)
  {
    assert Lower("") == "";
    NoMarkerStart(a, NoPagination + Lower(""));
    assert Lower(a) + (NoPagination + Lower("")) == Lower(a) + NoPagination + Lower("");
    CleanVolumeMarker(a, m, "");
    assert a + m + "" == a + m;
    assert CleanVolume("") == "";
    assert Lower(a) + "" == Lower(a);
  }

  /** `\s\((Print|Electronic)\)` matches at the start of `s`. */
  predicate AnnotationAt(s: string) {
    |s| > 0 && IsSpace(s[0]) && (StartsWith(s[1..], "(Print)") || StartsWith(s[1..], "(Electronic)"))
  }

  /** `re.sub(r"\s\((Print|Electronic)\).*", "", s)`: each annotation is removed with the
      rest of its line; the line break itself stays. */
  function StripAnnotations(s: string): string
    decreases |s|
  {
    if s == [] then []
    else if AnnotationAt(s) then StripAnnotations(s[LineEnd(s, 1)..])
    else [s[0]] + StripAnnotations(s[1..])
  }

  lemma {:induction false} StripAnnotationsNone(s: string)
    requires forall i :: 0 <= i < |s| ==> !AnnotationAt(s[i..])
    ensures StripAnnotations(s) == s
    decreases |s|
  {
    if s != [] {
      assert !AnnotationAt(s[0..]);
      assert s[0..] == s;
      forall i | 0 <= i < |s[1..]|
        ensures !AnnotationAt(s[1..][i..])
      {
        assert s[1..][i..] == s[i + 1..];
      }
      StripAnnotationsNone(s[1..]);
    }
  }

  /** `clean_isbn`: annotations dropped, then each carriage return replaced by `"; "`. */
  function CleanIsbn(isbn: string): (r: string)
    ensures '\r' !in r
    ensures (forall i :: 0 <= i < |isbn| ==> !AnnotationAt(isbn[i..])) ==> r == ReplaceAll(isbn, "\r", "; ")
  {
    ReplaceAllRemovesChar(StripAnnotations(isbn), '\r', "; ");
    StripAnnotationsNoneIf(isbn);
    ReplaceAll(StripAnnotations(isbn), "\r", "; ")
  }

  /** A whitespace character followed by `(Print)` or `(Electronic)`. */
  predicate IsAnnotation(ann: string) {
    |ann| > 0 && IsSpace(ann[0]) && (ann[1..] == "(Print)" || ann[1..] == "(Electronic)")
  }

  /** An annotation removes itself and the rest of its line: whatever follows it on
      that line leaves no trace in the cleaned value. */
  lemma CleanIsbnAnnotation(a: string, ann: string, b: string)
    requires IsAnnotation(ann) && '\n' !in b
    ensures CleanIsbn(a + ann + b) == CleanIsbn(a)
  {
    StripAnnotationsTail(a, ann, b);
  }

  lemma {:induction false} StripAnnotationsTail(a: string, ann: string, b: string)
    requires IsAnnotation(ann) && '\n' !in b
    ensures StripAnnotations(a + ann + b) == StripAnnotations(a)
    decreases |a|
  {
    var rest := ann + b;
    var s := a + rest;
    assert s == a + ann + b;
    if a == [] {
      assert s == rest;
      AnnotationLineGone(ann, b);
    } else if AnnotationAt(s) {
      AnnotationWithinPrefix(a, rest);
      var e, ea := LineEnd(s, 1), LineEnd(a, 1);
      assert forall k :: 0 <= k < |a| ==> s[k] == a[k];
      if ea < |a| {
        assert e == ea;
        assert s[e..] == a[ea..] + ann + b;
        StripAnnotationsTail(a[ea..], ann, b);
      } else {
        RestNoBreak(ann, b);
        if e == |a| {
          assert s[e..] == rest;
          AnnotationLineGone(ann, b);
        } else {
          assert forall k :: |a| < k < |s| ==> s[k] == rest[k - |a|];
          assert e == |s|;
        }
      }
    } else {
      assert !AnnotationAt(a) by {
        if AnnotationAt(a) {
          AnnotationInLonger(a, rest);
        }
      }
      assert s[1..] == a[1..] + ann + b;
      StripAnnotationsTail(a[1..], ann, b);
    }
  }

  /** After its first character, an annotation and the text after it have no line
      break. */
  lemma RestNoBreak(ann: string, b: string)
    requires IsAnnotation(ann) && '\n' !in b
    ensures forall k :: 1 <= k < |ann + b| ==> (ann + b)[k] != '\n'
  {
    forall k | 1 <= k < |ann + b| ensures (ann + b)[k] != '\n' {
      if k < |ann| {
        assert (ann + b)[k] == ann[1..][k - 1];
      } else {
        assert (ann + b)[k] == b[k - |ann|];
      }
    }
  }

  /** An annotation with no line break after it is removed to the end. */
  lemma AnnotationLineGone(ann: string, b: string)
    requires IsAnnotation(ann) && '\n' !in b
    ensures StripAnnotations(ann + b) == []
  {
    var s := ann + b;
    assert s[0] == ann[0];
    assert s[1..][..|ann| - 1] == ann[1..];
    assert AnnotationAt(s);
    RestNoBreak(ann, b);
    assert LineEnd(s, 1) == |s|;
    assert s[|s|..] == [];
  }

  /** A match at the front of `a` is a match at the front of any longer text. */
  lemma AnnotationInLonger(a: string, rest: string)
    requires AnnotationAt(a)
    ensures AnnotationAt(a + rest)
  {
    var s := a + rest;
    assert s[0] == a[0];
    if StartsWith(a[1..], "(Print)") {
      assert s[1..][..7] == a[1..][..7];
    } else {
      assert s[1..][..12] == a[1..][..12];
    }
  }

  /** A match at the front of `a + rest`, where `rest` begins with whitespace, lies
      within `a`: the words `(Print)` and `(Electronic)` hold no whitespace. */
  lemma AnnotationWithinPrefix(a: string, rest: string)
    requires a != [] && rest != [] && IsSpace(rest[0])
    requires AnnotationAt(a + rest)
    ensures AnnotationAt(a)
  {
    var s := a + rest;
    assert s[0] == a[0];
    if StartsWith(s[1..], "(Print)") {
      WordWithinPrefix(a, rest, "(Print)");
    } else {
      WordWithinPrefix(a, rest, "(Electronic)");
    }
  }

  lemma WordWithinPrefix(a: string, rest: string, w: string)
    requires a != [] && rest != [] && IsSpace(rest[0])
    requires forall i :: 0 <= i < |w| ==> !IsSpace(w[i])
    requires StartsWith((a + rest)[1..], w)
    ensures StartsWith(a[1..], w)
  {
    var s := a + rest;
    assert forall j :: 1 <= j < 1 + |w| ==> s[j] == w[j - 1] && !IsSpace(s[j]);
    assert IsSpace(s[|a|]);
    assert |a| >= 1 + |w|;
    assert a[1..][..|w|] == s[1..][..|w|];
  }

  lemma StripAnnotationsNoneIf(isbn: string)
    ensures (forall i :: 0 <= i < |isbn| ==> !AnnotationAt(isbn[i..])) ==> StripAnnotations(isbn) == isbn
  {
    if forall i :: 0 <= i < |isbn| ==> !AnnotationAt(isbn[i..]) {
      StripAnnotationsNone(isbn);
    }
  }

  // ---------------------------------------------------------------------------
  // Blocking-key builders
  // ---------------------------------------------------------------------------

  /** The tokens before the first one-character token. */
  function NamesBeforeInitial(tokens: seq<string>): seq<string> {
    if tokens == [] || |tokens[0]| == 1 then [] else [tokens[0]] + NamesBeforeInitial(tokens[1..])
  }

  /** The tokens longer than two characters, in order. */
  function LongWords(tokens: seq<string>): seq<string> {
    if tokens == [] then [] else (if |tokens[0]| > 2 then [tokens[0]] else []) + LongWords(tokens[1..])
  }

  lemma {:induction false} LongWordsAppend(tokens: seq<string>, w: string)
    ensures LongWords(tokens + [w]) == LongWords(tokens) + (if |w| > 2 then [w] else [])
  {
    if tokens != [] {
      assert (tokens + [w])[1..] == tokens[1..] + [w];
      LongWordsAppend(tokens[1..], w);
    } else {
      assert [] + [w] == [w];
    }
  }

  lemma LongWordsStep(tokens: seq<string>, k: nat)
    requires k < |tokens|
    ensures LongWords(tokens[..k + 1]) == LongWords(tokens[..k]) + (if |tokens[k]| > 2 then [tokens[k]] else [])
  {
    assert tokens[..k + 1] == tokens[..k] + [tokens[k]];
    LongWordsAppend(tokens[..k], tokens[k]);
  }

  /** At most the first three of `words`. */
  function FirstThree(words: seq<string>): (r: seq<string>)
    ensures |r| <= 3 && |r| <= |words| && r == words[..|r|]
    ensures |words| <= 3 ==> r == words
  {
    if |words| > 3 then words[..3] else words
  }

  lemma FirstThreeOfPrefix(a: seq<string>, b: seq<string>)
    requires |a| == 3
    ensures FirstThree(a + b) == a
  {
    assert (a + b)[..3] == a;
  }

  lemma {:induction false} LongWordsSplit(tokens: seq<string>, k: nat)
    requires k <= |tokens|
    ensures LongWords(tokens) == LongWords(tokens[..k]) + LongWords(tokens[k..])
  {
    if k > 0 {
      assert tokens[..k][1..] == tokens[1..][..k - 1];
      assert tokens[k..] == tokens[1..][k - 1..];
      LongWordsSplit(tokens[1..], k - 1);
    }
  }

  lemma {:induction false} NamesBeforeInitialPrefix(tokens: seq<string>, k: nat)
    requires k < |tokens| && |tokens[k]| == 1
    requires forall j :: 0 <= j < k ==> |tokens[j]| != 1
    ensures NamesBeforeInitial(tokens) == tokens[..k]
  {
    if k > 0 {
      NamesBeforeInitialPrefix(tokens[1..], k - 1);
      assert tokens[..k] == [tokens[0]] + tokens[1..][..k - 1];
    }
  }

  lemma {:induction false} NamesBeforeInitialAll(tokens: seq<string>)
    requires forall j :: 0 <= j < |tokens| ==> |tokens[j]| != 1
    ensures NamesBeforeInitial(tokens) == tokens
  {
    if tokens != [] {
      NamesBeforeInitialAll(tokens[1..]);
    }
  }

  /** Letters only, upper-cased: `re.sub(r"[^A-Za-z]", "", s).upper()`. */
  function LetterKey(s: string): (r: string)
    ensures forall i :: 0 <= i < |r| ==> IsUpper(r[i])
  {
    KeepOnly(s, IsLetter);
    Upper(Keep(s, IsLetter))
  }

  /** `get_first_author`: the whitespace-separated tokens up to the first one-character
      token (an initial), concatenated, reduced to upper-case letters. */
  method GetFirstAuthor(authors: string) returns (key: string)
    ensures key == LetterKey(Concat(NamesBeforeInitial(Split(authors))))
    ensures forall i :: 0 <= i < |key| ==> IsUpper(key[i])
  {
    var items := Split(authors);
    var firstAuthor: seq<string> := [];
    var k := 0;
    while k < |items|
      invariant 0 <= k <= |items|
      invariant firstAuthor == items[..k]
      invariant forall j :: 0 <= j < k ==> |items[j]| != 1
    {
      if |items[k]| == 1 {
        NamesBeforeInitialPrefix(items, k);
        break;
      }
      firstAuthor := firstAuthor + [items[k]];
      k := k + 1;
    }
    if k == |items| {
      assert items[..k] == items;
      NamesBeforeInitialAll(items);
    }
    key := LetterKey(Concat(firstAuthor));
  }

  /** `get_short_title`: the first three tokens longer than two characters,
      concatenated, reduced to upper-case letters. */
  method GetShortTitle(title: string) returns (key: string)
    ensures key == LetterKey(Concat(FirstThree(LongWords(Split(title)))))
    ensures forall i :: 0 <= i < |key| ==> IsUpper(key[i])
  {
    var words := Split(title);
    var shortTitle: seq<string> := [];
    var k := 0;
    while k < |words|
      invariant 0 <= k <= |words|
      invariant shortTitle == LongWords(words[..k])
      invariant |shortTitle| < 3
    {
      var word := words[k];
      if |word| > 2 {
        shortTitle := shortTitle + [word];
      }
      LongWordsStep(words, k);
      k := k + 1;
      if |shortTitle| == 3 {
        LongWordsSplit(words, k);
        FirstThreeOfPrefix(shortTitle, LongWords(words[k..]));
        break;
      }
    }
    if k == |words| && |shortTitle| < 3 {
      assert words[..k] == words;
    }
    key := LetterKey(Concat(shortTitle));
  }
}

=== FILE: duplicated.dfy ===
/** Exact-duplicate flags for a record set: a record is flagged when an earlier record
    has the same normalised persistent identifier (PID) or the same normalised text.
    The first record with a given value is never flagged, and a missing value never is. */
module Duplicated {
  import opened Wrappers
  import opened Text

  /** The PID column when the table has one: a string column is stripped before the
      comparison, any other column is compared as it is. A missing cell is `None`. */
  datatype PidColumn =
    | StringColumn(cells: seq<Option<string>>)
    | OtherColumn(cells: seq<Option<string>>)

  /** `str.strip()`, then the empty identifier counts as missing. */
  function NormalisePid(c: Option<string>): (r: Option<string>)
    ensures r.Some? <==> c.Some? && Strip(c.value) != ""
    ensures r.Some? ==> r.value == Strip(c.value) && Trimmed(r.value)
  {
    StripSpec(if c.Some? then c.value else "");
    match c
    case None => None
    case Some(s) => if Strip(s) == "" then None else Some(Strip(s))
  }

  /** The PID values compared: stripped for a string column, as they are otherwise. */
  function PidValues(col: PidColumn): (r: seq<Option<string>>)
    ensures |r| == |col.cells|
    ensures col.OtherColumn? ==> r == col.cells
    ensures col.StringColumn? ==> forall i :: 0 <= i < |r| ==> r[i] == NormalisePid(col.cells[i])
  {
    match col
    case StringColumn(cells) => seq(|cells|, i requires 0 <= i < |cells| => NormalisePid(cells[i]))
    case OtherColumn(cells) => cells
  }

  /** A text with everything but ASCII letters and digits removed, lower-cased; the empty
      result counts as missing. */
  function NormaliseText(s: string): (r: Option<string>)
    ensures r.None? <==> forall i :: 0 <= i < |s| ==> !IsAlnum(s[i])
    ensures r.Some? ==> r.value != [] && forall i :: 0 <= i < |r.value| ==> IsLower(r.value[i]) || IsDigit(r.value[i])
  {
    var k := Keep(s, IsAlnum);
    KeepOnly(s, IsAlnum);
    KeepEmpty(s, IsAlnum);
    if k == [] then None else Some(Lower(k))
  }

  /** Nothing is kept exactly when no character satisfies the predicate. */
  lemma KeepEmpty(s: string, p: char -> bool)
    ensures Keep(s, p) == [] <==> forall i :: 0 <= i < |s| ==> !p(s[i])
  {
    var k := Keep(s, p);
    forall i | 0 <= i < |s| && p(s[i]) ensures k != [] {
      KeepMembership(s, p, s[i]);
    }
    if k != [] {
      KeepMembership(s, p, k[0]);
    }
  }

  /** Normalising an already normalised text changes nothing. */
  lemma NormaliseTextIdempotent(s: string)
    requires NormaliseText(s).Some?
    ensures NormaliseText(NormaliseText(s).value) == NormaliseText(s)
  {
    var k := NormaliseText(s).value;
    KeepAll(k, IsAlnum);
    assert Lower(k) == k;
  }

  /** Position `i` holds a value that an earlier position already held
      (`Series.duplicated()` with its default `keep="first"`), and the value is present. */
  predicate LaterDuplicate<T(==)>(vals: seq<Option<T>>, i: nat)
    requires i < |vals|
  {
    vals[i].Some? && vals[i] in vals[..i]
  }

  /** The flag of every position. */
  function DuplicateFlags<T(==)>(vals: seq<Option<T>>): (r: seq<bool>)
    ensures |r| == |vals|
  {
    seq(|vals|, i requires 0 <= i < |vals| => LaterDuplicate(vals, i))
  }

  /** The flags computed in one pass, remembering the values seen so far. */
  method FlagDuplicates<T(==)>(vals: seq<Option<T>>) returns (flags: seq<bool>)
    ensures |flags| == |vals|
    ensures forall i :: 0 <= i < |vals| ==> (flags[i] <==> vals[i].Some? && exists j :: 0 <= j < i && vals[j] == vals[i])
  {
    var seen: set<Option<T>> := {};
    flags := [];
    var i := 0;
    while i < |vals|
      invariant 0 <= i <= |vals| && |flags| == i
      invariant forall v :: v in seen <==> exists j :: 0 <= j < i && vals[j] == v
      invariant forall k :: 0 <= k < i ==> (flags[k] <==> vals[k].Some? && exists j :: 0 <= j < k && vals[j] == vals[k])
    {
      flags := flags + [vals[i].Some? && vals[i] in seen];
      seen := seen + {vals[i]};
      i := i + 1;
    }
  }

  /** The one-pass method and the definition agree. */
  lemma FlagDefinitionsAgree<T>(vals: seq<Option<T>>, i: nat)
    requires i < |vals|
    ensures DuplicateFlags(vals)[i] <==> vals[i].Some? && exists j :: 0 <= j < i && vals[j] == vals[i]
  {
    if vals[i] in vals[..i] {
      var j :| 0 <= j < i && vals[..i][j] == vals[i];
      assert vals[j] == vals[i];
    }
    if exists j :: 0 <= j < i && vals[j] == vals[i] {
      var j :| 0 <= j < i && vals[j] == vals[i];
      assert vals[..i][j] == vals[i];
    }
  }

  /** Every present value is left unflagged at exactly one position: its first. */
  lemma {:induction false} OneUnflaggedPerValue<T>(vals: seq<Option<T>>, v: T)
    requires Some(v) in vals
    ensures exists i :: 0 <= i < |vals| && vals[i] == Some(v) && !DuplicateFlags(vals)[i]
    ensures forall i, j :: 0 <= i < j < |vals| && vals[i] == Some(v) && vals[j] == Some(v) ==> DuplicateFlags(vals)[j]
  {
    var f := DuplicateFlags(vals);
    var first :| 0 <= first < |vals| && vals[first] == Some(v) && forall j :: 0 <= j < first ==> vals[j] != Some(v) by {
      FirstIndex(vals, Some(v));
    }
    FlagDefinitionsAgree(vals, first);
    forall i, j | 0 <= i < j < |vals| && vals[i] == Some(v) && vals[j] == Some(v) ensures f[j] {
      FlagDefinitionsAgree(vals, j);
    }
  }

  /** A value in a sequence has a first position. */
  lemma {:induction false} FirstIndex<T>(vals: seq<T>, x: T)
    requires x in vals
    ensures exists i :: 0 <= i < |vals| && vals[i] == x && forall j :: 0 <= j < i ==> vals[j] != x
  {
    if vals[0] != x {
      FirstIndex(vals[1..], x);
      var i :| 0 <= i < |vals[1..]| && vals[1..][i] == x && forall j :: 0 <= j < i ==> vals[1..][j] != x;
      assert vals[i + 1] == x;
      forall j | 0 <= j < i + 1 ensures vals[j] != x {
        if j > 0 {
          assert vals[j] == vals[1..][j - 1];
        }
      }
    }
  }

  /** `duplicated`: with a PID column, a record is flagged when it repeats an earlier
      PID or an earlier text; without one, only repeated texts count. */
  function DuplicatedRecords(pid: Option<PidColumn>, texts: seq<string>): (r: seq<bool>)
    requires pid.Some? ==> |pid.value.cells| == |texts|
    ensures |r| == |texts|
  {
    var textFlags := DuplicateFlags(seq(|texts|, i requires 0 <= i < |texts| => NormaliseText(texts[i])));
    match pid
    case None => textFlags
    case Some(col) =>
      var pidFlags := DuplicateFlags(PidValues(col));
      seq(|texts|, i requires 0 <= i < |texts| => pidFlags[i] || textFlags[i])
  }

  /** Record `i` is flagged exactly when an earlier record has the same present
      normalised PID (when there is a PID column) or the same present normalised text. */
  lemma DuplicatedRecordsMeaning(pid: Option<PidColumn>, texts: seq<string>, i: nat)
    requires pid.Some? ==> |pid.value.cells| == |texts|
    requires i < |texts|
    ensures var textDup := NormaliseText(texts[i]).Some? && exists j :: 0 <= j < i && NormaliseText(texts[j]) == NormaliseText(texts[i]);
      DuplicatedRecords(pid, texts)[i] <==>
        textDup || (pid.Some? && var ps := PidValues(pid.value);
                    ps[i].Some? && exists j :: 0 <= j < i && ps[j] == ps[i])
  {
    var normalised := seq(|texts|, k requires 0 <= k < |texts| => NormaliseText(texts[k]));
    FlagDefinitionsAgree(normalised, i);
    assert forall j :: 0 <= j < |texts| ==> normalised[j] == NormaliseText(texts[j]);
    if pid.Some? {
      FlagDefinitionsAgree(PidValues(pid.value), i);
    }
  }

  /** A record whose PID is missing (or strips to nothing) and whose text has no letter
      or digit is never flagged. */
  lemma BlankNeverFlagged(pid: Option<PidColumn>, texts: seq<string>, i: nat)
    requires pid.Some? ==> |pid.value.cells| == |texts|
    requires i < |texts|
    requires forall k :: 0 <= k < |texts[i]| ==> !IsAlnum(texts[i][k])
    requires pid.Some? ==> PidValues(pid.value)[i].None?
    ensures !DuplicatedRecords(pid, texts)[i]
  {
    DuplicatedRecordsMeaning(pid, texts, i);
  }
}

=== FILE: ep_utils.dfy ===
/** The output file name of a deduplication run (entry_points/ep_utils.py): an explicit
    name is checked for its extension, otherwise the name is derived from the first input
    file and the current time. The clock reading is a parameter. */
module EpUtils {
  import opened Wrappers
  import opened Text

  // ---------------------------------------------------------------------------------
  // Paths

  /** `os.path.basename`: the part after the last `/`. */
  function Basename(p: string): (r: string)
    ensures EndsWith(p, r) && '/' !in r
    ensures |r| < |p| ==> p[|p| - |r| - 1] == '/'
  {
    if p == [] || p[|p| - 1] == '/' then []
    else
      var init := p[..|p| - 1];
      var front := Basename(init);
      var r := front + [p[|p| - 1]];
      assert init[|init| - |front|..] == front;
      assert p[|p| - |r|..] == init[|init| - |front|..] + [p[|p| - 1]];
      assert |r| < |p| ==> p[|p| - |r| - 1] == init[|init| - |front| - 1];
      r
  }

  /** The index of the last `.` in `s`, if any. */
  function LastDot(s: string): (r: Option<nat>)
    ensures r.None? <==> '.' !in s
    ensures r.Some? ==> r.value < |s| && s[r.value] == '.' && '.' !in s[r.value + 1..]
  {
    if s == [] then None
    else if s[|s| - 1] == '.' then Some(|s| - 1)
    else
      var r := LastDot(s[..|s| - 1]);
      assert s == s[..|s| - 1] + [s[|s| - 1]];
      if r.Some? then
        assert s[r.value + 1..] == s[..|s| - 1][r.value + 1..] + [s[|s| - 1]];
        r
      else r
  }

  /** Only dots before index `d`. */
  predicate AllDots(s: string, d: nat)
    requires d <= |s|
  {
    forall k :: 0 <= k < d ==> s[k] == '.'
  }

  /** `os.path.splitext(name)[0]` for a name without `/`: everything before the last
      dot, unless that dot is preceded by dots only (a leading-dot name has no
      extension). */
  function Stem(name: string): (r: string)
    ensures StartsWith(name, r)
    ensures r == name || (name[|r|] == '.' && '.' !in name[|r| + 1..] && !AllDots(name, |r|))
    ensures r == name ==> '.' !in name || AllDots(name, LastDot(name).value)
  {
    match LastDot(name)
    case None => name
    case Some(d) => if AllDots(name, d) then name else name[..d]
  }

  lemma StemExamples()
    ensures Stem("records.ris") == "records"
    ensures Stem("a.tar.gz") == "a.tar"
    ensures Stem(".hidden") == ".hidden"
  {
    StemRecords();
    StemTarGz();
    StemHidden();
  }

  lemma StemRecords()
    ensures Stem("records.ris") == "records"
  {
    assert LastDot("records.ris") == Some(7);
    assert "records.ris"[0] != '.';
    assert "records.ris"[..7] == "records";
  }

  lemma StemTarGz()
    ensures Stem("a.tar.gz") == "a.tar"
  {
    assert LastDot("a.tar.gz") == Some(5);
    assert "a.tar.gz"[0] != '.';
    assert "a.tar.gz"[..5] == "a.tar";
  }

  lemma StemHidden()
    ensures Stem(".hidden") == ".hidden"
  {
    assert LastDot(".hidden") == Some(0);
  }

  // ---------------------------------------------------------------------------------
  // The time stamp

  /** A reading of the local clock. */
  datatype DateTime = DateTime(year: nat, month: nat, day: nat, hour: nat, minute: nat)

  predicate ValidDateTime(d: DateTime) {
    1 <= d.year <= 9999 && 1 <= d.month <= 12 && 1 <= d.day <= 31 && d.hour < 24 && d.minute < 60
  }

  function Pow10(w: nat): (r: nat)
    ensures r >= 1
  {
    if w == 0 then 1 else 10 * Pow10(w - 1)
  }

  /** `n` as exactly `w` decimal digits, zero-padded on the left. */
  function Digits(n: nat, w: nat): (r: string)
    ensures |r| == w
    ensures forall i :: 0 <= i < w ==> IsDigit(r[i])
  {
    if w == 0 then [] else Digits(n / 10, w - 1) + [('0' as int + n % 10) as char]
  }

  /** The number a string of decimal digits spells. */
  function DigitsValue(s: string): nat
    requires forall i :: 0 <= i < |s| ==> IsDigit(s[i])
  {
    if s == [] then 0
    else
      assert IsDigit(s[|s| - 1]);
      10 * DigitsValue(s[..|s| - 1]) + (s[|s| - 1] as int - '0' as int)
  }

  /** Zero-padding is lossless for a number that fits in the width. */
  lemma {:induction false} DigitsRoundTrip(n: nat, w: nat)
    requires n < Pow10(w)
    ensures DigitsValue(Digits(n, w)) == n
  {
    if w > 0 {
      var q, d := n / 10, n % 10;
      assert n == 10 * q + d;
      assert q < Pow10(w - 1) by {
        assert n < 10 * Pow10(w - 1);
      }
      DigitsRoundTrip(q, w - 1);
      var s := Digits(n, w);
      assert s == Digits(q, w - 1) + [('0' as int + d) as char];
      assert s[..w - 1] == Digits(q, w - 1);
      assert s[w - 1] as int - '0' as int == d;
      assert DigitsValue(s) == 10 * DigitsValue(s[..w - 1]) + (s[w - 1] as int - '0' as int);
    }
  }

  /** `strftime('%Y%m%dT%H%M')`. */
  function Timestamp(d: DateTime): (r: string)
    requires ValidDateTime(d)
    ensures |r| == 13 && r[8] == 'T'
    ensures forall i :: 0 <= i < 13 && i != 8 ==> IsDigit(r[i])
  {
    Digits(d.year, 4) + Digits(d.month, 2) + Digits(d.day, 2) + "T" + Digits(d.hour, 2) + Digits(d.minute, 2)
  }

  /** The clock reading can be read back from the stamp. */
  lemma TimestampRoundTrip(d: DateTime)
    requires ValidDateTime(d)
    ensures var r := Timestamp(d);
      && DigitsValue(r[0..4]) == d.year && DigitsValue(r[4..6]) == d.month
      && DigitsValue(r[6..8]) == d.day && DigitsValue(r[9..11]) == d.hour
      && DigitsValue(r[11..13]) == d.minute
  {
    var r := Timestamp(d);
    var head := Digits(d.year, 4) + Digits(d.month, 2) + Digits(d.day, 2) + "T" + Digits(d.hour, 2);
    assert r == head + Digits(d.minute, 2) && |head| == 11;
    assert r[0..4] == Digits(d.year, 4);
    assert r[4..6] == Digits(d.month, 2);
    assert r[6..8] == Digits(d.day, 2);
    assert r[9..11] == Digits(d.hour, 2);
    assert r[11..13] == Digits(d.minute, 2);
    DigitsRoundTrip(d.year, 4);
    DigitsRoundTrip(d.month, 2);
    DigitsRoundTrip(d.day, 2);
    DigitsRoundTrip(d.hour, 2);
    DigitsRoundTrip(d.minute, 2);
  }

  // ---------------------------------------------------------------------------------
  // The output path

  const Extension: string := ".csv"
  const ExtensionMessage: string := "Output File extensions other than .csv are not supported yet"

  /** The default name: the first input's file name without its extension, then
      `-deduplicated-`, the time stamp and `.csv`. */
  function DefaultOutputPath(input: string, now: DateTime): (r: string)
    requires ValidDateTime(now)
    ensures EndsWith(r, Extension)
    ensures StartsWith(r, Stem(Basename(input)) + "-deduplicated-")
  {
    var head := Stem(Basename(input)) + "-deduplicated-";
    var r := head + Timestamp(now) + Extension;
    assert r[..|head|] == head;
    assert r[|r| - 4..] == Extension;
    r
  }

  /** `get_output_path`: only the first input path is consulted (`IndexError` when
      there is none); an absent or empty explicit path falls back to the default name; an
      explicit path ending in `.csv` is kept, one with some other dot is refused, and a
      dot-free one gets `.csv` appended. */
  function GetOutputPath(inputPaths: seq<string>, outputPath: Option<string>, now: DateTime): (r: Result<string>)
    requires ValidDateTime(now)
    ensures inputPaths == [] <==> r == Err(IndexError)
    ensures r.Ok? ==> EndsWith(r.value, Extension)
    ensures inputPaths != [] && (outputPath.None? || outputPath.value == "") ==>
      r == Ok(DefaultOutputPath(inputPaths[0], now))
    ensures inputPaths != [] && outputPath.Some? && outputPath.value != "" ==>
      var o := outputPath.value;
      && (EndsWith(o, Extension) ==> r == Ok(o))
      && (!EndsWith(o, Extension) && '.' in o ==> r == Err(ValueError(ExtensionMessage)))
      && (!EndsWith(o, Extension) && '.' !in o ==> r == Ok(o + Extension))
  {
    if inputPaths == [] then Err(IndexError)
    else
      var input := inputPaths[0];
      if outputPath.Some? && outputPath.value != "" then
        var o := outputPath.value;
        if EndsWith(o, Extension) then Ok(o)
        else if '.' in o then Err(ValueError(ExtensionMessage))
        else
          assert (o + Extension)[|o + Extension| - 4..] == Extension;
          Ok(o + Extension)
      else Ok(DefaultOutputPath(input, now))
  }

  /** Input paths after the first make no difference. */
  lemma OnlyFirstInput(a: seq<string>, b: seq<string>, outputPath: Option<string>, now: DateTime)
    requires ValidDateTime(now)
    requires a != [] && b != [] && a[0] == b[0]
    ensures GetOutputPath(a, outputPath, now) == GetOutputPath(b, outputPath, now)
  {
  }

  /** A derived path, given back as the explicit output path, is kept as it is. */
  lemma OutputPathStable(inputPaths: seq<string>, outputPath: Option<string>, now: DateTime)
    requires ValidDateTime(now)
    requires GetOutputPath(inputPaths, outputPath, now).Ok?
    ensures var p := GetOutputPath(inputPaths, outputPath, now).value;
      GetOutputPath(inputPaths, Some(p), now) == Ok(p)
  {
    var p := GetOutputPath(inputPaths, outputPath, now).value;
    assert |p| >= 4;
  }

  /** The default name is a bare file name: it holds no `/`. */
  lemma DefaultIsFileName(input: string, now: DateTime)
    requires ValidDateTime(now)
    ensures '/' !in DefaultOutputPath(input, now)
  {
    var b := Basename(input);
    var s := Stem(b);
    assert forall i :: 0 <= i < |s| ==> s[i] == b[..|s|][i];
    assert '/' !in s;
    var t := Timestamp(now);
    assert forall i :: 0 <= i < |t| ==> t[i] != '/';
    assert '/' !in t;
    NoSlashJoin(s + "-deduplicated-", t + Extension);
  }

  lemma NoSlashJoin(a: string, b: string)
    requires '/' !in a && '/' !in b
    ensures '/' !in a + b
  {
    assert forall i :: 0 <= i < |a + b| ==> (a + b)[i] == if i < |a| then a[i] else b[i - |a|];
  }
}

=== FILE: filter_pipeline.dfy ===
/** Filters over scored record pairs and the pipeline that takes the union of their
    verdicts. A filter is a list of (feature, threshold) entries combined by its type:
    "standalone" (first entry only), "and" (every entry) or "or" (some entry). */
module FilterPipeline {
  import opened Wrappers
  import opened Sorting

  /** The filter's type: not yet set, or the name it was given. */
  datatype Kind = Unset | Named(name: string)

  const Standalone: string := "standalone"
  const AndKind: string := "and"
  const OrKind: string := "or"

  datatype Filtr = Filtr(filters: seq<(string, real)>, kind: Kind)

  /** A fresh filter: no entries, no type. */
  const NewFiltr: Filtr := Filtr([], Unset)

  /** `Filtr.add`: the entry is appended and the filter becomes standalone, whatever it
      was before; it never fails. */
  function Add(f: Filtr, feature: string, threshold: real): (r: Filtr)
    ensures r.filters == f.filters + [(feature, threshold)]
    ensures r.kind == Named(Standalone)
  {
    Filtr(f.filters + [(feature, threshold)], Named(Standalone))
  }

  /** `Filtr.add_multiple`: refused on a standalone filter and on one whose type is set
      to a different name; otherwise the type is set and the entries appended in order. */
  function AddMultiple(f: Filtr, entries: seq<(string, real)>, kind: string): (r: Result<Filtr>)
    ensures r.Err? <==> f.kind == Named(Standalone) || (f.kind != Unset && f.kind != Named(kind))
    ensures r.Err? ==> r.error.ValueError?
    ensures f.kind == Named(Standalone) ==>
      r == Err(ValueError("You cannot add multiple filters to a standalone filter"))
    ensures f.kind.Named? && f.kind.name != Standalone && f.kind.name != kind ==>
      r == Err(ValueError("You cannot add a '" + kind + "' filter to a '" + f.kind.name + "' filter"))
    ensures r.Ok? ==> r.value.filters == f.filters + entries && r.value.kind == Named(kind)
  {
    if f.kind == Named(Standalone) then
      Err(ValueError("You cannot add multiple filters to a standalone filter"))
    else if f.kind != Unset && f.kind != Named(kind) then
      Err(ValueError("You cannot add a '" + kind + "' filter to a '" + f.kind.name + "' filter"))
    else Ok(Filtr(f.filters + entries, Named(kind)))
  }

  /** Once `add` has been used, `add_multiple` always fails. */
  lemma AddThenAddMultiple(f: Filtr, feature: string, threshold: real, entries: seq<(string, real)>, kind: string)
    ensures AddMultiple(Add(f, feature, threshold), entries, kind).Err?
  {
  }

  /** Repeated `add_multiple` calls with one type accumulate all their entries in call
      order; a later call with another type fails. */
  lemma AddMultipleAccumulates(e1: seq<(string, real)>, e2: seq<(string, real)>, kind: string, other: string)
    requires kind != Standalone && other != kind
    ensures AddMultiple(NewFiltr, e1, kind).Ok?
    ensures var f := AddMultiple(NewFiltr, e1, kind).value;
      AddMultiple(f, e2, kind) == Ok(Filtr(e1 + e2, Named(kind))) &&
      AddMultiple(f, e2, other) == Err(ValueError("You cannot add a '" + other + "' filter to a '" + kind + "' filter"))
  {
    assert [] + e1 == e1;
  }

  /** The scored pairs: one row of feature scores per candidate pair. */
  datatype Scores = Scores(columns: set<string>, rows: seq<map<string, real>>)

  predicate WellFormed(t: Scores) {
    forall i :: 0 <= i < |t.rows| ==> t.rows[i].Keys == t.columns
  }

  predicate Known(f: Filtr) {
    f.kind == Named(Standalone) || f.kind == Named(AndKind) || f.kind == Named(OrKind)
  }

  /** One entry's test on one pair: `pairs_df[feature] >= threshold`. */
  predicate Passes(row: map<string, real>, e: (string, real)) {
    e.0 in row && row[e.0] >= e.1
  }

  /** What a filter of a known type decides about one pair. */
  predicate Accepts(f: Filtr, row: map<string, real>) {
    if f.kind == Named(Standalone) then f.filters != [] && Passes(row, f.filters[0])
    else if f.kind == Named(AndKind) then forall k :: 0 <= k < |f.filters| ==> Passes(row, f.filters[k])
    else if f.kind == Named(OrKind) then exists k :: 0 <= k < |f.filters| && Passes(row, f.filters[k])
    else false
  }

  /** An empty "and" filter accepts every pair and an empty "or" filter accepts none. */
  lemma EmptyFilters(row: map<string, real>)
    ensures Accepts(Filtr([], Named(AndKind)), row)
    ensures !Accepts(Filtr([], Named(OrKind)), row)
  {
  }

  /** The first entry whose feature is not a column. */
  function FirstAbsent(entries: seq<(string, real)>, columns: set<string>): (r: Option<string>)
    ensures r.None? <==> forall k :: 0 <= k < |entries| ==> entries[k].0 in columns
    ensures r.Some? ==> r.value !in columns
  {
    if entries == [] then None
    else if entries[0].0 !in columns then Some(entries[0].0)
    else FirstAbsent(entries[1..], columns)
  }

  function Indicator(b: bool): nat {
    if b then 1 else 0
  }

  /** `temp *= (pairs_df[feature] >= threshold)` over all entries, starting from one. */
  function AndValue(entries: seq<(string, real)>, row: map<string, real>): (r: nat)
    ensures r == Indicator(forall k :: 0 <= k < |entries| ==> Passes(row, entries[k]))
  {
    if entries == [] then 1
    else
      var rest := AndValue(entries[1..], row);
      assert (forall k :: 0 <= k < |entries| ==> Passes(row, entries[k])) <==>
        Passes(row, entries[0]) && forall k :: 0 <= k < |entries[1..]| ==> Passes(row, entries[1..][k]) by {
        if Passes(row, entries[0]) && forall k :: 0 <= k < |entries[1..]| ==> Passes(row, entries[1..][k]) {
          forall k | 0 <= k < |entries| ensures Passes(row, entries[k]) {
            if k > 0 {
              assert entries[k] == entries[1..][k - 1];
            }
          }
        }
      }
      Indicator(Passes(row, entries[0])) * rest
  }

  /** `temp += (pairs_df[feature] >= threshold)` over all entries, starting from zero:
      the number of entries that pass. */
  function OrValue(entries: seq<(string, real)>, row: map<string, real>): (r: nat)
    ensures r <= |entries|
    ensures r > 0 <==> exists k :: 0 <= k < |entries| && Passes(row, entries[k])
  {
    if entries == [] then 0
    else
      var rest := OrValue(entries[1..], row);
      assert (exists k :: 0 <= k < |entries| && Passes(row, entries[k])) <==>
        Passes(row, entries[0]) || exists k :: 0 <= k < |entries[1..]| && Passes(row, entries[1..][k]) by {
        if exists k :: 0 <= k < |entries| && Passes(row, entries[k]) {
          var k :| 0 <= k < |entries| && Passes(row, entries[k]);
          if k > 0 {
            assert entries[1..][k - 1] == entries[k];
          }
        }
        if exists k :: 0 <= k < |entries[1..]| && Passes(row, entries[1..][k]) {
          var k :| 0 <= k < |entries[1..]| && Passes(row, entries[1..][k]);
          assert entries[k + 1] == entries[1..][k];
        }
      }
      Indicator(Passes(row, entries[0])) + rest
  }

  /** The numeric verdict of a known filter on one pair. */
  function StageValue(f: Filtr, row: map<string, real>): nat {
    if f.kind == Named(Standalone) then (if f.filters == [] then 0 else Indicator(Passes(row, f.filters[0])))
    else if f.kind == Named(AndKind) then AndValue(f.filters, row)
    else OrValue(f.filters, row)
  }

  lemma StageValueMeaning(f: Filtr, row: map<string, real>)
    requires Known(f)
    ensures StageValue(f, row) > 0 <==> Accepts(f, row)
  {
  }

  /** The columns a known filter reads are present (a standalone filter reads only its
      first entry and needs one). */
  predicate Evaluable(f: Filtr, columns: set<string>) {
    if f.kind == Named(Standalone) then f.filters != [] && f.filters[0].0 in columns
    else FirstAbsent(f.filters, columns).None?
  }

  /** One pipeline stage's `temp` column. A stage whose type is none of the three keeps
      the previous stage's `temp`, and fails when there is none. */
  function StageColumn(t: Scores, f: Filtr, prev: Option<seq<nat>>): (r: Result<seq<nat>>)
    requires WellFormed(t)
    requires prev.Some? ==> |prev.value| == |t.rows|
    ensures Known(f) ==> (r.Ok? <==> Evaluable(f, t.columns))
    ensures !Known(f) ==> (r.Ok? <==> prev.Some?) && (r.Ok? ==> r.value == prev.value)
    ensures r.Err? ==> r.error.IndexError? || r.error.KeyError? || r.error.UnboundLocalError?
    ensures r.Err? && r.error.KeyError? ==> r.error.key !in t.columns
    ensures r.Ok? ==> |r.value| == |t.rows|
    ensures r.Ok? && Known(f) ==> forall i :: 0 <= i < |t.rows| ==> (r.value[i] > 0 <==> Accepts(f, t.rows[i]))
  {
    var n := |t.rows|;
    if Known(f) then
      if f.kind == Named(Standalone) && f.filters == [] then Err(IndexError)
      else if f.kind == Named(Standalone) && f.filters[0].0 !in t.columns then Err(KeyError(f.filters[0].0))
      else if f.kind != Named(Standalone) && FirstAbsent(f.filters, t.columns).Some? then
        Err(KeyError(FirstAbsent(f.filters, t.columns).value))
      else
        assert forall i :: 0 <= i < n ==> (StageValue(f, t.rows[i]) > 0 <==> Accepts(f, t.rows[i])) by {
          forall i | 0 <= i < n ensures StageValue(f, t.rows[i]) > 0 <==> Accepts(f, t.rows[i]) {
            StageValueMeaning(f, t.rows[i]);
          }
        }
        Ok(seq(n, i requires 0 <= i < n => StageValue(f, t.rows[i])))
    else if prev.None? then Err(UnboundLocalError("temp"))
    else Ok(prev.value)
  }

  function AddColumns(a: seq<nat>, b: seq<nat>): (r: seq<nat>)
    requires |a| == |b|
    ensures |r| == |a| && forall i :: 0 <= i < |a| ==> r[i] == a[i] + b[i]
  {
    seq(|a|, i requires 0 <= i < |a| => a[i] + b[i])
  }

  /** `results += temp` over the remaining stages. */
  function Accumulate(t: Scores, stages: seq<(string, Filtr)>, results: seq<nat>, prev: Option<seq<nat>>): (r: Result<seq<nat>>)
    requires WellFormed(t) && |results| == |t.rows|
    requires prev.Some? ==> |prev.value| == |t.rows|
    ensures r.Ok? ==> |r.value| == |t.rows|
  {
    if stages == [] then Ok(results)
    else
      var temp :- StageColumn(t, stages[0].1, prev);
      Accumulate(t, stages[1..], AddColumns(results, temp), Some(temp))
  }

  /** Some stage of a known type accepts the pair. */
  predicate AcceptedBy(stages: seq<(string, Filtr)>, row: map<string, real>) {
    exists s :: 0 <= s < |stages| && Known(stages[s].1) && Accepts(stages[s].1, row)
  }

  lemma AcceptedByAppend(done: seq<(string, Filtr)>, st: (string, Filtr), row: map<string, real>)
    ensures AcceptedBy(done + [st], row) <==> AcceptedBy(done, row) || (Known(st.1) && Accepts(st.1, row))
  {
    var all := done + [st];
    if AcceptedBy(done, row) {
      var s :| 0 <= s < |done| && Known(done[s].1) && Accepts(done[s].1, row);
      assert all[s] == done[s];
    }
    if Known(st.1) && Accepts(st.1, row) {
      assert all[|done|] == st;
    }
    if AcceptedBy(all, row) {
      var s :| 0 <= s < |all| && Known(all[s].1) && Accepts(all[s].1, row);
      if s < |done| {
        assert all[s] == done[s];
      }
    }
  }

  /** A pair's running total is positive exactly when some stage processed so far
      accepts it; `prev` only carries verdicts of stages already processed. */
  lemma {:induction false} AccumulateMeaning(t: Scores, done: seq<(string, Filtr)>, stages: seq<(string, Filtr)>,
                                             results: seq<nat>, prev: Option<seq<nat>>)
    requires WellFormed(t) && |results| == |t.rows|
    requires prev.Some? ==> |prev.value| == |t.rows|
    requires forall i :: 0 <= i < |t.rows| ==> (results[i] > 0 <==> AcceptedBy(done, t.rows[i]))
    requires prev.Some? ==> forall i :: 0 <= i < |t.rows| && prev.value[i] > 0 ==> AcceptedBy(done, t.rows[i])
    ensures Accumulate(t, stages, results, prev).Ok? ==>
      forall i :: 0 <= i < |t.rows| ==> (Accumulate(t, stages, results, prev).value[i] > 0 <==> AcceptedBy(done + stages, t.rows[i]))
    decreases |stages|
  {
    if stages == [] {
      assert done + stages == done;
    } else {
      var temp := StageColumn(t, stages[0].1, prev);
      if temp.Ok? {
        var results' := AddColumns(results, temp.value);
        var done' := done + [stages[0]];
        forall i | 0 <= i < |t.rows|
          ensures (results'[i] > 0 <==> AcceptedBy(done', t.rows[i]))
          ensures temp.value[i] > 0 ==> AcceptedBy(done', t.rows[i])
        {
          AcceptedByAppend(done, stages[0], t.rows[i]);
        }
        AccumulateMeaning(t, done', stages[1..], results', Some(temp.value));
        assert done' + stages[1..] == done + stages;
      }
    }
  }

  /** When the running verdicts succeed: the first stage must have a known type unless a
      `temp` exists already, and every known stage must be able to read its columns. */
  lemma {:induction false} AccumulateOk(t: Scores, stages: seq<(string, Filtr)>, results: seq<nat>, prev: Option<seq<nat>>)
    requires WellFormed(t) && |results| == |t.rows|
    requires prev.Some? ==> |prev.value| == |t.rows|
    ensures Accumulate(t, stages, results, prev).Ok? <==>
      (prev.None? && stages != [] ==> Known(stages[0].1)) &&
      forall s :: 0 <= s < |stages| && Known(stages[s].1) ==> Evaluable(stages[s].1, t.columns)
    ensures Accumulate(t, stages, results, prev).Err? ==>
      var e := Accumulate(t, stages, results, prev).error; e.IndexError? || e.KeyError? || e.UnboundLocalError?
    decreases |stages|
  {
    if stages != [] {
      var temp := StageColumn(t, stages[0].1, prev);
      if temp.Ok? {
        AccumulateOk(t, stages[1..], AddColumns(results, temp.value), Some(temp.value));
        assert forall s :: 1 <= s < |stages| ==> stages[s] == stages[1..][s - 1];
      }
    }
  }

  /** The positions whose total is not zero: `np.where(results)[0]`. */
  function NonZero(results: seq<nat>, from: nat): (r: seq<nat>)
    requires from <= |results|
    ensures StrictlySorted(r)
    ensures forall i: nat :: i in r <==> from <= i < |results| && results[i] != 0
    decreases |results| - from
  {
    if from == |results| then []
    else
      var rest := NonZero(results, from + 1);
      assert forall k :: 0 <= k < |rest| ==> rest[k] > from by {
        forall k | 0 <= k < |rest| ensures rest[k] > from {
          assert rest[k] in rest;
        }
      }
      if results[from] != 0 then [from] + rest else rest
  }

  function Zeros(n: nat): (r: seq<nat>)
    ensures |r| == n && forall i :: 0 <= i < n ==> r[i] == 0
  {
    seq(n, i => 0)
  }

  datatype Pipeline = Pipeline(stages: seq<(string, Filtr)>)

  const EmptyPipeline: Pipeline := Pipeline([])

  /** `FilterPipeline.add`: the named filter is appended, so stages run in insertion order. */
  function PipelineAdd(p: Pipeline, name: string, f: Filtr): (r: Pipeline)
    ensures |r.stages| == |p.stages| + 1 && r.stages[|p.stages|] == (name, f)
    ensures forall s :: 0 <= s < |p.stages| ==> r.stages[s] == p.stages[s]
  {
    Pipeline(p.stages + [(name, f)])
  }

  /** The positions of the pairs that survive `apply_pipe`, in input order. */
  function Survivors(p: Pipeline, t: Scores): (r: Result<seq<nat>>)
    requires WellFormed(t)
    ensures r.Err? && p.stages == [] ==> r.error.ValueError?
    ensures r.Ok? ==> StrictlySorted(r.value)
  {
    if p.stages == [] then
      Err(ValueError("You need to add filters to the pipeline using 'add' method before using apply_pipe"))
    else
      var results :- Accumulate(t, p.stages, Zeros(|t.rows|), None);
      Ok(NonZero(results, 0))
  }

  /** `apply_pipe`: the surviving pairs themselves. */
  function ApplyPipe(p: Pipeline, t: Scores): (r: Result<Scores>)
    requires WellFormed(t)
    ensures r.Ok? <==> Survivors(p, t).Ok?
    ensures r.Ok? ==> var pos := Survivors(p, t).value;
      r.value.columns == t.columns && |r.value.rows| == |pos| &&
      forall k :: 0 <= k < |pos| ==> pos[k] < |t.rows| && r.value.rows[k] == t.rows[pos[k]]
  {
    var pos :- Survivors(p, t);
    assert forall k :: 0 <= k < |pos| ==> pos[k] < |t.rows| by {
      forall k | 0 <= k < |pos| ensures pos[k] < |t.rows| {
        assert pos[k] in pos;
      }
    }
    Ok(Scores(t.columns, seq(|pos|, k requires 0 <= k < |pos| => t.rows[pos[k]])))
  }

  /** `apply_pipe` fails exactly on an empty pipeline (ValueError), on a first stage of
      no known type (nothing to reuse), and on a known stage that cannot read its
      columns; otherwise a pair survives iff some stage of a known type accepts it. */
  lemma SurvivorsMeaning(p: Pipeline, t: Scores)
    requires WellFormed(t)
    ensures Survivors(p, t).Ok? <==>
      p.stages != [] && Known(p.stages[0].1) &&
      forall s :: 0 <= s < |p.stages| && Known(p.stages[s].1) ==> Evaluable(p.stages[s].1, t.columns)
    ensures Survivors(p, t).Ok? ==>
      forall i: nat :: i in Survivors(p, t).value <==> i < |t.rows| && AcceptedBy(p.stages, t.rows[i])
  {
    if p.stages != [] {
      var z := Zeros(|t.rows|);
      AccumulateOk(t, p.stages, z, None);
      AccumulateMeaning(t, [], p.stages, z, None);
      assert [] + p.stages == p.stages;
    }
  }

  /** Adding a filter of a known type to a working pipeline lets through exactly the
      pairs that got through before plus the pairs the new filter accepts. */
  lemma AddWidensSurvivors(p: Pipeline, t: Scores, name: string, f: Filtr, i: nat)
    requires WellFormed(t) && Known(f)
    requires Survivors(p, t).Ok? && Survivors(PipelineAdd(p, name, f), t).Ok?
    ensures i in Survivors(PipelineAdd(p, name, f), t).value <==>
      i in Survivors(p, t).value || (i < |t.rows| && Accepts(f, t.rows[i]))
  {
    SurvivorsMeaning(p, t);
    SurvivorsMeaning(PipelineAdd(p, name, f), t);
    assert PipelineAdd(p, name, f).stages == p.stages + [(name, f)];
    if i < |t.rows| {
      AcceptedByAppend(p.stages, (name, f), t.rows[i]);
    }
  }
}

=== FILE: io_utils.dfy ===
/** Preparing an imported table for deduplication: which column holds which field,
    filling in missing values, the secondary-title fallback for the journal, and
    placeholder author names. */
module IoUtils {
  import opened Wrappers
  import opened Text
  import opened Tables
  import opened Config

  // ---------------------------------------------------------------------------------
  // Column specification

  /** The field a column name stands for: the deduplication definitions are consulted
      first, the general definitions only when those have no answer. Both lookups are
      parameters; the general one belongs to the host application. */
  function Resolve(dedupType: string -> Option<string>, asrType: string -> Option<string>, name: string): Option<string> {
    if dedupType(name).Some? then dedupType(name) else asrType(name)
  }

  /** `_get_column_spec`: every column is resolved in order, and a later column of the
      same field replaces an earlier one. */
  function GetColumnSpec(names: seq<string>, dedupType: string -> Option<string>, asrType: string -> Option<string>): (r: map<string, string>)
    ensures forall k :: k in r <==> exists j :: 0 <= j < |names| && Resolve(dedupType, asrType, names[j]) == Some(k)
    decreases |names|
  {
    if names == [] then map[]
    else
      var front := names[..|names| - 1];
      var last := names[|names| - 1];
      var m := GetColumnSpec(front, dedupType, asrType);
      assert forall j :: 0 <= j < |front| ==> front[j] == names[j];
      var t := Resolve(dedupType, asrType, last);
      if t.Some? then m[t.value := last] else m
  }

  /** The position of the last column that resolves to field `k`, or -1. */
  function LastResolving(names: seq<string>, dedupType: string -> Option<string>, asrType: string -> Option<string>, k: string): (r: int)
    ensures -1 <= r < |names|
    ensures r >= 0 ==> Resolve(dedupType, asrType, names[r]) == Some(k)
    ensures forall j :: r < j < |names| ==> Resolve(dedupType, asrType, names[j]) != Some(k)
    decreases |names|
  {
    if names == [] then -1
    else if Resolve(dedupType, asrType, names[|names| - 1]) == Some(k) then |names| - 1
    else
      var front := names[..|names| - 1];
      assert forall j :: 0 <= j < |front| ==> front[j] == names[j];
      LastResolving(front, dedupType, asrType, k)
  }

  /** Each field maps to the last column that resolves to it. */
  lemma {:induction false} ColumnSpecLastWins(names: seq<string>, dedupType: string -> Option<string>, asrType: string -> Option<string>, k: string)
    requires k in GetColumnSpec(names, dedupType, asrType)
    ensures LastResolving(names, dedupType, asrType, k) >= 0
    ensures GetColumnSpec(names, dedupType, asrType)[k] == names[LastResolving(names, dedupType, asrType, k)]
    decreases |names|
  {
    var front := names[..|names| - 1];
    assert forall j :: 0 <= j < |front| ==> front[j] == names[j];
    if Resolve(dedupType, asrType, names[|names| - 1]) != Some(k) {
      ColumnSpecLastWins(front, dedupType, asrType, k);
    }
  }

  /** A column the deduplication definitions resolve is never checked against the
      general definitions: changing the general lookup on such names changes nothing. */
  lemma {:induction false} ColumnSpecDedupFirst(names: seq<string>, dedupType: string -> Option<string>,
                                                asrType: string -> Option<string>, other: string -> Option<string>)
    requires forall j :: 0 <= j < |names| && dedupType(names[j]).None? ==> asrType(names[j]) == other(names[j])
    ensures GetColumnSpec(names, dedupType, asrType) == GetColumnSpec(names, dedupType, other)
    decreases |names|
  {
    if names != [] {
      var front := names[..|names| - 1];
      assert forall j :: 0 <= j < |front| ==> front[j] == names[j];
      ColumnSpecDedupFirst(front, dedupType, asrType, other);
    }
  }

  // ---------------------------------------------------------------------------------
  // Filling in missing values

  /** The canonical column names, in the configuration's order. */
  const ColsForDedupe: seq<string> :=
    ["authors", "title", "abstract", "year", "journal", "doi", "volume", "pages", "number", "isbn"]

  lemma ColsForDedupeAreFieldNames()
    ensures |ColsForDedupe| == |CanonicalFields|
    ensures forall k :: 0 <= k < |ColsForDedupe| ==> ColsForDedupe[k] == FieldName(CanonicalFields[k])
  {
  }

  lemma ColsForDedupeDistinct()
    ensures Distinct(ColsForDedupe)
  {
  }

  /** A missing value becomes "", anything else its `astype(str)` text. */
  function FillField(c: Cell): (r: Cell)
    ensures r.Str?
    ensures c.Null? ==> r == Str("")
    ensures c.Str? ==> r == c
  {
    Str(if c.Null? then "" else StrOf(c))
  }

  /** Every row's cell in column `c` filled in. */
  function FillColumn(t: Table, c: string): (r: Table)
    requires WellFormed(t) && c in t.columns
    ensures WellFormed(r) && r.columns == t.columns && |r.rows| == |t.rows|
    ensures forall i :: 0 <= i < |t.rows| ==> r.rows[i] == t.rows[i][c := FillField(t.rows[i][c])]
  {
    Table(t.columns, seq(|t.rows|, i requires 0 <= i < |t.rows| => t.rows[i][c := FillField(t.rows[i][c])]))
  }

  /** `df.insert(…, c, "")`: a new column holding "" in every row. */
  function AddEmptyColumn(t: Table, c: string): (r: Table)
    requires WellFormed(t)
    ensures WellFormed(r) && r.columns == t.columns + {c} && |r.rows| == |t.rows|
    ensures forall i :: 0 <= i < |t.rows| ==> r.rows[i] == t.rows[i][c := Str("")]
  {
    Table(t.columns + {c}, seq(|t.rows|, i requires 0 <= i < |t.rows| => t.rows[i][c := Str("")]))
  }

  /** The position `df.insert` puts a new column at; a table with fewer columns has no
      such position. */
  const InsertPosition: nat := 5

  /** The loop body for one canonical field: a field with no column gets an empty column
      under its own name, its column taken from the caller's specification (`KeyError`
      when that has none, `ValueError` when the name is taken, `IndexError` when the
      table has fewer than five columns); then, except for the year, the field's column
      is filled in if the table has it. */
  function FillStep(t: Table, spec: map<string, string>, userSpec: map<string, string>, col: string): (r: Result<(Table, map<string, string>)>)
    requires WellFormed(t)
    ensures r.Ok? <==> col in spec || (col in userSpec && col !in t.columns && InsertPosition <= |t.columns|)
    ensures col !in spec && col !in userSpec ==> r == Err(KeyError(col))
    ensures col !in spec && col in userSpec && col in t.columns ==> r.Err? && r.error.ValueError?
    ensures col !in spec && col in userSpec && col !in t.columns && |t.columns| < InsertPosition ==> r == Err(IndexError)
    ensures r.Ok? ==> WellFormed(r.value.0) && |r.value.0.rows| == |t.rows|
  {
    var added: Result<(Table, map<string, string>)> :=
      if col in spec then Ok((t, spec))
      else if col !in userSpec then Err(KeyError(col))
      else if col in t.columns then Err(ValueError("cannot insert " + col + ", already exists"))
      else if |t.columns| < InsertPosition then Err(IndexError)
      else Ok((AddEmptyColumn(t, col), spec[col := userSpec[col]]));
    if added.Err? then added
    else
      var (t1, spec1) := added.value;
      if col != "year" && spec1[col] in t1.columns then Ok((FillColumn(t1, spec1[col]), spec1))
      else Ok((t1, spec1))
  }

  function FillFields(t: Table, spec: map<string, string>, userSpec: map<string, string>, fields: seq<string>): (r: Result<(Table, map<string, string>)>)
    requires WellFormed(t)
    ensures r.Ok? ==> WellFormed(r.value.0) && |r.value.0.rows| == |t.rows|
    decreases |fields|
  {
    if fields == [] then Ok((t, spec))
    else
      var (t1, spec1) :- FillStep(t, spec, userSpec, fields[0]);
      FillFields(t1, spec1, userSpec, fields[1..])
  }

  /** A cell before the loop: its value, or "" for a column the loop inserts. */
  function Before(t: Table, i: nat, c: string): Cell
    requires WellFormed(t) && i < |t.rows|
  {
    if c in t.columns then t.rows[i][c] else Str("")
  }

  /** The columns the loop fills in: those of the non-year fields it processed, when the
      table has them. */
  predicate Filled(spec: map<string, string>, columns: set<string>, fields: seq<string>, c: string) {
    c in columns && exists k :: 0 <= k < |fields| && fields[k] != "year" && fields[k] in spec && spec[fields[k]] == c
  }

  predicate Distinct(fields: seq<string>) {
    forall a, b :: 0 <= a < b < |fields| ==> fields[a] != fields[b]
  }

  /** The number of `fields` the specification lacks: the columns the loop inserts for
      them. */
  function Unspecified(spec: map<string, string>, fields: seq<string>): nat {
    if fields == [] then 0 else (if fields[0] in spec then 0 else 1) + Unspecified(spec, fields[1..])
  }

  /** Field `k` can be processed: it has a column, or the caller names one whose name is
      free and the table, with the columns inserted before, has the insert position. */
  predicate FieldFits(t: Table, spec: map<string, string>, userSpec: map<string, string>, fields: seq<string>, k: nat)
    requires k < |fields|
  {
    fields[k] in spec ||
    (fields[k] in userSpec && fields[k] !in t.columns && InsertPosition <= |t.columns| + Unspecified(spec, fields[..k]))
  }

  /** What the loop over distinct fields does: it fails exactly when a field has neither
      a column nor one in the caller's specification, or its name is taken, or the
      table is too narrow to insert it; it adds the caller's column for every field that
      had none, inserts those columns empty, and leaves every cell as it was, filled in
      when its column is one of the filled ones. */
  lemma {:induction false} FillFieldsMeaning(t: Table, spec: map<string, string>, userSpec: map<string, string>, fields: seq<string>)
    requires WellFormed(t) && Distinct(fields)
    ensures FillFields(t, spec, userSpec, fields).Ok? <==>
      forall k :: 0 <= k < |fields| ==> FieldFits(t, spec, userSpec, fields, k)
    ensures FillFields(t, spec, userSpec, fields).Ok? ==>
      var (t', spec') := FillFields(t, spec, userSpec, fields).value;
      && (forall n :: n in spec' <==> n in spec || n in fields)
      && (forall n :: n in spec ==> spec'[n] == spec[n])
      && (forall n :: n in fields && n !in spec ==> n in userSpec && spec'[n] == userSpec[n])
      && (forall c :: c in t'.columns <==> c in t.columns || (c in fields && c !in spec))
      && forall i, c :: 0 <= i < |t.rows| && c in t'.columns ==>
           t'.rows[i][c] == (if Filled(spec', t'.columns, fields, c) then FillField(Before(t, i, c)) else Before(t, i, c))
  {
    FillFieldsOk(t, spec, userSpec, fields);
    if FillFields(t, spec, userSpec, fields).Ok? {
      FillFieldsDomain(t, spec, userSpec, fields);
      FillFieldsSpec(t, spec, userSpec, fields);
      FillFieldsColumns(t, spec, userSpec, fields);
      FillFieldsCells(t, spec, userSpec, fields);
    }
  }

  /** The loop fails exactly when some field cannot be processed. */
  lemma {:induction false} FillFieldsOk(t: Table, spec: map<string, string>, userSpec: map<string, string>, fields: seq<string>)
    requires WellFormed(t) && Distinct(fields)
    ensures FillFields(t, spec, userSpec, fields).Ok? <==>
      forall k :: 0 <= k < |fields| ==> FieldFits(t, spec, userSpec, fields, k)
    decreases |fields|
  {
    if fields != [] {
      var col := fields[0];
      var rest := fields[1..];
      DistinctTail(fields);
      assert fields[..0] == [];
      assert FillStep(t, spec, userSpec, col).Ok? <==> FieldFits(t, spec, userSpec, fields, 0);
      if FillStep(t, spec, userSpec, col).Ok? {
        var (t1, spec1) := FillStep(t, spec, userSpec, col).value;
        assert FillFields(t, spec, userSpec, fields) == FillFields(t1, spec1, userSpec, rest);
        FillStepMeaning(t, spec, userSpec, col);
        FillFieldsOk(t1, spec1, userSpec, rest);
        forall k | 0 <= k < |rest|
          ensures FieldFits(t1, spec1, userSpec, rest, k) <==> FieldFits(t, spec, userSpec, fields, k + 1)
        {
          FieldFitsStep(t, t1, spec, spec1, userSpec, fields, k);
        }
        if !forall k :: 0 <= k < |fields| ==> FieldFits(t, spec, userSpec, fields, k) {
          var k :| 0 <= k < |fields| && !FieldFits(t, spec, userSpec, fields, k);
          assert !FieldFits(t1, spec1, userSpec, rest, k - 1);
        }
      }
    }
  }

  /** After the first field, the remaining fields fit exactly when they fitted in the
      whole loop. */
  lemma FieldFitsStep(t: Table, t1: Table, spec: map<string, string>, spec1: map<string, string>,
                      userSpec: map<string, string>, fields: seq<string>, k: nat)
    requires WellFormed(t) && fields != [] && Distinct(fields) && k < |fields| - 1
    requires fields[0] in spec ==> spec1 == spec && t1.columns == t.columns
    requires fields[0] !in spec ==> fields[0] in userSpec && spec1 == spec[fields[0] := userSpec[fields[0]]]
    requires fields[0] !in spec ==> t1.columns == t.columns + {fields[0]} && fields[0] !in t.columns
    ensures FieldFits(t1, spec1, userSpec, fields[1..], k) <==> FieldFits(t, spec, userSpec, fields, k + 1)
  {
    var col, rest := fields[0], fields[1..];
    DistinctTail(fields);
    assert rest[k] == fields[k + 1] && rest[k] != col;
    assert fields[..k + 1] == [col] + rest[..k];
    assert ([col] + rest[..k])[1..] == rest[..k];
    assert Unspecified(spec, fields[..k + 1]) == (if col in spec then 0 else 1) + Unspecified(spec, rest[..k]);
    if col !in spec {
      assert col !in rest[..k];
      UnspecifiedUpdate(spec, col, userSpec, rest[..k]);
      assert |t1.columns| == |t.columns| + 1;
    }
  }

  /** Naming a column for a field outside `fields` does not change their count. */
  lemma {:induction false} UnspecifiedUpdate(spec: map<string, string>, col: string, userSpec: map<string, string>, fields: seq<string>)
    requires col !in fields && col in userSpec
    ensures Unspecified(spec[col := userSpec[col]], fields) == Unspecified(spec, fields)
  {
    if fields != [] {
      UnspecifiedUpdate(spec, col, userSpec, fields[1..]);
    }
  }

  lemma DistinctTail(fields: seq<string>)
    requires fields != [] && Distinct(fields)
    ensures Distinct(fields[1..]) && fields[0] !in fields[1..]
    ensures forall k :: 0 <= k < |fields| - 1 ==> fields[1..][k] == fields[k + 1]
  {
    forall k | 0 <= k < |fields| - 1 ensures fields[1..][k] != fields[0] {
      assert fields[1..][k] == fields[k + 1];
    }
  }

  /** The loop keeps the specification's columns and takes the caller's column for
      every field that had none. */
  lemma {:induction false} FillFieldsSpec(t: Table, spec: map<string, string>, userSpec: map<string, string>, fields: seq<string>)
    requires WellFormed(t) && Distinct(fields) && FillFields(t, spec, userSpec, fields).Ok?
    ensures var spec' := FillFields(t, spec, userSpec, fields).value.1;
      && (forall n :: n in spec ==> n in spec' && spec'[n] == spec[n])
      && (forall n :: n in fields && n !in spec ==> n in spec' && n in userSpec && spec'[n] == userSpec[n])
    decreases |fields|
  {
    if fields != [] {
      var col := fields[0];
      var rest := fields[1..];
      DistinctTail(fields);
      var (t1, spec1) := FillStep(t, spec, userSpec, col).value;
      FillStepMeaning(t, spec, userSpec, col);
      FillFieldsSpec(t1, spec1, userSpec, rest);
      FillFieldsDomain(t1, spec1, userSpec, rest);
      var spec' := FillFields(t, spec, userSpec, fields).value.1;
      assert spec' == FillFields(t1, spec1, userSpec, rest).value.1;
      forall n | n in fields && n !in spec ensures n in spec' && n in userSpec && spec'[n] == userSpec[n] {
        if n != col {
          assert n in rest && n !in spec1;
        }
      }
    }
  }

  /** The loop adds exactly the columns of the fields that had none. */
  lemma {:induction false} FillFieldsColumns(t: Table, spec: map<string, string>, userSpec: map<string, string>, fields: seq<string>)
    requires WellFormed(t) && Distinct(fields) && FillFields(t, spec, userSpec, fields).Ok?
    ensures var t' := FillFields(t, spec, userSpec, fields).value.0;
      forall c :: c in t'.columns <==> c in t.columns || (c in fields && c !in spec)
    decreases |fields|
  {
    if fields != [] {
      var col := fields[0];
      var rest := fields[1..];
      DistinctTail(fields);
      var (t1, spec1) := FillStep(t, spec, userSpec, col).value;
      FillStepMeaning(t, spec, userSpec, col);
      FillFieldsColumns(t1, spec1, userSpec, rest);
      assert forall c :: c in fields <==> c == col || c in rest;
    }
  }

  /** Every cell is left as it was, filled in when its column is one of the filled ones;
      an inserted column starts out as "". */
  lemma {:induction false} FillFieldsCells(t: Table, spec: map<string, string>, userSpec: map<string, string>, fields: seq<string>)
    requires WellFormed(t) && Distinct(fields) && FillFields(t, spec, userSpec, fields).Ok?
    ensures var (t', spec') := FillFields(t, spec, userSpec, fields).value;
      forall i, c :: 0 <= i < |t.rows| && c in t'.columns ==>
        t'.rows[i][c] == (if Filled(spec', t'.columns, fields, c) then FillField(Before(t, i, c)) else Before(t, i, c))
    decreases |fields|
  {
    if fields != [] {
      var col := fields[0];
      var rest := fields[1..];
      DistinctTail(fields);
      var (t1, spec1) := FillStep(t, spec, userSpec, col).value;
      FillStepMeaning(t, spec, userSpec, col);
      FillFieldsCells(t1, spec1, userSpec, rest);
      FillFieldsSpec(t1, spec1, userSpec, rest);
      FillFieldsColumns(t1, spec1, userSpec, rest);
      var (t', spec') := FillFields(t1, spec1, userSpec, rest).value;
      assert FillFields(t, spec, userSpec, fields).value == (t', spec');
      forall i, c | 0 <= i < |t.rows| && c in t'.columns
        ensures t'.rows[i][c] == (if Filled(spec', t'.columns, fields, c) then FillField(Before(t, i, c)) else Before(t, i, c))
      {
        FillFieldsCell(t, t1, t', spec, spec1, spec', fields, i, c);
      }
    }
  }

  /** One step of the loop, cell by cell. */
  lemma FillStepMeaning(t: Table, spec: map<string, string>, userSpec: map<string, string>, col: string)
    requires WellFormed(t)
    requires FillStep(t, spec, userSpec, col).Ok?
    ensures var (t1, spec1) := FillStep(t, spec, userSpec, col).value;
      && (col in spec ==> spec1 == spec && t1.columns == t.columns)
      && (col !in spec ==> spec1 == spec[col := userSpec[col]] && t1.columns == t.columns + {col} && col !in t.columns)
      && forall i, c :: 0 <= i < |t.rows| && c in t1.columns ==>
           t1.rows[i][c] == (if col != "year" && c == spec1[col] then FillField(Before(t, i, c)) else Before(t, i, c))
  {
  }

  /** The cell-level step of the induction in `FillFieldsMeaning`. */
  lemma FillFieldsCell(t: Table, t1: Table, t': Table, spec: map<string, string>, spec1: map<string, string>,
                       spec': map<string, string>, fields: seq<string>, i: nat, c: string)
    requires WellFormed(t) && WellFormed(t1) && WellFormed(t') && fields != [] && i < |t.rows|
    requires |t1.rows| == |t.rows| && |t'.rows| == |t.rows|
    requires fields[0] !in fields[1..]
    requires fields[0] in spec1 && (fields[0] in spec ==> spec1 == spec) && (fields[0] !in spec ==> spec1 == spec[fields[0] := spec1[fields[0]]])
    requires fields[0] !in spec ==> t1.columns == t.columns + {fields[0]} && fields[0] !in t.columns
    requires fields[0] in spec ==> t1.columns == t.columns
    requires forall c :: c in t1.columns ==>
      t1.rows[i][c] == (if fields[0] != "year" && c == spec1[fields[0]] then FillField(Before(t, i, c)) else Before(t, i, c))
    requires forall n :: n in spec1 ==> n in spec' && spec'[n] == spec1[n]
    requires t1.columns <= t'.columns && c in t'.columns
    requires forall c :: c in t'.columns ==> c in t1.columns || (c in fields[1..] && c !in spec1)
    requires forall c :: c in t'.columns ==>
      t'.rows[i][c] == (if Filled(spec', t'.columns, fields[1..], c) then FillField(Before(t1, i, c)) else Before(t1, i, c))
    ensures t'.rows[i][c] == (if Filled(spec', t'.columns, fields, c) then FillField(Before(t, i, c)) else Before(t, i, c))
  {
    var col := fields[0];
    var rest := fields[1..];
    var filledNow := col != "year" && c == spec'[col];
    assert Filled(spec', t'.columns, fields, c) <==> Filled(spec', t'.columns, rest, c) || filledNow by {
      if Filled(spec', t'.columns, fields, c) {
        var k :| 0 <= k < |fields| && fields[k] != "year" && fields[k] in spec' && spec'[fields[k]] == c;
        if k > 0 {
          assert rest[k - 1] == fields[k];
        }
      }
      if Filled(spec', t'.columns, rest, c) {
        var k :| 0 <= k < |rest| && rest[k] != "year" && rest[k] in spec' && spec'[rest[k]] == c;
        assert fields[k + 1] == rest[k];
      }
      if filledNow {
        assert fields[0] == col;
      }
    }
    if c !in t1.columns {
      assert c in rest && c !in t.columns;
    }
  }

  /** A missing-value-free column: every cell is a string. */
  predicate NoMissing(t: Table, c: string)
    requires WellFormed(t) && c in t.columns
  {
    forall i :: 0 <= i < |t.rows| ==> t.rows[i][c].Str?
  }

  /** Case-insensitively "anonymous", or empty: a placeholder author. */
  predicate IsAnonymous(c: Cell) {
    c == Str("") || (c.Str? && Lower(c.s) == "anonymous")
  }

  /** `Unknown` for a placeholder author, the value itself otherwise. */
  function AuthorName(c: Cell): (r: Cell)
    ensures IsAnonymous(c) ==> r == Str("Unknown")
    ensures !IsAnonymous(c) ==> r == c
  {
    if IsAnonymous(c) then Str("Unknown") else c
  }

  /** The journal, or the secondary title where the journal is "". */
  function JournalOrSecondary(journal: Cell, secondary: Cell): (r: Cell)
    ensures journal == Str("") ==> r == secondary
    ensures journal != Str("") ==> r == journal
  {
    if journal == Str("") then secondary else journal
  }

  /** The secondary-title fallback: the specification's secondary-title column is filled
      in, then every "" in the `journal` column takes the `secondary_title` column's value.
      Any of those columns missing raises `KeyError`. */
  function UseSecondaryTitle(t: Table, spec: map<string, string>): (r: Result<Table>)
    requires WellFormed(t) && "secondary_title" in spec
    ensures r.Ok? <==> spec["secondary_title"] in t.columns && "journal" in t.columns && "secondary_title" in t.columns
    ensures r.Ok? ==> WellFormed(r.value) && r.value.columns == t.columns && |r.value.rows| == |t.rows|
  {
    var sc := spec["secondary_title"];
    if sc !in t.columns then Err(KeyError(sc))
    else
      var t1 := FillColumn(t, sc);
      if "journal" !in t1.columns then Err(KeyError("journal"))
      else if "secondary_title" !in t1.columns then Err(KeyError("secondary_title"))
      else
        Ok(Table(t1.columns, seq(|t1.rows|, i requires 0 <= i < |t1.rows| =>
          t1.rows[i]["journal" := JournalOrSecondary(t1.rows[i]["journal"], t1.rows[i]["secondary_title"])])))
  }

  /** The placeholder-author rule on the specification's authors column; a missing
      column raises `KeyError`. */
  function FormatAuthors(t: Table, spec: map<string, string>): (r: Result<Table>)
    requires WellFormed(t)
    ensures r.Ok? <==> "authors" in spec && spec["authors"] in t.columns
    ensures r.Ok? ==> WellFormed(r.value) && r.value.columns == t.columns && |r.value.rows| == |t.rows|
    ensures r.Ok? ==> forall i, c :: 0 <= i < |t.rows| && c in t.columns ==>
      r.value.rows[i][c] == (if c == spec["authors"] then AuthorName(t.rows[i][c]) else t.rows[i][c])
  {
    if "authors" !in spec then Err(KeyError("authors"))
    else if spec["authors"] !in t.columns then Err(KeyError(spec["authors"]))
    else
      var a := spec["authors"];
      Ok(Table(t.columns, seq(|t.rows|, i requires 0 <= i < |t.rows| => t.rows[i][a := AuthorName(t.rows[i][a])])))
  }

  /** `_standardize_dataframe_for_deduplication` after the host application's own
      standardisation, which produced `t` and `spec`: the fill loop over the canonical
      fields, the secondary-title fallback when the specification has that field, and
      the placeholder-author rule. */
  function StandardizeForDedup(t: Table, spec: map<string, string>, userSpec: map<string, string>): (r: Result<(Table, map<string, string>)>)
    requires WellFormed(t)
    ensures r.Ok? ==> WellFormed(r.value.0) && |r.value.0.rows| == |t.rows|
    ensures r.Ok? ==> forall k :: 0 <= k < |ColsForDedupe| ==> ColsForDedupe[k] in r.value.1
  {
    var (t1, spec1) :- FillFields(t, spec, userSpec, ColsForDedupe);
    FillFieldsDomain(t, spec, userSpec, ColsForDedupe);
    assert forall k :: 0 <= k < |ColsForDedupe| ==> ColsForDedupe[k] in spec1;
    var t2 :- if "secondary_title" in spec then UseSecondaryTitle(t1, spec1) else Ok(t1);
    var t3 :- FormatAuthors(t2, spec1);
    Ok((t3, spec1))
  }

  /** The fill loop names a column for every field it processed, and keeps the others. */
  lemma {:induction false} FillFieldsDomain(t: Table, spec: map<string, string>, userSpec: map<string, string>, fields: seq<string>)
    requires WellFormed(t) && FillFields(t, spec, userSpec, fields).Ok?
    ensures forall n :: n in FillFields(t, spec, userSpec, fields).value.1 <==> n in spec || n in fields
    decreases |fields|
  {
    if fields != [] {
      var (t1, spec1) := FillStep(t, spec, userSpec, fields[0]).value;
      assert forall n :: n in spec1 <==> n in spec || n == fields[0];
      FillFieldsDomain(t1, spec1, userSpec, fields[1..]);
      assert forall n :: n in fields <==> n == fields[0] || n in fields[1..];
    }
  }

  /** After the fill loop, the column of every non-year field it processed is free of
      missing values, when the table has it. */
  lemma FillFieldsNoMissing(t: Table, spec: map<string, string>, userSpec: map<string, string>, fields: seq<string>, k: nat)
    requires WellFormed(t) && Distinct(fields)
    requires FillFields(t, spec, userSpec, fields).Ok?
    requires k < |fields| && fields[k] != "year"
    ensures var (t', spec') := FillFields(t, spec, userSpec, fields).value;
      fields[k] in spec' && (spec'[fields[k]] in t'.columns ==> NoMissing(t', spec'[fields[k]]))
  {
    FillFieldsDomain(t, spec, userSpec, fields);
    FillFieldsCells(t, spec, userSpec, fields);
    var r := FillFields(t, spec, userSpec, fields).value;
    assert fields[k] in fields;
    FilledColumnNoMissing(t, r.0, r.1, fields, k);
  }

  /** A filled column holds strings only. */
  lemma FilledColumnNoMissing(t: Table, t': Table, spec': map<string, string>, fields: seq<string>, k: nat)
    requires WellFormed(t) && WellFormed(t') && |t'.rows| == |t.rows|
    requires k < |fields| && fields[k] != "year" && fields[k] in spec'
    requires forall i, c :: 0 <= i < |t.rows| && c in t'.columns ==>
      t'.rows[i][c] == (if Filled(spec', t'.columns, fields, c) then FillField(Before(t, i, c)) else Before(t, i, c))
    ensures spec'[fields[k]] in t'.columns ==> NoMissing(t', spec'[fields[k]])
  {
    var c := spec'[fields[k]];
    if c in t'.columns {
      assert Filled(spec', t'.columns, fields, c);
      forall i | 0 <= i < |t'.rows| ensures t'.rows[i][c].Str? {
        assert t'.rows[i][c] == FillField(Before(t, i, c));
      }
    }
  }

  /** The fill loop keeps every column the specification already named. */
  lemma FillFieldsKeepsSpec(t: Table, spec: map<string, string>, userSpec: map<string, string>, fields: seq<string>, n: string)
    requires WellFormed(t) && Distinct(fields)
    requires FillFields(t, spec, userSpec, fields).Ok? && n in spec
    ensures var spec' := FillFields(t, spec, userSpec, fields).value.1; n in spec' && spec'[n] == spec[n]
  {
    FillFieldsSpec(t, spec, userSpec, fields);
  }

  /** After standardisation every non-year canonical field whose column the table has is
      free of missing values, provided a secondary-title column, when the specification
      names one, is the column called "secondary_title". */
  lemma StandardizeFillsFields(t: Table, spec: map<string, string>, userSpec: map<string, string>, k: nat)
    requires WellFormed(t)
    requires StandardizeForDedup(t, spec, userSpec).Ok?
    requires k < |ColsForDedupe| && ColsForDedupe[k] != "year"
    requires "secondary_title" in spec ==> spec["secondary_title"] == "secondary_title"
    ensures var (t', spec') := StandardizeForDedup(t, spec, userSpec).value;
      spec'[ColsForDedupe[k]] in t'.columns ==> NoMissing(t', spec'[ColsForDedupe[k]])
  {
    var fields := ColsForDedupe;
    ColsForDedupeDistinct();
    FillFieldsNoMissing(t, spec, userSpec, fields, k);
    var r1 := FillFields(t, spec, userSpec, fields).value;
    var t1, spec1 := r1.0, r1.1;
    if "secondary_title" in spec {
      FillFieldsKeepsSpec(t, spec, userSpec, fields, "secondary_title");
    }
    var t2r := if "secondary_title" in spec then UseSecondaryTitle(t1, spec1) else Ok(t1);
    assert t2r.Ok?;
    var t2 := t2r.value;
    var t3 := FormatAuthors(t2, spec1).value;
    assert StandardizeForDedup(t, spec, userSpec).value == (t3, spec1);
    var c := spec1[fields[k]];
    if c in t3.columns {
      if "secondary_title" in spec {
        SecondaryKeepsStrings(t1, spec1, c);
      }
      FormatAuthorsKeepsStrings(t2, spec1, c);
    }
  }

  /** Reformatting the author column never turns a string into a missing value. */
  lemma FormatAuthorsKeepsStrings(t: Table, spec: map<string, string>, c: string)
    requires WellFormed(t) && FormatAuthors(t, spec).Ok?
    requires c in t.columns && NoMissing(t, c)
    ensures NoMissing(FormatAuthors(t, spec).value, c)
  {
  }

  lemma SecondaryKeepsStrings(t: Table, spec: map<string, string>, c: string)
    requires WellFormed(t) && "secondary_title" in spec && UseSecondaryTitle(t, spec).Ok?
    requires c in t.columns
    requires forall i :: 0 <= i < |t.rows| ==> t.rows[i][c].Str?
    requires c == "journal" ==> spec["secondary_title"] == "secondary_title"
    ensures forall i :: 0 <= i < |t.rows| ==> UseSecondaryTitle(t, spec).value.rows[i][c].Str?
  {
    var t1 := FillColumn(t, spec["secondary_title"]);
    assert forall i :: 0 <= i < |t.rows| ==> t1.rows[i][c].Str?;
  }
}

=== FILE: methods.dfy ===
/** The two deduplication methods (methods/asr.py and methods/endnote_default.py) as
    configurations of one run, and the method registry of dedup.py. A run resolves the
    column specification, keeps the canonical columns with missing values as "", cleans
    the configured fields, blocks on the configured keys, accepts every blocked pair,
    builds the groups, and tags (or drops) the duplicates. */
module Methods {
  import opened Wrappers
  import opened Text
  import opened Tables
  import opened Sorting
  import opened Base
  import opened CleanPipeline
  import IoUtils

  /** Which fields a method cleans, which combined columns it blocks on, and which
      further single columns it blocks on, all by canonical name. */
  datatype MethodConfig = MethodConfig(cleaned: seq<string>, combined: seq<seq<string>>, extraKeys: seq<string>)

  /** ASReview's method: clean title, abstract and DOI; block on title+abstract, then
      on the DOI. */
  const AsrConfig: MethodConfig := MethodConfig(["title", "abstract", "doi"], [["title", "abstract"]], ["doi"])

  /** Endnote's default method: clean authors, year and title; block on the combined
      authors+year+title column only. */
  const EndnoteConfig: MethodConfig := MethodConfig(["authors", "year", "title"], [["authors", "year", "title"]], [])

  /** `dedup`'s `drop_duplicates` default, in both methods. */
  const DefaultDrop: bool := false

  /** `apply_dedup`'s default method name. */
  const DefaultMethod: string := "asr"

  // ---------------------------------------------------------------------------------
  // The steps of a run

  /** `df.copy().fillna("")[[col_specs[col] for col in COLS_FOR_DEDUPE]]`: the columns
      of the canonical fields only, missing values replaced by "". */
  function WorkingTable(t: Table, colSpecs: map<string, string>): (r: Result<Table>)
    requires WellFormed(t)
    ensures r.Ok? <==> forall k :: 0 <= k < |IoUtils.ColsForDedupe| ==>
      IoUtils.ColsForDedupe[k] in colSpecs && colSpecs[IoUtils.ColsForDedupe[k]] in t.columns
    ensures r.Ok? ==> WellFormed(r.value) && |r.value.rows| == |t.rows|
    ensures r.Ok? ==> r.value.columns == set k | 0 <= k < |IoUtils.ColsForDedupe| :: colSpecs[IoUtils.ColsForDedupe[k]]
    ensures r.Ok? ==> forall i, c :: 0 <= i < |t.rows| && c in r.value.columns ==>
      r.value.rows[i][c] == FillNa(t.rows[i][c]) && !r.value.rows[i][c].Null?
  {
    var cols :- MapColumns(colSpecs, IoUtils.ColsForDedupe);
    var filled := FillNaTable(t);
    var r := SelectColumns(filled, cols);
    if r.Ok? then
      assert forall c :: c in r.value.columns ==> exists k :: 0 <= k < |cols| && cols[k] == c;
      r
    else r
  }

  /** The working table with the configured fields cleaned: `CleanPipeline(include=…)`
      run on it. */
  function CleanedTable(env: Env, t: Table, colSpecs: map<string, string>, cfg: MethodConfig): (r: Result<Table>)
    requires WellFormed(t)
    ensures r.Ok? ==> WorkingTable(t, colSpecs).Ok?
    ensures r.Ok? ==> WellFormed(r.value) && r.value.columns == WorkingTable(t, colSpecs).value.columns
    ensures r.Ok? ==> |r.value.rows| == |t.rows|
  {
    var w :- WorkingTable(t, colSpecs);
    Pipe(env, w, colSpecs, [], cfg.cleaned, [])
  }

  /** The cleaned table with the combined columns added, and the blocking columns: the
      combined ones in order, then the extra single columns. */
  function Prepare(env: Env, t: Table, colSpecs: map<string, string>, cfg: MethodConfig): (r: Result<(Table, seq<string>)>)
    requires WellFormed(t)
    ensures r.Ok? ==> CleanedTable(env, t, colSpecs, cfg).Ok?
    ensures r.Ok? ==> WellFormed(r.value.0) && |r.value.0.rows| == |t.rows|
    ensures r.Ok? ==> forall k :: 0 <= k < |r.value.1| ==> r.value.1[k] in r.value.0.columns
    ensures r.Ok? ==> |r.value.1| == |cfg.combined| + |cfg.extraKeys|
    ensures r.Ok? ==> forall k :: 0 <= k < |cfg.combined| ==>
      MapColumns(colSpecs, cfg.combined[k]).Ok? && r.value.1[k] == Join(MapColumns(colSpecs, cfg.combined[k]).value, "_")
    ensures r.Ok? ==> forall k :: 0 <= k < |cfg.extraKeys| ==>
      cfg.extraKeys[k] in colSpecs && r.value.1[|cfg.combined| + k] == colSpecs[cfg.extraKeys[k]]
  {
    var cleaned :- CleanedTable(env, t, colSpecs, cfg);
    var (c, names) :- CreateCombinedColumns(cleaned, colSpecs, cfg.combined);
    var extra :- MapColumns(colSpecs, cfg.extraKeys);
    var missing := FirstMissing(extra, c.columns);
    if missing.None? then Ok((c, names + extra)) else Err(KeyError(missing.value))
  }

  /** A pairs row for a candidate pair; the comparison scores play no part in these
      methods. */
  function LinkRow(p: (nat, nat)): PairRow {
    PairRow(p.0, p.1, map[], map[], map[])
  }

  /** The pair ids of the candidate pairs, each pair accepted as it is. */
  function LinkRids(links: seq<(nat, nat)>): (r: seq<(nat, nat)>)
    ensures |r| == |links|
    ensures forall k :: 0 <= k < |links| ==> multiset{r[k].0, r[k].1} == multiset{links[k].0, links[k].1}
  {
    var rows := seq(|links|, k requires 0 <= k < |links| => LinkRow(links[k]));
    assert forall k :: 0 <= k < |links| ==> rows[k].id1 == links[k].0 && rows[k].id2 == links[k].1;
    PairRids(rows)
  }

  /** The groups built from the candidate pairs. */
  function GroupsOfLinks(links: seq<(nat, nat)>): seq<seq<nat>> {
    GroupsFromPairs(LinkRids(links))
  }

  /** Every accepted pair shares a group. */
  lemma LinkedGroupsCover(links: seq<(nat, nat)>, p: (nat, nat))
    requires p in links
    ensures CoGrouped(GroupsOfLinks(links), p.0, p.1)
  {
    var rids := LinkRids(links);
    var k :| 0 <= k < |links| && links[k] == p;
    assert CoGrouped(GroupsFromPairs(rids), rids[k].0, rids[k].1);
    assert rids[k].0 in multiset{p.0, p.1} && rids[k].1 in multiset{p.0, p.1};
    assert p.0 in multiset{rids[k].0, rids[k].1} && p.1 in multiset{rids[k].0, rids[k].1};
  }

  /** Every grouped record belongs to some accepted pair. */
  lemma LinkedGroupsMembers(links: seq<(nat, nat)>, g: nat, x: nat)
    requires g < |GroupsOfLinks(links)| && x in GroupsOfLinks(links)[g]
    ensures exists p :: p in links && (p.0 == x || p.1 == x)
  {
    var rids := LinkRids(links);
    assert InPairs(x, rids);
    var k :| 0 <= k < |rids| && (rids[k].0 == x || rids[k].1 == x);
    assert x in multiset{rids[k].0, rids[k].1};
    assert links[k] in links;
  }

  /** The order a link function is allowed to give: the candidate pairs, each once,
      in any order. */
  ghost predicate LinkOrder(linkOrder: seq<(nat, nat)> -> seq<(nat, nat)>) {
    forall s :: multiset(linkOrder(s)) == multiset(s)
  }

  /** Blocking, then the groups of the candidate pairs. The blocking index lists the
      pairs in an order of its own making, which `linkOrder` stands for; the greedy
      grouping depends on it. */
  function Groups(env: Env, t: Table, colSpecs: map<string, string>, cfg: MethodConfig,
                  linkOrder: seq<(nat, nat)> -> seq<(nat, nat)>): (r: Result<seq<seq<nat>>>)
    requires WellFormed(t)
    ensures r.Ok? ==> Prepare(env, t, colSpecs, cfg).Ok?
    ensures r.Ok? ==> var pr := Prepare(env, t, colSpecs, cfg).value;
      CandidateLinks(pr.0, pr.1).Ok? && r.value == GroupsOfLinks(linkOrder(CandidateLinks(pr.0, pr.1).value))
  {
    var pr :- Prepare(env, t, colSpecs, cfg);
    var links :- CandidateLinks(pr.0, pr.1);
    Ok(GroupsOfLinks(linkOrder(links)))
  }

  /** Two records agree on a blocking column of the prepared table, and the value is
      not blank. */
  predicate Blocked(c: Table, keys: seq<string>, a: nat, b: nat)
    requires WellFormed(c) && forall k :: 0 <= k < |keys| ==> keys[k] in c.columns
  {
    a < |c.rows| && b < |c.rows| &&
    exists k :: 0 <= k < |keys| && !IsBlank(c.rows[a][keys[k]]) && c.rows[a][keys[k]] == c.rows[b][keys[k]]
  }

  /** `names` lists the table's columns: `df.columns`, in the frame's order. */
  predicate ColumnNames(t: Table, names: seq<string>) {
    (forall k :: 0 <= k < |names| ==> names[k] in t.columns) && forall c :: c in t.columns ==> c in names
  }

  /** A method's `dedup(df, drop_duplicates)`: the column specification comes from the
      table's column names, the groups from the steps above, and `_dedup` arranges the
      whole input table; `order` is the multi-key sort, any permutation of the rows. */
  function Run(env: Env, t: Table, names: seq<string>, dedupType: string -> Option<string>, asrType: string -> Option<string>,
               cfg: MethodConfig, linkOrder: seq<(nat, nat)> -> seq<(nat, nat)>, order: seq<Tagged> -> seq<Tagged>,
               drop: bool): (r: Result<seq<DedupRow>>)
    requires WellFormed(t) && ColumnNames(t, names)
    requires forall s :: multiset(order(s)) == multiset(s)
    ensures r.Ok? ==> Groups(env, t, IoUtils.GetColumnSpec(names, dedupType, asrType), cfg, linkOrder).Ok?
    ensures r.Ok? ==> forall k :: 0 <= k < |r.value| ==> r.value[k].id < |t.rows| && r.value[k].record == t.rows[r.value[k].id]
  {
    var colSpecs := IoUtils.GetColumnSpec(names, dedupType, asrType);
    var groups :- Groups(env, t, colSpecs, cfg, linkOrder);
    var sorted := order(Arrange(|t.rows|, groups));
    Dedup(t, groups, sorted, drop)
  }

  /** `apply_dedup`: "asr" runs ASReview's method with duplicates dropped; every other
      name, "endnote" included, raises `NotImplementedError`. */
  function ApplyDedup(env: Env, t: Table, names: seq<string>, dedupType: string -> Option<string>, asrType: string -> Option<string>,
                      linkOrder: seq<(nat, nat)> -> seq<(nat, nat)>, order: seq<Tagged> -> seq<Tagged>,
                      methodName: string): (r: Result<seq<DedupRow>>)
    requires WellFormed(t) && ColumnNames(t, names)
    requires forall s :: multiset(order(s)) == multiset(s)
    ensures methodName != "asr" ==> r == Err(NotImplementedError)
    ensures methodName == "asr" ==> r == Run(env, t, names, dedupType, asrType, AsrConfig, linkOrder, order, true)
  {
    if methodName == "asr" then Run(env, t, names, dedupType, asrType, AsrConfig, linkOrder, order, true)
    else Err(NotImplementedError)
  }

  // ---------------------------------------------------------------------------------
  // Properties of a run

  /** ASReview's blocking columns are, in order, the combined title and abstract column,
      then the DOI column. */
  lemma AsrBlockKeys(env: Env, t: Table, colSpecs: map<string, string>)
    requires WellFormed(t)
    requires Prepare(env, t, colSpecs, AsrConfig).Ok?
    ensures "title" in colSpecs && "abstract" in colSpecs && "doi" in colSpecs
    ensures Prepare(env, t, colSpecs, AsrConfig).value.1 == [Join([colSpecs["title"], colSpecs["abstract"]], "_"), colSpecs["doi"]]
  {
    AsrKeys(colSpecs, Prepare(env, t, colSpecs, AsrConfig).value.1);
  }

  /** The blocking keys ASReview's configuration prescribes, whatever table they came
      from. */
  lemma AsrKeys(colSpecs: map<string, string>, keys: seq<string>)
    requires |keys| == |AsrConfig.combined| + |AsrConfig.extraKeys|
    requires forall k :: 0 <= k < |AsrConfig.combined| ==>
      MapColumns(colSpecs, AsrConfig.combined[k]).Ok? && keys[k] == Join(MapColumns(colSpecs, AsrConfig.combined[k]).value, "_")
    requires forall k :: 0 <= k < |AsrConfig.extraKeys| ==>
      AsrConfig.extraKeys[k] in colSpecs && keys[|AsrConfig.combined| + k] == colSpecs[AsrConfig.extraKeys[k]]
    ensures "title" in colSpecs && "abstract" in colSpecs && "doi" in colSpecs
    ensures keys == [Join([colSpecs["title"], colSpecs["abstract"]], "_"), colSpecs["doi"]]
  {
    var cfg := AsrConfig;
    assert cfg.combined[0] == ["title", "abstract"] && cfg.extraKeys[0] == "doi";
    assert |keys| == 2;
    var m := MapColumns(colSpecs, cfg.combined[0]);
    assert m.Ok? && keys[0] == Join(m.value, "_");
    assert keys[1] == colSpecs["doi"];
    assert "title" == cfg.combined[0][0] && "abstract" == cfg.combined[0][1];
    assert m.value == [colSpecs["title"], colSpecs["abstract"]];
  }

  /** Endnote's method has exactly one blocking column: authors, year and title
      combined. */
  lemma EndnoteBlockKeys(env: Env, t: Table, colSpecs: map<string, string>)
    requires WellFormed(t)
    requires Prepare(env, t, colSpecs, EndnoteConfig).Ok?
    ensures "authors" in colSpecs && "year" in colSpecs && "title" in colSpecs
    ensures Prepare(env, t, colSpecs, EndnoteConfig).value.1 ==
      [Join([colSpecs["authors"], colSpecs["year"], colSpecs["title"]], "_")]
  {
    EndnoteKeys(colSpecs, Prepare(env, t, colSpecs, EndnoteConfig).value.1);
  }

  /** The blocking keys the Endnote configuration prescribes, whatever table they came
      from. */
  lemma EndnoteKeys(colSpecs: map<string, string>, keys: seq<string>)
    requires |keys| == |EndnoteConfig.combined| + |EndnoteConfig.extraKeys|
    requires forall k :: 0 <= k < |EndnoteConfig.combined| ==>
      MapColumns(colSpecs, EndnoteConfig.combined[k]).Ok? && keys[k] == Join(MapColumns(colSpecs, EndnoteConfig.combined[k]).value, "_")
    ensures "authors" in colSpecs && "year" in colSpecs && "title" in colSpecs
    ensures keys == [Join([colSpecs["authors"], colSpecs["year"], colSpecs["title"]], "_")]
  {
    var cfg := EndnoteConfig;
    assert cfg.combined[0] == ["authors", "year", "title"] && cfg.extraKeys == [];
    assert |keys| == 1;
    var m := MapColumns(colSpecs, cfg.combined[0]);
    assert m.Ok? && keys[0] == Join(m.value, "_");
    assert "authors" == cfg.combined[0][0] && "year" == cfg.combined[0][1] && "title" == cfg.combined[0][2];
    assert m.value == [colSpecs["authors"], colSpecs["year"], colSpecs["title"]];
  }

  /** Every blocked pair of records of a prepared table ends up in a common group,
      whatever order the candidate pairs come in. */
  lemma BlockedPairsShareGroup(c: Table, keys: seq<string>, links: seq<(nat, nat)>, a: nat, b: nat)
    requires WellFormed(c) && CandidateLinks(c, keys).Ok?
    requires multiset(links) == multiset(CandidateLinks(c, keys).value)
    requires a < b && Blocked(c, keys, a, b)
    ensures CoGrouped(GroupsOfLinks(links), a, b)
  {
    BlockedIsLink(c, keys, a, b);
    assert (a, b) in multiset(CandidateLinks(c, keys).value);
    LinkedGroupsCover(links, (a, b));
  }

  /** Every grouped record of a prepared table is blocked with some other record,
      whatever order the candidate pairs come in. */
  lemma GroupedRecordsBlocked(c: Table, keys: seq<string>, links: seq<(nat, nat)>, g: nat, x: nat)
    requires WellFormed(c) && CandidateLinks(c, keys).Ok?
    requires multiset(links) == multiset(CandidateLinks(c, keys).value)
    requires g < |GroupsOfLinks(links)| && x in GroupsOfLinks(links)[g]
    ensures exists y :: y != x && (Blocked(c, keys, x, y) || Blocked(c, keys, y, x))
  {
    LinkedGroupsMembers(links, g, x);
    var p :| p in links && (p.0 == x || p.1 == x);
    assert p in multiset(links);
    LinkIsBlocked(c, keys, p);
    if p.0 == x {
      assert Blocked(c, keys, x, p.1);
    } else {
      assert Blocked(c, keys, p.0, x);
    }
  }

  /** A candidate pair is blocked, in ascending order. */
  lemma LinkIsBlocked(c: Table, keys: seq<string>, p: (nat, nat))
    requires WellFormed(c) && CandidateLinks(c, keys).Ok?
    requires p in CandidateLinks(c, keys).value
    ensures p.0 < p.1 && Blocked(c, keys, p.0, p.1)
  {
  }

  /** No filter stands between blocking and grouping in a run: the groups are exactly
      those of the blocked pairs. */
  lemma BlockingIsAcceptance(env: Env, t: Table, colSpecs: map<string, string>, cfg: MethodConfig,
                             linkOrder: seq<(nat, nat)> -> seq<(nat, nat)>)
    requires WellFormed(t) && LinkOrder(linkOrder)
    requires Groups(env, t, colSpecs, cfg, linkOrder).Ok?
    ensures var pr := Prepare(env, t, colSpecs, cfg).value;
      var groups := Groups(env, t, colSpecs, cfg, linkOrder).value;
      && (forall a, b :: a < b && Blocked(pr.0, pr.1, a, b) ==> CoGrouped(groups, a, b))
      && (forall g, x :: 0 <= g < |groups| && x in groups[g] ==>
            exists y :: y != x && (Blocked(pr.0, pr.1, x, y) || Blocked(pr.0, pr.1, y, x)))
  {
    var pr := Prepare(env, t, colSpecs, cfg).value;
    var links := linkOrder(CandidateLinks(pr.0, pr.1).value);
    BlockingFacts(pr.0, pr.1, links, Groups(env, t, colSpecs, cfg, linkOrder).value);
  }

  /** The grouping is blocking's acceptance relation, on any prepared table. */
  lemma BlockingFacts(c: Table, keys: seq<string>, links: seq<(nat, nat)>, groups: seq<seq<nat>>)
    requires WellFormed(c) && CandidateLinks(c, keys).Ok?
    requires multiset(links) == multiset(CandidateLinks(c, keys).value)
    requires groups == GroupsOfLinks(links)
    ensures forall a, b :: a < b && Blocked(c, keys, a, b) ==> CoGrouped(groups, a, b)
    ensures forall g, x :: 0 <= g < |groups| && x in groups[g] ==>
      exists y :: y != x && (Blocked(c, keys, x, y) || Blocked(c, keys, y, x))
  {
    forall a, b | a < b && Blocked(c, keys, a, b) ensures CoGrouped(groups, a, b) {
      BlockedPairsShareGroup(c, keys, links, a, b);
    }
    forall g, x | 0 <= g < |groups| && x in groups[g]
      ensures exists y :: y != x && (Blocked(c, keys, x, y) || Blocked(c, keys, y, x))
    {
      GroupedRecordsBlocked(c, keys, links, g, x);
    }
  }

  /** A blocked pair, in ascending order, is a candidate pair. */
  lemma BlockedIsLink(c: Table, keys: seq<string>, a: nat, b: nat)
    requires WellFormed(c) && CandidateLinks(c, keys).Ok?
    requires a < b && Blocked(c, keys, a, b)
    ensures (a, b) in CandidateLinks(c, keys).value
  {
    var k :| 0 <= k < |keys| && !IsBlank(c.rows[a][keys[k]]) && c.rows[a][keys[k]] == c.rows[b][keys[k]];
    SharedKeyIsLink(c, keys, a, b, k);
  }

  /** Only the configured fields are cleaned: any other column of the working table
      keeps its value, with missing values as "". */
  lemma OnlyConfiguredFieldsCleaned(env: Env, t: Table, colSpecs: map<string, string>, cfg: MethodConfig, i: nat, c: string)
    requires WellFormed(t) && cfg.cleaned != []
    requires CleanedTable(env, t, colSpecs, cfg).Ok?
    requires i < |t.rows| && c in WorkingTable(t, colSpecs).value.columns
    requires forall k :: 0 <= k < |cfg.cleaned| ==> cfg.cleaned[k] in colSpecs && colSpecs[cfg.cleaned[k]] != c
    ensures CleanedTable(env, t, colSpecs, cfg).value.rows[i][c] == FillNa(t.rows[i][c])
  {
    var w := WorkingTable(t, colSpecs).value;
    assert CleanedTable(env, t, colSpecs, cfg) == Pipe(env, w, colSpecs, [], cfg.cleaned, []);
    assert Selection(cfg.cleaned, []) == cfg.cleaned;
    PipeLeavesOthers(env, w, colSpecs, [], cfg.cleaned, [], i, c);
  }

  /** A successful run is `_dedup` of the input table with the run's groups. */
  lemma RunIsDedup(env: Env, t: Table, names: seq<string>, dedupType: string -> Option<string>, asrType: string -> Option<string>,
                   cfg: MethodConfig, linkOrder: seq<(nat, nat)> -> seq<(nat, nat)>, order: seq<Tagged> -> seq<Tagged>, drop: bool)
    requires WellFormed(t) && ColumnNames(t, names)
    requires forall s :: multiset(order(s)) == multiset(s)
    requires Run(env, t, names, dedupType, asrType, cfg, linkOrder, order, drop).Ok?
    ensures var groups := Groups(env, t, IoUtils.GetColumnSpec(names, dedupType, asrType), cfg, linkOrder).value;
      var sorted := order(Arrange(|t.rows|, groups));
      && multiset(sorted) == multiset(Arrange(|t.rows|, groups))
      && Run(env, t, names, dedupType, asrType, cfg, linkOrder, order, drop) == Dedup(t, groups, sorted, drop)
  {
  }

  /** `apply_dedup` always drops the duplicates: its rows carry no KEEP/REMOVE label,
      every record in no group is kept, and one record is kept per group. */
  lemma ApplyDedupDrops(env: Env, t: Table, names: seq<string>, dedupType: string -> Option<string>, asrType: string -> Option<string>,
                        linkOrder: seq<(nat, nat)> -> seq<(nat, nat)>, order: seq<Tagged> -> seq<Tagged>)
    requires WellFormed(t) && ColumnNames(t, names)
    requires forall s :: multiset(order(s)) == multiset(s)
    requires ApplyDedup(env, t, names, dedupType, asrType, linkOrder, order, "asr").Ok?
    ensures var out := ApplyDedup(env, t, names, dedupType, asrType, linkOrder, order, "asr").value;
      var groups := Groups(env, t, IoUtils.GetColumnSpec(names, dedupType, asrType), AsrConfig, linkOrder).value;
      && (forall k :: 0 <= k < |out| ==> out[k].keepRemove.None?)
      && GroupCount(out, 0) == |Unmatched(|t.rows|, Flatten(groups))|
      && forall g :: 1 <= g <= |groups| ==> GroupCount(out, g) == 1
  {
    RunIsDedup(env, t, names, dedupType, asrType, AsrConfig, linkOrder, order, true);
    var groups := Groups(env, t, IoUtils.GetColumnSpec(names, dedupType, asrType), AsrConfig, linkOrder).value;
    var sorted := order(Arrange(|t.rows|, groups));
    var out := Dedup(t, groups, sorted, true).value;
    DedupDropOnePerGroup(t, groups, sorted);
    forall g | 1 <= g <= |groups| ensures GroupCount(out, g) == 1 {
      assert |groups[g - 1]| >= 2;
    }
  }
}

=== FILE: preprocess_utils.dfy ===
/** The older helpers of preprocess_utils.py: the case-insensitive column lookup, the
    first versions of the DOI and pages cleaners, and the output path, each related to
    the version the deduplication code uses. */
module PreprocessUtils {
  import opened Wrappers
  import opened Text
  import opened Tables
  import opened DdUtils
  import EpUtils

  // ---------------------------------------------------------------------------------
  // Column names

  /** Two names that are equal once lower-cased. */
  predicate SameName(a: string, b: string) {
    Lower(a) == Lower(b)
  }

  /** `type_from_column_spec`: the field of the first entry, in order, whose name
      matches `colName` ignoring case, or `None`. */
  function TypeFromColumnSpec(colName: string, spec: seq<(string, string)>): (r: Option<string>)
    ensures r.None? <==> forall k :: 0 <= k < |spec| ==> !SameName(colName, spec[k].0)
    ensures r.Some? ==> exists k :: (0 <= k < |spec| && SameName(colName, spec[k].0) && r.value == spec[k].1 &&
      forall j :: 0 <= j < k ==> !SameName(colName, spec[j].0))
  {
    if spec == [] then None
    else if SameName(colName, spec[0].0) then Some(spec[0].1)
    else
      var r := TypeFromColumnSpec(colName, spec[1..]);
      assert forall k :: 0 < k < |spec| ==> spec[k] == spec[1..][k - 1];
      if r.Some? then
        var k :| 0 <= k < |spec[1..]| && SameName(colName, spec[1..][k].0) && r.value == spec[1..][k].1 &&
          forall j :: 0 <= j < k ==> !SameName(colName, spec[1..][j].0);
        assert forall j :: 0 < j <= k ==> spec[j] == spec[1..][j - 1];
        r
      else r
  }

  /** An earlier entry that matches decides, whatever the later entries say. */
  lemma FirstMatchDecides(colName: string, spec: seq<(string, string)>, later: seq<(string, string)>)
    requires TypeFromColumnSpec(colName, spec).Some?
    ensures TypeFromColumnSpec(colName, spec + later) == TypeFromColumnSpec(colName, spec)
  {
    var k :| 0 <= k < |spec| && SameName(colName, spec[k].0) && TypeFromColumnSpec(colName, spec).value == spec[k].1 &&
      forall j :: 0 <= j < k ==> !SameName(colName, spec[j].0);
    assert forall j :: 0 <= j < |spec| ==> (spec + later)[j] == spec[j];
  }

  // ---------------------------------------------------------------------------------
  // The older DOI cleaner

  /** The older `clean_doi`: a falsy (empty) value is returned as it is; a match becomes
      the URL of the stripped match, not upper-cased; a value without a match becomes the
      empty match list. */
  function CleanDoiLegacy(doi: string): (r: Cell)
    ensures doi == "" ==> r == Str("")
    ensures doi != "" && DoiMatch(doi).None? ==> r == EmptyList
    ensures DoiMatch(doi).Some? ==> r == Str(DoiPrefix + Strip(DoiMatch(doi).value))
  {
    if doi != "" then
      match DoiMatch(doi)
      case Some(m) => Str(DoiPrefix + Strip(m))
      case None => EmptyList
    else Str(doi)
  }

  /** The two DOI cleaners differ only in upper-casing the DOI after the prefix. */
  lemma CleanDoiVersionsAgree(doi: string)
    ensures CleanDoiLegacy(doi).Str? <==> CleanDoi(doi).Str?
    ensures CleanDoiLegacy(doi) == EmptyList <==> CleanDoi(doi) == EmptyList
    ensures doi == "" ==> CleanDoiLegacy(doi) == CleanDoi(doi)
    ensures doi != "" && CleanDoiLegacy(doi).Str? ==>
      StartsWith(CleanDoiLegacy(doi).s, DoiPrefix) &&
      CleanDoi(doi) == Str(DoiPrefix + Upper(CleanDoiLegacy(doi).s[|DoiPrefix|..]))
  {
    if doi != "" && DoiMatch(doi).Some? {
      var s := DoiPrefix + Strip(DoiMatch(doi).value);
      assert s[..|DoiPrefix|] == DoiPrefix;
      assert s[|DoiPrefix|..] == Strip(DoiMatch(doi).value);
    }
  }

  // ---------------------------------------------------------------------------------
  // The older pages cleaner

  /** The older `clean_pages`: "" for a value with a date in it and for the empty value,
      the formatted range otherwise. */
  function CleanPagesLegacy(pages: string): (r: string)
    ensures HasDate(pages) || pages == "" ==> r == ""
    ensures forall i :: 0 <= i < |r| ==> IsPageChar(r[i])
  {
    if HasDate(pages) then ""
    else if pages != "" then FormatRange(Keep(pages, IsPageChar))
    else ""
  }

  /** The two pages cleaners agree except on the empty value, which the newer one
      leaves without a result. */
  lemma CleanPagesVersionsAgree(pages: string)
    ensures CleanPages(pages).Null? <==> !HasDate(pages) && pages == ""
    ensures CleanPages(pages).Str? ==> CleanPagesLegacy(pages) == CleanPages(pages).s
    ensures CleanPages(pages).Null? ==> CleanPagesLegacy(pages) == ""
  {
  }

  /** The older pages cleaner pads a shorter end with the start's leading digits, and a
      value without an end keeps its start alone. */
  lemma CleanPagesLegacyRange(pages: string)
    requires !HasDate(pages) && pages != ""
    ensures var (start, end) := SplitRange(Keep(pages, IsPageChar));
      && (end == "" ==> CleanPagesLegacy(pages) == start)
      && (end != "" ==> CleanPagesLegacy(pages) == start + "-" + PadEnd(start, end))
  {
  }

  // ---------------------------------------------------------------------------------
  // The output path

  const LegacyExtensionMessage: string := "File extensions other than .csv are not supported yet"

  /** The older `get_output_path`: the same rules as the entry points' version, with
      its own wording of the extension error. */
  function GetOutputPath(inputPaths: seq<string>, outputPath: Option<string>, now: EpUtils.DateTime): (r: Result<string>)
    requires EpUtils.ValidDateTime(now)
    ensures var newer := EpUtils.GetOutputPath(inputPaths, outputPath, now);
      && (r.Ok? <==> newer.Ok?)
      && (r.Ok? ==> r.value == newer.value)
      && (newer == Err(IndexError) <==> r == Err(IndexError))
      && (newer.Err? && newer.error.ValueError? <==> r == Err(ValueError(LegacyExtensionMessage)))
  {
    var newer := EpUtils.GetOutputPath(inputPaths, outputPath, now);
    if newer.Err? && newer.error.ValueError? then Err(ValueError(LegacyExtensionMessage)) else newer
  }
}

=== FILE: sorting.dfy ===
/** Ascending sort of record ids (Python's `sorted` on a tuple of ids). */
module Sorting {

  predicate Sorted(s: seq<nat>) {
    forall i, j :: 0 <= i < j < |s| ==> s[i] <= s[j]
  }

  /** Ascending with no id repeated. */
  predicate StrictlySorted(s: seq<nat>) {
    forall i, j :: 0 <= i < j < |s| ==> s[i] < s[j]
  }

  predicate NoDup(s: seq<nat>) {
    forall i, j :: 0 <= i < j < |s| ==> s[i] != s[j]
  }

  function Insert(x: nat, s: seq<nat>): (r: seq<nat>)
    requires Sorted(s)
    ensures Sorted(r)
    ensures multiset(r) == multiset(s) + multiset{x}
    ensures |r| == |s| + 1
  {
    if s == [] then [x]
    else if x <= s[0] then [x] + s
    else
      var rest := Insert(x, s[1..]);
      assert s == [s[0]] + s[1..];
      HeadBelowRest(x, s, rest);
      ConsSorted(s[0], rest);
      [s[0]] + rest
  }

  /** The head of a sorted list is below every element of an insertion into its tail. */
  lemma HeadBelowRest(x: nat, s: seq<nat>, rest: seq<nat>)
    requires Sorted(s) && s != [] && s[0] < x
    requires multiset(rest) == multiset(s[1..]) + multiset{x}
    ensures forall k :: 0 <= k < |rest| ==> s[0] <= rest[k]
  {
    forall k | 0 <= k < |rest| ensures s[0] <= rest[k] {
      assert rest[k] in multiset(rest);
      if rest[k] != x {
        assert rest[k] in multiset(s[1..]);
        var j :| 0 <= j < |s[1..]| && s[1..][j] == rest[k];
        assert s[j + 1] == rest[k];
      }
    }
  }

  /** A sorted list with a smaller head in front stays sorted. */
  lemma ConsSorted(h: nat, rest: seq<nat>)
    requires Sorted(rest) && forall k :: 0 <= k < |rest| ==> h <= rest[k]
    ensures Sorted([h] + rest)
  {
    var r := [h] + rest;
    forall i, j | 0 <= i < j < |r| ensures r[i] <= r[j] {
      assert r[j] == rest[j - 1];
      if i > 0 {
        assert r[i] == rest[i - 1];
      }
    }
  }

  lemma {:induction false} InsertStrict(x: nat, s: seq<nat>)
    requires StrictlySorted(s) && x !in s
    ensures StrictlySorted(Insert(x, s))
  {
    if s == [] {
    } else if x <= s[0] {
      assert x != s[0];
      ConsStrict(x, s);
    } else {
      assert s == [s[0]] + s[1..];
      InsertStrict(x, s[1..]);
      var rest := Insert(x, s[1..]);
      forall k | 0 <= k < |rest| ensures s[0] < rest[k] {
        assert rest[k] in multiset(rest);
        if rest[k] != x {
          assert rest[k] in multiset(s[1..]);
          var j :| 0 <= j < |s[1..]| && s[1..][j] == rest[k];
          assert s[j + 1] == rest[k];
        }
      }
      ConsStrict(s[0], rest);
    }
  }

  /** A strictly ascending list with a smaller head in front stays strictly ascending. */
  lemma ConsStrict(h: nat, rest: seq<nat>)
    requires StrictlySorted(rest) && forall k :: 0 <= k < |rest| ==> h < rest[k]
    ensures StrictlySorted([h] + rest)
  {
    var r := [h] + rest;
    forall i, j | 0 <= i < j < |r| ensures r[i] < r[j] {
      assert r[j] == rest[j - 1];
      if i > 0 {
        assert r[i] == rest[i - 1];
      }
    }
  }

  /** Insertion sort: the ids in ascending order, each as often as in the input. */
  function Sort(s: seq<nat>): (r: seq<nat>)
    ensures Sorted(r)
    ensures multiset(r) == multiset(s)
    ensures |r| == |s|
    ensures NoDup(s) ==> StrictlySorted(r)
  {
    if s == [] then []
    else
      assert s == [s[0]] + s[1..];
      var rest := Sort(s[1..]);
      assert NoDup(s) ==> s[0] !in s[1..];
      assert s[0] in rest <==> s[0] in multiset(rest);
      if NoDup(s) then
        InsertStrict(s[0], rest);
        Insert(s[0], rest)
      else
        Insert(s[0], rest)
  }

  /** Sorting an ascending list changes nothing. */
  lemma {:induction false} SortOfSorted(s: seq<nat>)
    requires Sorted(s)
    ensures Sort(s) == s
  {
    if s != [] {
      SortOfSorted(s[1..]);
      assert Sort(s) == Insert(s[0], s[1..]);
      assert s == [s[0]] + s[1..];
    }
  }

  /** Sorting keeps exactly the ids that were there. */
  lemma SortMembers(s: seq<nat>, x: nat)
    ensures x in Sort(s) <==> x in s
  {
    assert x in Sort(s) <==> x in multiset(Sort(s));
    assert x in s <==> x in multiset(s);
  }

  /** A pair of ids in ascending order: `tuple(sorted(pair))`. */
  function SortPair(a: nat, b: nat): (r: (nat, nat))
    ensures r.0 <= r.1
    ensures (r.0 == a && r.1 == b) || (r.0 == b && r.1 == a)
  {
    if a <= b then (a, b) else (b, a)
  }
}

=== FILE: tables.dfy ===
/** The record table the engine transforms: rows of named cells. A row's position is
    its record id (the table's default 0..n-1 index). */
module Tables {
  import opened Wrappers

  /** A cell: a string, a missing value (NaN/None), or the empty list that the DOI
      cleaner returns when it finds no DOI in a non-empty value. */
  datatype Cell = Str(s: string) | Null | EmptyList

  type Row = map<string, Cell>

  datatype Table = Table(columns: set<string>, rows: seq<Row>)

  /** Every row has exactly the table's columns. */
  predicate WellFormed(t: Table) {
    forall i :: 0 <= i < |t.rows| ==> t.rows[i].Keys == t.columns
  }

  /** `fillna("")` on one cell. */
  function FillNa(c: Cell): (r: Cell)
    ensures !r.Null?
    ensures c.Null? ==> r == Str("")
    ensures !c.Null? ==> r == c
  {
    if c.Null? then Str("") else c
  }

  /** `astype(str)` on one cell: a missing value prints as "nan" and an empty list as "[]". */
  function StrOf(c: Cell): string {
    match c
    case Str(s) => s
    case Null => "nan"
    case EmptyList => "[]"
  }

  /** A cell that the blocking step turns into a missing value: after `fillna("")`,
      everything whose length is zero. */
  predicate IsBlank(c: Cell) {
    c.Null? || c == Str("") || c.EmptyList?
  }

  /** The value a blocking key holds after blanks became missing. */
  function BlankToMissing(c: Cell): (r: Cell)
    ensures r.Null? <==> IsBlank(c)
    ensures !IsBlank(c) ==> r == c
  {
    if IsBlank(c) then Null else c
  }

  function MapRow(r: Row, f: Cell -> Cell): (r': Row)
    ensures r'.Keys == r.Keys
    ensures forall k :: k in r ==> r'[k] == f(r[k])
  {
    map k | k in r :: f(r[k])
  }

  /** `df.fillna("")` on a whole table. */
  function FillNaTable(t: Table): (t': Table)
    ensures t'.columns == t.columns && |t'.rows| == |t.rows|
    ensures forall i, k :: 0 <= i < |t.rows| && k in t.rows[i] ==> k in t'.rows[i] && t'.rows[i][k] == FillNa(t.rows[i][k])
    ensures WellFormed(t) ==> WellFormed(t')
  {
    Table(t.columns, seq(|t.rows|, i requires 0 <= i < |t.rows| => MapRow(t.rows[i], FillNa)))
  }

  /** `df[col] = df[col].apply(f)`: the cells of one column replaced by `f` of them; a
      column the table lacks raises `KeyError`. */
  function ApplyToColumn(t: Table, col: string, f: Cell -> Cell): (r: Result<Table>)
    requires WellFormed(t)
    ensures col !in t.columns <==> r.Err?
    ensures r.Ok? ==> WellFormed(r.value) && r.value.columns == t.columns && |r.value.rows| == |t.rows|
    ensures r.Ok? ==> forall i :: 0 <= i < |t.rows| ==> r.value.rows[i] == t.rows[i][col := f(t.rows[i][col])]
  {
    if col !in t.columns then Err(KeyError(col))
    else Ok(Table(t.columns, seq(|t.rows|, i requires 0 <= i < |t.rows| => t.rows[i][col := f(t.rows[i][col])])))
  }

  /** The first of `cols` that is not in `present`. */
  function FirstMissing(cols: seq<string>, present: set<string>): (r: Option<string>)
    ensures r.None? <==> forall k :: 0 <= k < |cols| ==> cols[k] in present
    ensures r.Some? ==> r.value in cols && r.value !in present
  {
    if cols == [] then None
    else if cols[0] !in present then Some(cols[0])
    else FirstMissing(cols[1..], present)
  }

  /** `df[cols]`: only the listed columns, raising `KeyError` for the first one missing. */
  function SelectColumns(t: Table, cols: seq<string>): (r: Result<Table>)
    requires WellFormed(t)
    ensures r.Ok? <==> forall k :: 0 <= k < |cols| ==> cols[k] in t.columns
    ensures r.Ok? ==> WellFormed(r.value) && r.value.columns == set k | 0 <= k < |cols| :: cols[k]
    ensures r.Ok? ==> |r.value.rows| == |t.rows|
    ensures r.Ok? ==> forall i, k :: 0 <= i < |t.rows| && 0 <= k < |cols| ==> r.value.rows[i][cols[k]] == t.rows[i][cols[k]]
  {
    var missing := FirstMissing(cols, t.columns);
    if missing.Some? then Err(KeyError(missing.value))
    else
      var keep := set k | 0 <= k < |cols| :: cols[k];
      Ok(Table(keep, seq(|t.rows|, i requires 0 <= i < |t.rows| => map c | c in keep :: t.rows[i][c])))
  }
}

=== FILE: text.dfy ===
/** Character classes and the Python `str` operations the cleaners rely on, as pure
    functions over `seq<char>`. Case mapping covers the ASCII letters only; whitespace is
    Python's `str.isspace()` set, which is also what `\s` matches in a `str` pattern. */
module Text {

  predicate IsDigit(c: char) { '0' <= c <= '9' }
  predicate IsUpper(c: char) { 'A' <= c <= 'Z' }
  predicate IsLower(c: char) { 'a' <= c <= 'z' }
  predicate IsLetter(c: char) { IsUpper(c) || IsLower(c) }
  predicate IsAlnum(c: char) { IsLetter(c) || IsDigit(c) }
  /** `\w` restricted to ASCII. */
  predicate IsWordChar(c: char) { IsAlnum(c) || c == '_' }
  predicate IsAscii(c: char) { c as int < 128 }

  /** The characters for which Python's `str.isspace()` holds. */
  predicate IsSpace(c: char) {
    || c == ' ' || '\t' <= c <= '\r' || '\U{1C}' <= c <= '\U{1F}'
    || c == '\U{85}' || c == '\U{A0}' || c == '\U{1680}' || '\U{2000}' <= c <= '\U{200A}'
    || c == '\U{2028}' || c == '\U{2029}' || c == '\U{202F}' || c == '\U{205F}' || c == '\U{3000}'
  }

  predicate NotSpace(c: char) { !IsSpace(c) }

  function ToUpper(c: char): char {
    if IsLower(c) then (c as int - 32) as char else c
  }

  function ToLower(c: char): char {
    if IsUpper(c) then (c as int + 32) as char else c
  }

  /** `str.upper()` on the ASCII letters. */
  function Upper(s: string): string {
    seq(|s|, i requires 0 <= i < |s| => ToUpper(s[i]))
  }

  /** `str.lower()` on the ASCII letters. */
  function Lower(s: string): string {
    seq(|s|, i requires 0 <= i < |s| => ToLower(s[i]))
  }

  lemma UpperOfUpperLetter(c: char)
    requires IsUpper(c) || IsDigit(c) || c == ' '
    ensures ToUpper(c) == c
  {
  }

  /** The characters of `s` that satisfy `p`, in order: `re.sub("[^…]", "", s)`. */
  function Keep(s: string, p: char -> bool): string {
    if s == [] then [] else (if p(s[0]) then [s[0]] else []) + Keep(s[1..], p)
  }

  lemma {:induction false} KeepMembership(s: string, p: char -> bool, c: char)
    ensures c in Keep(s, p) <==> c in s && p(c)
  {
    if s != [] {
      KeepMembership(s[1..], p, c);
      assert s == [s[0]] + s[1..];
    }
  }

  lemma {:induction false} KeepOnly(s: string, p: char -> bool)
    ensures forall i :: 0 <= i < |Keep(s, p)| ==> p(Keep(s, p)[i])
  {
    forall i | 0 <= i < |Keep(s, p)|
      ensures p(Keep(s, p)[i])
    {
      KeepMembership(s, p, Keep(s, p)[i]);
    }
  }

  lemma {:induction false} KeepConcat(a: string, b: string, p: char -> bool)
    ensures Keep(a + b, p) == Keep(a, p) + Keep(b, p)
  {
    if a == [] {
      assert a + b == b;
    } else {
      var h := if p(a[0]) then [a[0]] else [];
      assert (a + b)[0] == a[0] && (a + b)[1..] == a[1..] + b;
      assert Keep(a + b, p) == h + Keep(a[1..] + b, p);
      assert Keep(a, p) == h + Keep(a[1..], p);
      KeepConcat(a[1..], b, p);
    }
  }

  lemma {:induction false} KeepAll(s: string, p: char -> bool)
    requires forall i :: 0 <= i < |s| ==> p(s[i])
    ensures Keep(s, p) == s
  {
    if s != [] {
      KeepAll(s[1..], p);
    }
  }

  lemma KeepSplitAt(s: string, n: nat, p: char -> bool)
    requires n <= |s|
    ensures Keep(s, p) == Keep(s[..n], p) + Keep(s[n..], p)
  {
    assert s == s[..n] + s[n..];
    KeepOfJoin(s, s[..n], s[n..], p);
  }

  lemma KeepOfJoin(s: string, a: string, b: string, p: char -> bool)
    requires s == a + b
    ensures Keep(s, p) == Keep(a, p) + Keep(b, p)
  {
    KeepConcat(a, b, p);
  }

  predicate StartsWith(s: string, prefix: string) {
    |prefix| <= |s| && s[..|prefix|] == prefix
  }

  predicate EndsWith(s: string, suffix: string) {
    |suffix| <= |s| && s[|s| - |suffix|..] == suffix
  }

  /** `pattern` occurs in `s` starting at index `i`. */
  predicate OccursAt(s: string, i: nat, pattern: string) {
    i + |pattern| <= |s| && s[i..i + |pattern|] == pattern
  }

  predicate Occurs(s: string, pattern: string) {
    exists i :: 0 <= i <= |s| && OccursAt(s, i, pattern)
  }

  /** `s.replace(pattern, replacement)`: a left-to-right scan that replaces each
      non-overlapping occurrence. */
  function ReplaceAll(s: string, pattern: string, replacement: string): string
    requires |pattern| > 0
    decreases |s|
  {
    if s == [] then []
    else if StartsWith(s, pattern) then replacement + ReplaceAll(s[|pattern|..], pattern, replacement)
    else [s[0]] + ReplaceAll(s[1..], pattern, replacement)
  }

  /** Replacing a pattern that does not occur changes nothing. */
  lemma {:induction false} ReplaceAllAbsent(s: string, pattern: string, replacement: string)
    requires |pattern| > 0
    requires forall i :: 0 <= i < |s| ==> !OccursAt(s, i, pattern)
    ensures ReplaceAll(s, pattern, replacement) == s
    decreases |s|
  {
    if s != [] {
      assert !OccursAt(s, 0, pattern);
      forall i | 0 <= i < |s[1..]|
        ensures !OccursAt(s[1..], i, pattern)
      {
        assert !OccursAt(s, i + 1, pattern);
        if i + |pattern| <= |s[1..]| {
          assert s[1..][i..i + |pattern|] == s[i + 1..i + 1 + |pattern|];
        }
      }
      ReplaceAllAbsent(s[1..], pattern, replacement);
    }
  }

  /** A prefix in which no occurrence starts is copied as it is. */
  lemma {:induction false} ReplaceAllSkip(x: string, y: string, pattern: string, replacement: string)
    requires |pattern| > 0
    requires forall i :: 0 <= i < |x| ==> !OccursAt(x + y, i, pattern)
    ensures ReplaceAll(x + y, pattern, replacement) == x + ReplaceAll(y, pattern, replacement)
    decreases |x|
  {
    if x != [] {
      var s := x + y;
      assert !OccursAt(s, 0, pattern);
      assert s[1..] == x[1..] + y;
      forall i | 0 <= i < |x[1..]|
        ensures !OccursAt(x[1..] + y, i, pattern)
      {
        assert !OccursAt(s, i + 1, pattern);
        if i + |pattern| <= |x[1..] + y| {
          assert (x[1..] + y)[i..i + |pattern|] == s[i + 1..i + 1 + |pattern|];
        }
      }
      assert !StartsWith(s, pattern) by {
        if |pattern| <= |s| {
          assert s[..|pattern|] == s[0..|pattern|];
        }
      }
      assert ReplaceAll(s, pattern, replacement) == [s[0]] + ReplaceAll(s[1..], pattern, replacement);
      ReplaceAllSkip(x[1..], y, pattern, replacement);
      assert s[0] == x[0] && x == [x[0]] + x[1..];
      assert [x[0]] + (x[1..] + ReplaceAll(y, pattern, replacement)) == x + ReplaceAll(y, pattern, replacement);
    } else {
      assert x + y == y;
    }
  }

  /** An occurrence at the front is replaced, and the scan resumes after it. */
  lemma ReplaceAllAtFront(pattern: string, y: string, replacement: string)
    requires |pattern| > 0
    ensures ReplaceAll(pattern + y, pattern, replacement) == replacement + ReplaceAll(y, pattern, replacement)
  {
    assert (pattern + y)[..|pattern|] == pattern;
    assert (pattern + y)[|pattern|..] == y;
  }

  /** The first occurrence is replaced and everything before it copied. */
  lemma ReplaceAllStep(x: string, pattern: string, z: string, replacement: string)
    requires |pattern| > 0
    requires forall i :: 0 <= i < |x| ==> !OccursAt(x + pattern + z, i, pattern)
    ensures ReplaceAll(x + pattern + z, pattern, replacement) == x + replacement + ReplaceAll(z, pattern, replacement)
  {
    var y := pattern + z;
    assert x + pattern + z == x + y;
    ReplaceAllSkip(x, y, pattern, replacement);
    ReplaceAllAtFront(pattern, z, replacement);
  }

  /** `str.lower()` works character by character. */
  lemma LowerConcat(a: string, b: string)
    ensures Lower(a + b) == Lower(a) + Lower(b)
  {
  }

  /** Every character of the result comes from the input or from the replacement. */
  lemma {:induction false} ReplaceAllChars(s: string, pattern: string, replacement: string, c: char)
    requires |pattern| > 0
    requires c in ReplaceAll(s, pattern, replacement)
    ensures c in s || c in replacement
    decreases |s|
  {
    if StartsWith(s, pattern) {
      if c !in replacement {
        ReplaceAllChars(s[|pattern|..], pattern, replacement, c);
        assert c in s[|pattern|..];
      }
    } else {
      if c != s[0] {
        ReplaceAllChars(s[1..], pattern, replacement, c);
      }
    }
  }

  /** Replacing every `c` by a text that has no `c` leaves no `c` behind. */
  lemma {:induction false} ReplaceAllRemovesChar(s: string, c: char, replacement: string)
    requires c !in replacement
    ensures c !in ReplaceAll(s, [c], replacement)
    decreases |s|
  {
    if s != [] {
      ReplaceAllRemovesChar(s[1..], c, replacement);
      if !StartsWith(s, [c]) {
        assert s[..1] == [s[0]];
      }
    }
  }

  function StripLeft(s: string): (r: string)
    ensures |r| <= |s| && r == s[|s| - |r|..]
    ensures r == [] || !IsSpace(r[0])
  {
    if |s| > 0 && IsSpace(s[0]) then StripLeft(s[1..]) else s
  }

  function StripRight(s: string): (r: string)
    ensures |r| <= |s| && r == s[..|r|]
  {
    if |s| > 0 && IsSpace(s[|s| - 1]) then StripRight(s[..|s| - 1]) else s
  }

  /** `str.strip()` with no argument. */
  function Strip(s: string): (r: string) {
    StripRight(StripLeft(s))
  }

  /** `s` has no whitespace at either end. */
  predicate Trimmed(s: string) {
    s == [] || (!IsSpace(s[0]) && !IsSpace(s[|s| - 1]))
  }

  lemma {:induction false} StripLeftFront(s: string)
    ensures StripLeft(s) == [] || !IsSpace(StripLeft(s)[0])
    ensures forall i :: 0 <= i < |s| - |StripLeft(s)| ==> IsSpace(s[i])
  {
    if |s| > 0 && IsSpace(s[0]) {
      StripLeftFront(s[1..]);
      forall i | 0 <= i < |s| - |StripLeft(s)|
        ensures IsSpace(s[i])
      {
        if i > 0 {
          assert s[1..][i - 1] == s[i];
        }
      }
    }
  }

  lemma {:induction false} StripRightBack(s: string)
    ensures StripRight(s) == [] || !IsSpace(StripRight(s)[|StripRight(s)| - 1])
    ensures forall i :: |StripRight(s)| <= i < |s| ==> IsSpace(s[i])
  {
    if |s| > 0 && IsSpace(s[|s| - 1]) {
      StripRightBack(s[..|s| - 1]);
    }
  }

  lemma {:induction false} StripRightKeepsFront(s: string)
    requires s != [] && !IsSpace(s[0])
    ensures StripRight(s) != [] && StripRight(s)[0] == s[0]
  {
    if |s| > 0 && IsSpace(s[|s| - 1]) {
      StripRightKeepsFront(s[..|s| - 1]);
    }
  }

  /** The stripped text is an infix of the input with no whitespace at either end, and
      everything cut off was whitespace. */
  lemma StripSpec(s: string)
    ensures Trimmed(Strip(s))
    ensures Strip(s) == s[|s| - |StripLeft(s)|..][..|Strip(s)|]
  {
    var l := StripLeft(s);
    StripLeftFront(s);
    StripRightBack(l);
    if l != [] {
      StripRightKeepsFront(l);
    }
  }

  /** Stripping text that is already trimmed changes nothing. */
  lemma StripTrimmed(s: string)
    requires Trimmed(s)
    ensures Strip(s) == s
  {
  }

  /** Length of the leading run of non-whitespace characters. */
  function WordLen(s: string): (n: nat)
    ensures n <= |s|
    ensures forall i :: 0 <= i < n ==> !IsSpace(s[i])
    ensures n < |s| ==> IsSpace(s[n])
  {
    if s == [] || IsSpace(s[0]) then 0 else 1 + WordLen(s[1..])
  }

  /** `str.split()` with no argument: maximal runs of non-whitespace, empty tokens dropped. */
  function Split(s: string): seq<string>
    decreases |s|
  {
    var t := StripLeft(s);
    if t == [] then []
    else
      var n := WordLen(t);
      [t[..n]] + Split(t[n..])
  }

  /** A non-empty run of non-whitespace characters. */
  predicate IsToken(w: string) {
    |w| > 0 && forall i :: 0 <= i < |w| ==> !IsSpace(w[i])
  }

  /** Every token of `str.split()` is non-empty and free of whitespace. */
  lemma {:induction false} SplitTokens(s: string)
    ensures forall k :: 0 <= k < |Split(s)| ==> IsToken(Split(s)[k])
    decreases |s|
  {
    var t := StripLeft(s);
    if t != [] {
      var n := WordLen(t);
      FirstWordIsToken(t);
      SplitTokens(t[n..]);
      ConsTokens(t[..n], Split(t[n..]));
    }
  }

  lemma FirstWordIsToken(t: string)
    requires t != [] && !IsSpace(t[0])
    ensures IsToken(t[..WordLen(t)])
  {
    var n := WordLen(t);
    assert forall i :: 0 <= i < n ==> t[..n][i] == t[i];
  }

  lemma ConsTokens(w: string, rest: seq<string>)
    requires IsToken(w) && forall k :: 0 <= k < |rest| ==> IsToken(rest[k])
    ensures forall k :: 0 <= k < |[w] + rest| ==> IsToken(([w] + rest)[k])
  {
    forall k | 0 <= k < |[w] + rest| ensures IsToken(([w] + rest)[k]) {
      if k > 0 {
        assert ([w] + rest)[k] == rest[k - 1];
      }
    }
  }

  /** `sep.join(parts)`. */
  function Join(parts: seq<string>, sep: string): string {
    if |parts| == 0 then ""
    else if |parts| == 1 then parts[0]
    else parts[0] + sep + Join(parts[1..], sep)
  }

  /** `"".join(parts)`. */
  function Concat(parts: seq<string>): string {
    if |parts| == 0 then "" else parts[0] + Concat(parts[1..])
  }

  lemma {:induction false} ConcatAppend(parts: seq<string>, last: string)
    ensures Concat(parts + [last]) == Concat(parts) + last
  {
    if |parts| > 0 {
      assert (parts + [last])[1..] == parts[1..] + [last];
      ConcatAppend(parts[1..], last);
    }
  }

  /** Joining the tokens of `str.split()` back together gives the input with its
      whitespace removed. */
  lemma {:induction false} SplitConcat(s: string)
    ensures Concat(Split(s)) == Keep(s, NotSpace)
    decreases |s|, 1
  {
    var t := StripLeft(s);
    StripLeftFront(s);
    var k := |s| - |t|;
    KeepSplitAt(s, k, NotSpace);
    NoneKept(s[..k]);
    SplitConcatStripped(s);
  }

  lemma {:induction false} SplitConcatStripped(s: string)
    ensures Concat(Split(s)) == Keep(StripLeft(s), NotSpace)
    decreases |s|, 0
  {
    var t := StripLeft(s);
    if t != [] {
      var n := WordLen(t);
      var rest := t[n..];
      assert Split(s) == [t[..n]] + Split(rest);
      assert Concat(Split(s)) == t[..n] + Concat(Split(rest)) by {
        assert ([t[..n]] + Split(rest))[1..] == Split(rest);
      }
      SplitConcat(rest);
      KeepSplitAt(t, n, NotSpace);
      KeepAll(t[..n], NotSpace);
    }
  }

  lemma {:induction false} NoneKept(s: string)
    requires forall i :: 0 <= i < |s| ==> IsSpace(s[i])
    ensures Keep(s, NotSpace) == []
  {
    if s != [] {
      NoneKept(s[1..]);
    }
  }
}

=== FILE: wrappers.dfy ===
/** Failure-carrying datatypes shared by every module of the model. */
module Wrappers {

  /** Python's `None` versus a present value. */
  datatype Option<+T> = None | Some(value: T) {
    function GetOr(default: T): T {
      match this
      case Some(v) => v
      case None => default
    }
  }

  /** The exceptions the modelled code raises. Each carries the text the source puts in it
      where there is one. */
  datatype Error =
    | KeyError(key: string)
    | MissingRecord(id: nat)   // KeyError from a lookup of a record id the table lacks
    | IndexError
    | ValueError(message: string)
    | NotImplementedError
    | UnboundLocalError(name: string)

  /** A computation that either returns a value or raises one of the exceptions above. */
  datatype Result<+R> = Ok(value: R) | Err(error: Error) {
    predicate IsFailure() {
      Err?
    }

    function PropagateFailure<U>(): Result<U>
      requires Err?
    {
      Err(error)
    }

    function Extract(): R
      requires Ok?
    {
      value
    }
  }
}
